=== FILE: README.md ===
# LifeTunes core, modelled in Dafny

LifeTunes is an iOS app. It proposes daily wellbeing challenges, keeps a
location-tagged mood journal, builds mood- and place-based playlists, and
shows a personalised news feed. Beneath its SwiftUI screens sit a few small
in-memory state machines and aggregations. This project models them:

- **Challenges** (`challenge_model.dfy`, `challenges.dfy`). The model covers:
  - the `Challenge` record and its two enums;
  - the once-per-day batch of three challenges drawn from a pool of ten;
  - start, clamped progress update and completion;
  - points by difficulty, the streak, today's progress ratio and the
    completions of the last seven days.

  `ChallengesViewModel` is a class whose methods update its fields.
- **Mood journal and analytics** (`moods.dfy`, `mood_service.dfy`,
  `mood_map.dfy`). The model covers:
  - the twelve moods and their emoji and colour tables;
  - the clamped `MoodRecord`, and the log capped at 100 with the oldest
    evicted first;
  - per-mood counts in a time window, the average intensity and the
    most-frequent mood;
  - mood diversity and the guard of the consistency score;
  - grid-cell grouping (`Int(lat*1000)`, `Int(lon*1000)`), with and
    without the mood, and the top-20 hotspot ranking;
  - the activity and genre suggestion tables.
- **News** (`news_model.dfy`, `news.dfy`, `news_feed.dfy`, `trending.dfy`,
  `words.dfy`). The model covers:
  - the `NewsArticle` record and its reading time;
  - the six sample articles;
  - the personalised feed: interest filter, music add-on, dedupe by id, a
    shuffle cut to ten, and the bookmark flags;
  - search;
  - the stored bookmark-id toggle list, and the view model's bookmark list;
  - category filters, recommendations, the read list, and trending topics.
- **Music and playlists** (`playlists.dfy`, `music.dfy`,
  `playlist_screen.dfy`). The model covers:
  - `Track` and `Playlist` with their defaults;
  - the sample tracks;
  - the mood playlist with its fallback, challenge recommendations and the
    geo-tuned playlist;
  - the play/pause/stop flags;
  - the playlist list with add-if-absent and delete-by-id.
- **User profile** (`users.dfy`). The model covers the `User` record with
  its defaults, the coordinate coding as a keyed container, and the
  profile view model's updates.
- **Hex colour parser** (`hex_color.dfy`). This is `Color(hex:)`:
  - trim non-alphanumerics, scan the hex digits, and split by digit count
    into (a, r, g, b) bytes;
  - round trips from `#RRGGBB` and `#AARRGGBB`.

`common.dfy` holds shared vocabulary: `Option`, coordinates, ASCII
lowercasing and substring search, order-keeping filters, permutations and a
stable descending sort.

The model makes these choices:

- Identifiers are natural numbers. Each constructor takes the fresh id as a
  parameter. The exception is the eight sample tracks, which have the fixed
  ids 0 to 7; no contract depends on track ids.
- The clock is an integer number of seconds passed in as `now`. A calendar
  day is an integer `today`.
- `shuffled()` is an arbitrary permutation passed in as `order`.
  `randomElement()` is an arbitrary index.
- The device location is an `Option<Coordinate>` input.
- Asynchronous completions run at once. Combine bindings deliver their
  value immediately, except the profile screen's location bindings: they
  deliver through the main queue after `init` returns, so its constructor
  ends with them undelivered and `ReceivePermission` and `ReceiveLocation`
  are those later deliveries.

`completeChallenge` (ChallengesViewModel.swift lines 85-115) has no guard
against a challenge that is already completed. When completion runs twice for
the same challenge, the code archives it twice and awards its points twice.
The model follows the code, and `Challenges.CompleteTwice` states the double
award.

## Model

| member | source | states |
|---|---|---|
| ChallengeModel.CategoriesComplete | dafoma_18/Models/Challenge.swift:33-40 | The category enum has exactly six distinct cases and every category is listed. |
| ChallengeModel.DifficultiesComplete | dafoma_18/Models/Challenge.swift:42-47 | The difficulty enum has exactly four distinct cases and every difficulty is listed. |
| ChallengeModel.NewChallenge | dafoma_18/Models/Challenge.swift:17-30 | A new challenge stores the given fields. It starts fresh: progress 0, not completed, no completion date, no track and no rewards. |
| Challenges.PointsForDifficulty | dafoma_18/ViewModels/ChallengesViewModel.swift:117-124 | Every difficulty is worth a positive number of points (10/25/50/100). |
| Challenges.Rank | dafoma_18/Models/Challenge.swift:42-47 | A difficulty's rank is its position in the declared order. |
| Challenges.PointsIncreaseWithDifficulty | dafoma_18/ViewModels/ChallengesViewModel.swift:117-124 | One difficulty is worth fewer points than another exactly when it ranks lower: the table is strictly increasing. |
| Challenges.PoolEntry | dafoma_18/ViewModels/ChallengesViewModel.swift:33-44 | The i-th pool challenge carries row i of the sample table (title, description, category, difficulty, duration, steps), a fresh state and id base+i. |
| Challenges.Pool | dafoma_18/ViewModels/ChallengesViewModel.swift:33-44 | The pool has ten fresh challenges with consecutive ids. |
| Challenges.DailyBatch | dafoma_18/ViewModels/ChallengesViewModel.swift:46 | For any shuffle, the batch is three pool challenges picked by the shuffle, all fresh, with pairwise distinct ids. |
| Challenges.ReplaceFirst | dafoma_18/ViewModels/ChallengesViewModel.swift:61-63 | Replacing by id keeps the length and the ids at every position. It leaves the list unchanged when the id is absent, and otherwise overwrites only the first match. It keeps ids distinct. |
| Challenges.IndexOfSameIds | dafoma_18/ViewModels/ChallengesViewModel.swift:74 | The first index of an id depends only on the ids in the list. |
| Challenges.ReplaceFirstTwice | dafoma_18/ViewModels/ChallengesViewModel.swift:104-106 | Replacing the same id twice equals replacing it once with the last value. This is why the later overwrite in the progress update wins. |
| Challenges.WithProgress | dafoma_18/ViewModels/ChallengesViewModel.swift:67-68 | The updated progress is min(progress, requiredSteps). Nothing else in the challenge changes. |
| Challenges.Completed | dafoma_18/ViewModels/ChallengesViewModel.swift:86-89 | A completed copy is flagged completed, dated now and at full progress. Every other field is kept. |
| Challenges.CompletingLastOpenChallenge | dafoma_18/ViewModels/ChallengesViewModel.swift:104-112 | If every other batch entry is done, completing the remaining one makes the whole batch complete, which triggers the streak. |
| Challenges.OtherOpenChallenge | dafoma_18/ViewModels/ChallengesViewModel.swift:104-112 | If another batch entry is still open, the batch is not complete after this completion. |
| Challenges.ChallengesViewModel.constructor | dafoma_18/ViewModels/ChallengesViewModel.swift:14-30 | `loadChallenges` restores the saved archive, points and streak (an archive that does not decode reads as empty), and no challenge is current. Then the batch is generated as by `generateDailyChallenges`: if it was last generated today, the saved batch is kept (empty if it does not decode); otherwise a fresh batch replaces it. Either way today is recorded. |
| Challenges.ChallengesViewModel.GenerateDailyChallenges | dafoma_18/ViewModels/ChallengesViewModel.swift:20-30 | On the day of the last generation nothing changes. On a new day a fresh batch of three, with ids unused by the old batch, replaces the old one and today is recorded. Points, streak and archive are kept either way. |
| Challenges.ChallengesViewModel.StartChallenge | dafoma_18/ViewModels/ChallengesViewModel.swift:49-64 | Starting makes a progress-0 copy current and puts it in place of the batch entry with that id, if any. Points, streak and archive are unchanged. The track lookup has no effect. |
| Challenges.ChallengesViewModel.CompleteChallenge | dafoma_18/ViewModels/ChallengesViewModel.swift:85-115 | Completion appends the completed copy to the archive, adds the difficulty's points and clears the current challenge if it has that id. It overwrites the batch entry with that id. The streak grows by one exactly when the whole batch is then complete. |
| Challenges.ChallengesViewModel.UpdateChallengeProgress | dafoma_18/ViewModels/ChallengesViewModel.swift:66-83 | Progress is clamped to the required steps. Reaching them completes the challenge (archive, points, streak). The batch entry is then overwritten with the clamped, uncompleted copy. The current challenge becomes the clamped copy, or nil when it was just completed. |
| Challenges.ChallengesViewModel.TodaysProgress | dafoma_18/ViewModels/ChallengesViewModel.swift:126-129 | Today's progress lies in [0,1]. It is 0 exactly when no batch entry is done, and 1 exactly when the batch is non-empty and all done. |
| Challenges.Fraction | dafoma_18/ViewModels/ChallengesViewModel.swift:128 | A count out of a positive total lies in [0,1]. It is 0 only for a zero count and 1 only for the full total. |
| Challenges.ChallengesViewModel.CompletedThisWeek | dafoma_18/ViewModels/ChallengesViewModel.swift:131-137 | The archive entries completed at or after seven days ago, in archive order: every such entry is returned and nothing else, and an entry archived twice is returned twice. |
| Challenges.CompleteTwice | dafoma_18/ViewModels/ChallengesViewModel.swift:85-115 | Completing the same challenge twice archives it twice and awards its points twice. There is no guard in the code. |
| Common.Truncate | dafoma_18/Services/MoodService.swift:67 | `Int(x)` truncates toward zero: the result is within one of x, on the zero side. |
| Common.Lower | dafoma_18/Services/NewsService.swift:74 | Lowercasing keeps the length, maps each character by ASCII lowercasing and leaves no upper-case letter. |
| Common.LowerTwice | dafoma_18/Services/NewsService.swift:74 | Lowercasing is idempotent. |
| HexColor.Trim | dafoma_18/Views/MoodMapView.swift:768 | The trimmed string starts and ends with an alphanumeric (or is empty) and is no longer than the input. |
| HexColor.TrimPadding | dafoma_18/Views/MoodMapView.swift:768 | Trimming removes exactly the non-alphanumeric padding around an alphanumeric core. |
| HexColor.HexRun | dafoma_18/Views/MoodMapView.swift:770 | The scanner consumes the longest prefix of hex digits. |
| HexColor.HexValue | dafoma_18/Views/MoodMapView.swift:770 | The value of n hex digits is below 16^n. |
| HexColor.ScanHex | dafoma_18/Views/MoodMapView.swift:770 | The scanned value of a string is below 16 to the power of its length. |
| HexColor.Rgb12 | dafoma_18/Views/MoodMapView.swift:773-774 | From a 3-digit value, alpha is 255. Each channel is a nibble times 17, and the nibbles reassemble the value; all are bytes. |
| HexColor.Rgb24 | dafoma_18/Views/MoodMapView.swift:775-776 | From a 6-digit value, alpha is 255 and r·65536+g·256+b reassembles the value; all are bytes. |
| HexColor.Argb32 | dafoma_18/Views/MoodMapView.swift:777-778 | From an 8-digit value, a·2^24+r·65536+g·256+b reassembles the value; all are bytes. |
| HexColor.ParseHex | dafoma_18/Views/MoodMapView.swift:766-791 | The dispatch is on the trimmed length: 3, 6 or 8 digits decode as above, and any other length gives (1,1,1,0). Every channel is a byte. |
| HexColor.FormatHex6 | dafoma_18/Views/MoodMapView.swift:775-776 | A colour prints as '#' plus six hex digits. |
| HexColor.FormatHex8 | dafoma_18/Views/MoodMapView.swift:777-778 | A colour with alpha prints as '#' plus eight hex digits. |
| HexColor.Digits6Value | dafoma_18/Views/MoodMapView.swift:775-776 | Six printed digits scan back to r·65536+g·256+b. |
| HexColor.Digits8Value | dafoma_18/Views/MoodMapView.swift:777-778 | Eight printed digits scan back to a·2^24+r·65536+g·256+b. |
| HexColor.Hex6RoundTrip | dafoma_18/Views/MoodMapView.swift:766-791 | Parsing "#RRGGBB" gives back (255, r, g, b). |
| HexColor.Hex8RoundTrip | dafoma_18/Views/MoodMapView.swift:766-791 | Parsing "#AARRGGBB" gives back (a, r, g, b). |
| Moods.AllMoodsComplete | dafoma_18/Models/MoodRecord.swift:28-40 | There are exactly twelve distinct moods and every mood is listed. |
| Moods.MoodSetBound | dafoma_18/ViewModels/MoodMapViewModel.swift:127-128 | A set of moods has at most twelve members, and exactly twelve only when it holds every mood. |
| Moods.DistinctCard | dafoma_18/ViewModels/MoodMapViewModel.swift:127 | A duplicate-free list of moods has as many elements as its set. |
| Moods.EmojiTable | dafoma_18/Models/MoodRecord.swift:42-57 | Each emoji is one character, and different moods have different emoji. |
| Moods.ColorIsHex6 | dafoma_18/Models/MoodRecord.swift:59-74 | Every mood colour is '#' followed by six hex digits. |
| Moods.ColorsDistinct | dafoma_18/Models/MoodRecord.swift:61-72 | The twelve colours are pairwise distinct. |
| Moods.Hex6Parses | dafoma_18/Views/MoodMapView.swift:775-776 | A '#'+6-hex colour parses to an opaque colour whose channels reassemble its digits. |
| Moods.ClampUnit | dafoma_18/Models/MoodRecord.swift:18 | The clamp lies in [0,1]. An in-range input is unchanged, below 0 gives 0 and above 1 gives 1. |
| Moods.NewMoodRecord | dafoma_18/Models/MoodRecord.swift:15-25 | A new record stores mood, location, notes and activities as given, with the clamped intensity, timestamp now, and no weather or genre. |
| Moods.CellOf | dafoma_18/Services/MoodService.swift:67 | A coordinate's cell is within one unit of lat·1000 and lon·1000 (truncation). |
| Moods.NearbyPointsShareCell | dafoma_18/Services/MoodService.swift:67 | (37.0, -122.0) and (37.0001, -122.0001) fall in the same cell (37000, -122000). |
| Moods.SuggestActivities | dafoma_18/Services/MoodService.swift:82-105 | Every mood gets exactly four activities. |
| Moods.RecommendedGenre | dafoma_18/Services/MoodService.swift:107-130 | Every mood gets a non-empty genre string. |
| Moods.SharedRecommendations | dafoma_18/Services/MoodService.swift:82-130 | The location is ignored. Happy and Excited share a list and a genre, and so do Calm and Relaxed. |
| MoodAnalytics.AppendCapped | dafoma_18/Services/MoodService.swift:21-28 | The log after recording ends with the new record. It holds min(n+1, 100) records: the newest suffix of old log plus record. Below capacity nothing is evicted. |
| MoodAnalytics.CountOf | dafoma_18/Services/MoodService.swift:44-46 | A mood's count never exceeds the number of records. |
| MoodAnalytics.CountOfPositive | dafoma_18/Services/MoodService.swift:44-46 | A mood's count is positive exactly when some record has that mood. |
| MoodAnalytics.TallyMoodStep | dafoma_18/Services/MoodService.swift:44-46 | One `moodCounts[mood, default: 0] += 1` step keeps the map equal to the per-mood counts of the records seen. |
| MoodAnalytics.CountsPartition | dafoma_18/Services/MoodService.swift:43-48 | The per-mood counts over all twelve moods add up to the number of records. |
| MoodAnalytics.CountsAddUp | dafoma_18/Services/MoodService.swift:39-49 | A map holding the per-mood counts sums to the number of records counted. |
| MoodAnalytics.SumIntensityBounds | dafoma_18/Services/MoodService.swift:59 | With clamped intensities, the total lies between 0 and the number of records. |
| MoodAnalytics.MeanInUnit | dafoma_18/Services/MoodService.swift:60 | Such a total divided by the count lies in [0,1]. |
| MoodAnalytics.CountKey | dafoma_18/Services/MoodService.swift:67-73 | The number of records with a given (cell, mood) key is at most the number of records. |
| MoodAnalytics.TallyExisting | dafoma_18/Services/MoodService.swift:69-70 | Bumping the existing group of a record's key keeps the groups correct for the log extended by that record. |
| MoodAnalytics.TallyNew | dafoma_18/Services/MoodService.swift:71-72 | Adding a new group of count 1, located at the record, keeps the groups correct when the key was absent. |
| MoodAnalytics.GroupsCorrect | dafoma_18/Services/MoodService.swift:64-74 | After the loop, each present key has exactly one group. Its count is the number of records with that key, and its location is that of the key's first record. Keys with records are exactly those present. |
| MoodAnalytics.InsertByFrequency | dafoma_18/Services/MoodService.swift:77 | Inserting into a list sorted by decreasing count keeps it sorted, and adds exactly that element. |
| MoodAnalytics.SortByFrequency | dafoma_18/Services/MoodService.swift:77 | The sort yields a permutation ordered by non-increasing count. |
| MoodAnalytics.TopHotspotsCounts | dafoma_18/Services/MoodService.swift:63-80 | Every hotspot returned is a real group: its frequency is its key's record count, and its location is the key's first location. |
| MoodAnalytics.TopHotspotsAreRanked | dafoma_18/Services/MoodService.swift:76-79 | At most twenty hotspots, in non-increasing frequency, with distinct keys and total frequency at most the log size. |
| MoodAnalytics.RankedOrOutranked | dafoma_18/Services/MoodService.swift:76-78 | After sorting and taking twenty, a group is either kept or outranked by twenty groups at least as frequent. |
| MoodAnalytics.TopHotspotsComplete | dafoma_18/Services/MoodService.swift:63-80 | A key with records is either among the hotspots or all twenty places are taken by keys at least as frequent. |
| MoodAnalytics.NearbyHappyRecordsShareHotspot | dafoma_18/Services/MoodService.swift:66-79 | Two Happy records 0.0001° apart form one hotspot of frequency 2 at the first record's location. |
| MoodAnalytics.MoodService.constructor | dafoma_18/Services/MoodService.swift:5-8 | The service starts with an empty log, an empty history and no current mood. |
| MoodAnalytics.MoodService.RecordMood | dafoma_18/Services/MoodService.swift:12-29 | Recording appends the clamped record to the capped log and to the uncapped history, and makes its mood current. |
| MoodAnalytics.MoodService.GetMoodTrends | dafoma_18/Services/MoodService.swift:39-49 | The loop returns, for the records at or after now−period, each mood with a positive count mapped to that count and no other mood. The counts sum to the number of such records. |
| MoodAnalytics.MoodService.AverageMoodIntensity | dafoma_18/Services/MoodService.swift:51-61 | With no matching recent record the average is 0. With clamped intensities it lies in [0,1]. |
| MoodAnalytics.MoodService.GetMoodHotspots | dafoma_18/Services/MoodService.swift:63-80 | The one-pass grouping loop, then sort and prefix(20), returns the ranked hotspots. There are at most 20, ordered by non-increasing frequency, and each frequency is its key's positive record count. |
| MoodMap.MostFrequentIn | dafoma_18/ViewModels/MoodMapViewModel.swift:123 | Over a list of moods, the maximum is absent exactly when none is counted. Otherwise it is a counted mood whose count is at least every other listed count. |
| MoodMap.MostFrequent | dafoma_18/ViewModels/MoodMapViewModel.swift:121-124 | The most frequent mood is nil exactly for an empty count map. Otherwise it is a key with the largest count. |
| MoodMap.MostFrequentCovers | dafoma_18/ViewModels/MoodMapViewModel.swift:123 | Scanning all twelve moods finds a maximum of the whole map. |
| MoodMap.Diversity | dafoma_18/ViewModels/MoodMapViewModel.swift:126-130 | Diversity lies in [0,1]. It is 0 exactly for an empty log and 1 exactly when every mood occurs. |
| MoodMap.DiversityOfOneMood | dafoma_18/ViewModels/MoodMapViewModel.swift:126-130 | A non-empty log of a single mood has diversity 1/12. |
| MoodMap.Consistency | dafoma_18/ViewModels/MoodMapViewModel.swift:132-143 | Fewer than two records give 0. The score is never negative, and at most 1 for any non-negative square root. |
| MoodMap.ConsistencyOfEqualIntensities | dafoma_18/ViewModels/MoodMapViewModel.swift:132-143 | Two or more records of equal intensity are perfectly consistent (score 1). |
| MoodMap.CellCount | dafoma_18/ViewModels/MoodMapViewModel.swift:149 | The number of records in a cell is at most the log size. |
| MoodMap.CellPartition | dafoma_18/ViewModels/MoodMapViewModel.swift:145-159 | A cell's per-mood counts over all twelve moods add up to the cell's record count. |
| MoodMap.LocationMapStep | dafoma_18/ViewModels/MoodMapViewModel.swift:148-156 | One loop step (create the cell's map if missing, then bump the mood) keeps the nested map equal to the per-cell, per-mood counts. |
| MoodMap.LocationMapTotals | dafoma_18/ViewModels/MoodMapViewModel.swift:145-159 | Each cell's counts sum to the records in the cell. Every hotspot group's frequency appears in its cell under its mood. |
| MoodMap.MoodMapViewModel.constructor | dafoma_18/ViewModels/MoodMapViewModel.swift:22-27 | The screen starts with no hotspots and neither flag set. |
| MoodMap.MoodMapViewModel.RecordMood | dafoma_18/ViewModels/MoodMapViewModel.swift:49-64 | Without a location nothing changes. With one, the record is appended to the capped log and the history, the mood becomes current, the hotspots are refreshed and both flags end cleared. |
| MoodMap.MoodMapViewModel.GetMostFrequentMood | dafoma_18/ViewModels/MoodMapViewModel.swift:121-124 | Over the last week, the result is nil exactly when there are no records. Otherwise it is a mood that occurs, with a count at least that of every other mood. |
| MoodMap.MoodMapViewModel.GetLocationMoodMap | dafoma_18/ViewModels/MoodMapViewModel.swift:145-159 | The loop returns a map whose cells are exactly those with records. Each cell maps exactly the moods recorded there to their counts. The counts sum to the cell's records and agree with the hotspot groups. |
| News.SampleEntry | dafoma_18/Services/NewsService.swift:12-61 | The i-th sample carries row i of the sample table, unbookmarked, with no tags and id base+i. |
| News.SampleArticles | dafoma_18/Services/NewsService.swift:12-61 | There are six samples with distinct ids. |
| News.Candidates | dafoma_18/Services/NewsService.swift:68-85 | The candidates are the samples matching some interest (all samples when there are no interests), followed by the music samples when the user has music preferences. Every sample that qualifies is present. |
| News.UniqueById | dafoma_18/Services/NewsService.swift:87-89 | Deduplication keeps the first article of every id that occurs and nothing else, so the ids are distinct. |
| News.UniqueSkip | dafoma_18/Services/NewsService.swift:87-89 | A later article whose id is already kept is skipped. |
| News.UniqueAdd | dafoma_18/Services/NewsService.swift:87-89 | An article with a new id is kept as its id's first occurrence. |
| News.WithBookmarkFlags | dafoma_18/Services/NewsService.swift:93-99 | Each article's flag is set exactly when its id is in the stored list. Nothing else changes. |
| News.FeedDistinct | dafoma_18/Services/NewsService.swift:63-104 | For any shuffle, the feed has at most ten articles with distinct ids. |
| News.FeedEntry | dafoma_18/Services/NewsService.swift:63-104 | Every feed article is a candidate sample whose flag reflects the stored id list. |
| News.ToggleId | dafoma_18/Services/NewsService.swift:121-132 | Toggling puts the id in the list exactly when it was absent and leaves other ids alone. It keeps the list duplicate-free. |
| News.ToggleTwiceAbsent | dafoma_18/Services/NewsService.swift:121-132 | Toggling an absent id twice restores the list exactly. |
| News.ToggleTwice | dafoma_18/Services/NewsService.swift:121-132 | Toggling any id twice restores the set of stored ids. |
| News.SetBookmarkFlag | dafoma_18/Services/NewsService.swift:134-137 | Only the first article with the id gets the new flag, and the list is unchanged if there is none. |
| News.BookmarkFlagMirrorsStore | dafoma_18/Services/NewsService.swift:119-137 | After a toggle, the on-screen flag of the article equals "its id is stored". |
| News.IndexKept | dafoma_18/Services/NewsService.swift:135 | Changing flags keeps where each id is first found. |
| News.NewsService.constructor | dafoma_18/Services/NewsService.swift:12-61 | The service starts with the sample articles, no feed, not loading and the stored ids. |
| News.NewsService.FetchPersonalizedNews | dafoma_18/Services/NewsService.swift:63-104 | The feed becomes the flagged, deduplicated, shuffled first ten candidates. The stored ids are kept and loading ends. |
| News.NewsService.SearchArticles | dafoma_18/Services/NewsService.swift:106-117 | Exactly the samples whose title, summary, content or a tag contains the query (ignoring case), in order. |
| News.NewsService.BookmarkArticle | dafoma_18/Services/NewsService.swift:119-138 | The stored ids toggle the article's id. The first on-screen article with that id gets the new stored state as its flag. |
| News.NewsService.GetBookmarkedArticles | dafoma_18/Services/NewsService.swift:140-142 | Exactly the flagged articles, in order. |
| News.NewsService.GetArticlesByCategory | dafoma_18/Services/NewsService.swift:144-146 | Exactly the articles of the category, in order. |
| NewsFeed.MarkRead | dafoma_18/ViewModels/NewsFeedViewModel.swift:129-133 | The id ends up in the read list, once: it is appended only if absent, and the list stays duplicate-free. |
| NewsFeed.MarkReadIdempotent | dafoma_18/ViewModels/NewsFeedViewModel.swift:126-134 | Marking an article read twice is the same as once. |
| NewsFeed.AddBookmark | dafoma_18/ViewModels/NewsFeedViewModel.swift:81-84 | The article is listed afterwards. It is appended only when its id was not listed, so the ids stay distinct. |
| NewsFeed.RemoveBookmark | dafoma_18/ViewModels/NewsFeedViewModel.swift:86 | No article with the id remains. Other ids keep their presence, the order is kept and ids stay distinct. |
| NewsFeed.RemoveBookmarkFacts | dafoma_18/ViewModels/NewsFeedViewModel.swift:86 | Filtering out one id keeps every other id present, in order, and distinct. |
| NewsFeed.NewsFeedViewModel.constructor | dafoma_18/ViewModels/NewsFeedViewModel.swift:17-33 | The screen copies the service's articles and loading flag, and loads the saved bookmark list if it decodes. |
| NewsFeed.NewsFeedViewModel.FetchPersonalizedNews | dafoma_18/ViewModels/NewsFeedViewModel.swift:45-48 | The service's new feed is shown on screen, and both the service and the screen stop loading. The stored bookmark ids, bookmarks, read ids and search results are kept. |
| NewsFeed.NewsFeedViewModel.FilterByCategory | dafoma_18/ViewModels/NewsFeedViewModel.swift:54-63 | The category is remembered. The screen shows the service's articles of that category, or all of them for nil, as an ordered sub-list. |
| NewsFeed.NewsFeedViewModel.PerformSearch | dafoma_18/ViewModels/NewsFeedViewModel.swift:65-76 | A blank query clears the results. Otherwise the results are the service's search, every one mentioning the query. |
| NewsFeed.NewsFeedViewModel.BookmarkArticle | dafoma_18/ViewModels/NewsFeedViewModel.swift:78-90 | The service toggles the id. If the service lists the article, the binding replaces the screen's articles with the service's re-flagged list; otherwise the screen's articles are kept. The local bookmark list then holds the article exactly when the passed article was flagged; other ids are unaffected and ids stay distinct. The category, search results, read list and both loading flags (the screen's and the service's) are kept. |
| NewsFeed.NewsFeedViewModel.GetBookmarkedArticles | dafoma_18/ViewModels/NewsFeedViewModel.swift:92-94 | Exactly the flagged service articles, in order. |
| NewsFeed.NewsFeedViewModel.GetArticlesByCategory | dafoma_18/ViewModels/NewsFeedViewModel.swift:96-98 | Exactly the on-screen articles of the category, in order. |
| NewsFeed.NewsFeedViewModel.GetTrendingTopics | dafoma_18/ViewModels/NewsFeedViewModel.swift:100-114 | At most ten distinct topics, each seen at least twice. |
| NewsFeed.NewsFeedViewModel.GetRecommendedArticles | dafoma_18/ViewModels/NewsFeedViewModel.swift:116-124 | Exactly the on-screen articles whose title, summary or a tag contains some interest, ignoring case, in order. No interests give no articles. |
| NewsFeed.NewsFeedViewModel.MarkArticleAsRead | dafoma_18/ViewModels/NewsFeedViewModel.swift:126-134 | The read list gains the id if absent, so the article is read afterwards. Nothing else changes. |
| NewsModel.NewsCategoriesComplete | dafoma_18/Models/NewsArticle.swift:33-42 | Exactly eight distinct categories, all listed. |
| NewsModel.CategoryName | dafoma_18/Models/NewsArticle.swift:33-42 | Each category's raw name has at least four characters. |
| NewsModel.ReadingTime | dafoma_18/Models/NewsArticle.swift:28 | Reading time is at least one minute. From 250 characters on it is the whole number of 250-character minutes; below 500 characters it is 1. |
| NewsModel.ReadingTimeMonotone | dafoma_18/Models/NewsArticle.swift:28 | Longer content never reads faster. |
| NewsModel.NewArticle | dafoma_18/Models/NewsArticle.swift:17-30 | A new article stores the given fields, unbookmarked, with no image or tags and the computed reading time. |
| Playlists.NewTrack | dafoma_18/Models/Playlist.swift:35-43 | A new track stores the given fields. |
| Playlists.NewPlaylist | dafoma_18/Models/Playlist.swift:14-23 | A new playlist stores the given fields, dated now. |
| Playlists.InitDefaults | dafoma_18/Models/Playlist.swift:14-43 | The defaults: no tracks, no location, empty mood and genre, not geo-tuned; tracks have empty genre and mood and are not local. |
| Music.SampleTracks | dafoma_18/Services/MusicService.swift:13-22 | Eight sample tracks with distinct ids, none local. |
| Music.MoodTracks | dafoma_18/Services/MusicService.swift:45-51 | The samples whose mood equals the mood's name ignoring case, in order; the first four samples when none match. |
| Music.MelancholicFallback | dafoma_18/Services/MusicService.swift:45-51 | No sample is Melancholic, so that playlist falls back to the first four samples. |
| Music.OpenCategories | dafoma_18/Services/MusicService.swift:72-73 | For Social and Music challenges every track qualifies. |
| Music.MusicService.constructor | dafoma_18/Services/MusicService.swift:5-22 | Nothing is playing, there is no track or playlist, and the samples are loaded. |
| Music.MusicService.PlayTrack | dafoma_18/Services/MusicService.swift:81-84 | The track becomes current and playback is on. |
| Music.MusicService.PausePlayback | dafoma_18/Services/MusicService.swift:86-88 | Playback is off and the current track is kept. |
| Music.MusicService.StopPlayback | dafoma_18/Services/MusicService.swift:90-93 | Playback is off and no track is current. |
| Music.MusicService.MoodBasedPlaylist | dafoma_18/Services/MusicService.swift:43-58 | The playlist is "<Mood> Playlist", mood = name, genre "Mixed", no location, not geo-tuned, with the mood tracks. |
| Music.MusicService.RecommendedTracks | dafoma_18/Services/MusicService.swift:60-79 | The first min(3, n) of the n samples that suit the challenge category, in order. |
| Music.MusicService.LocationCandidates | dafoma_18/Services/MusicService.swift:97-101 | With an empty mood all samples; otherwise exactly the samples whose mood contains it, ignoring case. |
| Music.MusicService.TracksForLocation | dafoma_18/Services/MusicService.swift:103 | For any shuffle, min(6, n) candidates in the shuffled order. |
| Music.MusicService.GeoTunedPlaylist | dafoma_18/Services/MusicService.swift:24-41 | The playlist is "<place> Mix", geo-tuned, genre "Mixed", at the location, with at most six tracks whose mood contains the requested one. |
| PlaylistScreen.AddIfAbsent | dafoma_18/ViewModels/PlaylistViewModel.swift:60-66 | The id is present afterwards. The playlist is appended only if its id was absent, and ids stay distinct. |
| PlaylistScreen.WithoutId | dafoma_18/ViewModels/PlaylistViewModel.swift:68-69 | No playlist with the id remains. Every other playlist is kept, in its original order, and ids stay distinct. |
| PlaylistScreen.FilterKeepsDistinctIds | dafoma_18/ViewModels/PlaylistViewModel.swift:69 | Any order-keeping filter of a list with distinct ids has distinct ids. |
| PlaylistScreen.PlaylistViewModel.constructor | dafoma_18/ViewModels/PlaylistViewModel.swift:15-27 | The saved playlists are restored when they decode (otherwise the list is empty). The current playlist is the music service's, delivered by the binding. Nothing is generating and there is no error. |
| PlaylistScreen.PlaylistViewModel.AddPlaylist | dafoma_18/ViewModels/PlaylistViewModel.swift:60-66 | The list becomes add-if-absent of the playlist and grows by at most one. |
| PlaylistScreen.PlaylistViewModel.DeletePlaylist | dafoma_18/ViewModels/PlaylistViewModel.swift:68-74 | All playlists with the id are removed and the others keep their order. The current playlist is cleared exactly when it had that id. |
| PlaylistScreen.PlaylistViewModel.PlaylistsForMood | dafoma_18/ViewModels/PlaylistViewModel.swift:97-99 | Exactly the playlists whose mood equals the argument, ignoring case, in order. |
| PlaylistScreen.PlaylistViewModel.GenerateGeoTunedPlaylist | dafoma_18/ViewModels/PlaylistViewModel.swift:29-45 | Without a location only the error message is set. With one the new playlist is current and added, generation is over and there is no error. |
| PlaylistScreen.PlaylistViewModel.GenerateMoodBasedPlaylist | dafoma_18/ViewModels/PlaylistViewModel.swift:47-58 | The mood playlist becomes current and is added; generation is over and there is no error. |
| PlaylistScreen.PlaylistViewModel.PlayTrack | dafoma_18/ViewModels/PlaylistViewModel.swift:76-78 | The music service plays the track and keeps its current playlist. |
| PlaylistScreen.PlaylistViewModel.PausePlayback | dafoma_18/ViewModels/PlaylistViewModel.swift:80-82 | The music service pauses and keeps its track and current playlist. |
| PlaylistScreen.PlaylistViewModel.StopPlayback | dafoma_18/ViewModels/PlaylistViewModel.swift:84-86 | The music service stops and clears its track, keeping its current playlist. |
| Trending.AllWords | dafoma_18/ViewModels/NewsFeedViewModel.swift:101-103 | The words are exactly the headline words of the articles: every headline word of every article is among them, and each of them is a headline word of some article. |
| Trending.Occurrences | dafoma_18/ViewModels/NewsFeedViewModel.swift:109-110 | A word's group size is positive exactly when the word occurs, and at most the number of words. |
| Trending.Dedup | dafoma_18/ViewModels/NewsFeedViewModel.swift:109 | The group keys: each word once, nothing else. |
| Trending.Frequent | dafoma_18/ViewModels/NewsFeedViewModel.swift:111 | Exactly the words seen more than once, each once. |
| Trending.Ranked | dafoma_18/ViewModels/NewsFeedViewModel.swift:113 | The frequent words, each once, sorted by non-increasing count. |
| Trending.TrendingTopics | dafoma_18/ViewModels/NewsFeedViewModel.swift:100-114 | At most ten distinct topics, each seen at least twice. |
| Trending.TrendingRanked | dafoma_18/ViewModels/NewsFeedViewModel.swift:113 | The topics come in non-increasing count order. |
| Trending.TrendingComplete | dafoma_18/ViewModels/NewsFeedViewModel.swift:111-113 | A word seen twice or more is missing only when all ten places hold words seen at least as often. |
| Trending.TrendingOrigin | dafoma_18/ViewModels/NewsFeedViewModel.swift:101-107 | Every topic is the normalized form of a headline word longer than four characters. |
| Words.Split | dafoma_18/ViewModels/NewsFeedViewModel.swift:102 | Splitting at whitespace gives one more piece than there are separators. The pieces hold no whitespace and together are the non-whitespace text. |
| Words.SplitWord | dafoma_18/ViewModels/NewsFeedViewModel.swift:102 | A word without whitespace splits into itself. |
| Words.TrimPunctuation | dafoma_18/ViewModels/NewsFeedViewModel.swift:107 | The result is a slice of the input that neither starts nor ends with punctuation. |
| Words.TrimUntouched | dafoma_18/ViewModels/NewsFeedViewModel.swift:107 | A word without surrounding punctuation is unchanged. |
| Words.TrimIdempotent | dafoma_18/ViewModels/NewsFeedViewModel.swift:107 | Trimming twice equals trimming once. |
| Users.NewUser | dafoma_18/Models/User.swift:15-25 | A new user stores the given fields, has no location, a daily goal of 3, streak 0 and joins now. |
| Users.DefaultUser | dafoma_18/Models/User.swift:15-25 | The default user has empty name and lists. |
| Users.EncodeCoordinate | dafoma_18/Models/User.swift:29-33 | A coordinate encodes to exactly the keys "latitude" and "longitude" with its values. |
| Users.DecodeCoordinate | dafoma_18/Models/User.swift:35-40 | Decoding succeeds exactly when both keys are present, and re-encodes to those two entries. |
| Users.CoordinateRoundTrip | dafoma_18/Models/User.swift:28-46 | Decoding an encoded coordinate gives it back. |
| Users.UserProfileViewModel.constructor | dafoma_18/ViewModels/UserProfileViewModel.swift:14-20 | The saved user if there is one, else a default user. The saved onboarding flag is used, and neither permission is granted yet: the location bindings deliver later, through the main queue. |
| Users.UserProfileViewModel.UpdateUser | dafoma_18/ViewModels/UserProfileViewModel.swift:37-43 | Name, preferences, goals and interests are replaced. Id, goal, streak, location, join date and flags are kept. |
| Users.UserProfileViewModel.CompleteOnboarding | dafoma_18/ViewModels/UserProfileViewModel.swift:45-48 | Onboarding is done; the user is unchanged. |
| Users.UserProfileViewModel.UpdateDailyGoal | dafoma_18/ViewModels/UserProfileViewModel.swift:50-53 | Only the daily goal changes. |
| Users.UserProfileViewModel.IncrementStreak | dafoma_18/ViewModels/UserProfileViewModel.swift:55-58 | Only the streak changes, by one. |
| Users.UserProfileViewModel.ResetStreak | dafoma_18/ViewModels/UserProfileViewModel.swift:60-63 | Only the streak changes, to zero. |
| Users.UserProfileViewModel.ReceivePermission | dafoma_18/ViewModels/UserProfileViewModel.swift:23-26 | The location service's enabled flag becomes the permission flag; nothing else changes. |
| Users.UserProfileViewModel.ReceiveLocation | dafoma_18/ViewModels/UserProfileViewModel.swift:28-33 | A location update stores the coordinate in the user and nothing else. |

## Left out

- SwiftUI views, layout and previews. `Color(hex:)` is the only logic taken from them.
- Persistence: UserDefaults and JSON save/load of challenges, playlists, bookmarks and the user profile. Loaded values are constructor parameters (`None` where the saved data does not decode), and the stored bookmark and read id lists are fields.
- Challenges.ChallengesViewModel.constructor: the saved points and streak are natural numbers, and a saved batch has distinct ids that precede the fresh ones. Every state the app saves has these properties, and a corrupted store is not modelled.
- PlaylistScreen.PlaylistViewModel.constructor: a saved playlist list has distinct ids, as every list the app saves does.
- LocationService: permissions and reverse geocoding. The current location is an `Option<Coordinate>` input.
- `getMoodRecordsNear`, `getMoodRecordsNearLocation` and `getPlaylistsForLocation`: they depend on `CLLocation.distance`, a great-circle computation over floating point.
- MoodMap.Consistency: the standard deviation takes the square root as a parameter. Only its guard, its sign and its upper bound (for a non-negative root) are stated, not the floating-point value.
- MoodAnalytics.MoodService.AverageMoodIntensity: intensities are exact reals, so Double rounding is not modelled. Only the empty case and the [0,1] bound are stated.
- The `/255` conversion of the parsed bytes to a SwiftUI `Color`: the model stops at the integer bytes.
- HexColor.ScanHex: `scanHexInt64` on digits that overflow 64 bits is not modelled. Trimmed strings of the three decoded lengths are at most eight digits.
- Randomness: `shuffled()` and `randomElement()` are arbitrary permutations and indices passed in. Properties are stated for every choice.
- Dictionary iteration order (hotspots, trending words, the most frequent mood) is unspecified in Swift. The model resolves ties by first-seen order, or by the declared mood order. The stated properties hold for any tie-break.
- News.UniqueById: the Set-based dedupe in `fetchPersonalizedNews` yields ids in an unspecified order. The model keeps first-seen order; the shuffle that follows absorbs the difference.
- The unused `location` argument of `fetchPersonalizedNews` is not modelled.
- Asynchronous dispatch, Combine bindings, the 500 ms search debounce and `removeDuplicates`: calls complete at once and in order.
- The notification permission requests and `requestLocationPermission` of the profile screen.
- `motivationalTrack` in `startChallenge`: the track is set on a local copy inside the callback and never stored, so the model gives it no effect.
- `selectMoodRecord`, `updateMapRegion`, `showMoodEntryDialog` and `hideMoodEntryDialog`: map-region and dialog flags with no logic.
- Calendar arithmetic: days and "seven days ago" are integer seconds and integer day numbers supplied by the caller.
- Unicode: lowercasing, alphanumerics and punctuation follow ASCII only. Whitespace is the Unicode separator and line-break set of `whitespacesAndNewlines`.
- NewsModel.ReadingTime: `content.count` is modelled as the number of Unicode scalars, while Swift counts grapheme clusters. The two differ on combining marks, multi-scalar emoji and CRLF: content of 250 CRLF pairs reads in 1 minute in Swift and in 2 in the model.
- HexColor.ParseHex: `hex.count` is modelled as the number of Unicode scalars, while Swift counts grapheme clusters. The two differ on combining marks, multi-scalar emoji and CRLF: `#a\r\nb` takes the 3-digit branch in Swift but falls back to the default colour in the model.
- Trending.TrendingOrigin: "longer than four" is measured in Unicode scalars, while Swift's `count` measures grapheme clusters. The two differ on combining marks, multi-scalar emoji and CRLF: `cafe` followed by a combining acute accent is kept by the model but dropped by Swift.
- Moods.CellOf: truncates the exact product of the coordinate and 1000. Swift rounds the Double product before `Int(...)` truncates it, so a coordinate whose product falls within rounding distance of an integer can land in the neighbouring cell. An example is latitude 1.005, whose Double product is 1004.9999999999999. Floating-point rounding is not modelled.
- Common.Contains: the empty string is contained in every string, which is the standard library's `contains(_:)` answer. The Foundation `range(of:)`-based overload answers false. This matters only for an empty interest or query; a blank search query never reaches the service.
- Moods.SharedRecommendations: states which moods share activities and genres. That the remaining rows differ from each other is not stated.
- Moods.SuggestActivities: the contract states four entries per mood, not the entries themselves; the shared rows are stated by Moods.SharedRecommendations.

=== FILE: challenge_model.dfy ===
/**
 * The `Challenge` record with its category and difficulty enumerations.
 */
module ChallengeModel {
  import opened Common
  import opened Playlists

  datatype ChallengeCategory = Fitness | Mindfulness | Creativity | Social | Learning | Music

  datatype ChallengeDifficulty = Easy | Medium | Hard | Expert

  const AllCategories: seq<ChallengeCategory> := [Fitness, Mindfulness, Creativity, Social, Learning, Music]

  const AllDifficulties: seq<ChallengeDifficulty> := [Easy, Medium, Hard, Expert]

  /** `ChallengeCategory.allCases` lists six distinct cases and every category is among them. */
  lemma CategoriesComplete(c: ChallengeCategory)
    ensures |AllCategories| == 6 && c in AllCategories
    ensures forall i, j :: 0 <= i < j < |AllCategories| ==> AllCategories[i] != AllCategories[j]
  {
    match c
    case Fitness => assert AllCategories[0] == c;
    case Mindfulness => assert AllCategories[1] == c;
    case Creativity => assert AllCategories[2] == c;
    case Social => assert AllCategories[3] == c;
    case Learning => assert AllCategories[4] == c;
    case Music => assert AllCategories[5] == c;
  }

  /** `ChallengeDifficulty.allCases` lists four distinct cases and every difficulty is among them. */
  lemma DifficultiesComplete(d: ChallengeDifficulty)
    ensures |AllDifficulties| == 4 && d in AllDifficulties
    ensures forall i, j :: 0 <= i < j < |AllDifficulties| ==> AllDifficulties[i] != AllDifficulties[j]
  {
    match d
    case Easy => assert AllDifficulties[0] == d;
    case Medium => assert AllDifficulties[1] == d;
    case Hard => assert AllDifficulties[2] == d;
    case Expert => assert AllDifficulties[3] == d;
  }

  datatype Challenge = Challenge(
    id: Uuid,
    title: string,
    description: string,
    category: ChallengeCategory,
    difficulty: ChallengeDifficulty,
    duration: real,
    requiredSteps: int,
    currentProgress: int,
    isCompleted: bool,
    completedDate: Option<int>,
    motivationalTrack: Option<Track>,
    rewards: seq<string>)

  /** A challenge that has not been started. */
  predicate Fresh(c: Challenge)
  {
    c.currentProgress == 0 && !c.isCompleted && c.completedDate == None
    && c.motivationalTrack == None && c.rewards == []
  }

  /** `Challenge.init`: the given fields are stored, and the challenge starts fresh. */
  function NewChallenge(id: Uuid, title: string, description: string, category: ChallengeCategory,
                        difficulty: ChallengeDifficulty, duration: real, requiredSteps: int): (c: Challenge)
    ensures c.id == id && c.title == title && c.description == description
    ensures c.category == category && c.difficulty == difficulty
    ensures c.duration == duration && c.requiredSteps == requiredSteps
    ensures Fresh(c)
  {
    Challenge(id, title, description, category, difficulty, duration, requiredSteps, 0, false, None, None, [])
  }
}

=== FILE: challenges.dfy ===
/**
 * ChallengesViewModel: the daily batch of three challenges, the archive of
 * completions, the points total and the streak.
 *
 * The calendar day and the clock are parameters, the shuffle of the pool
 * is a permutation parameter, and a counter hands out the identifiers
 * that `UUID()` would.
 */
module Challenges {
  import opened Common
  import opened ChallengeModel

  const Day: int := 24 * 60 * 60

  /** `pointsForDifficulty`. */
  function PointsForDifficulty(d: ChallengeDifficulty): (p: nat)
    ensures p > 0
  {
    match d
    case Easy => 10
    case Medium => 25
    case Hard => 50
    case Expert => 100
  }

  /** Position of a difficulty in `ChallengeDifficulty.allCases`. */
  function Rank(d: ChallengeDifficulty): (r: nat)
    ensures r < |AllDifficulties| && AllDifficulties[r] == d
  {
    match d
    case Easy => 0
    case Medium => 1
    case Hard => 2
    case Expert => 3
  }

  /** Harder challenges are worth strictly more. */
  lemma PointsIncreaseWithDifficulty(d: ChallengeDifficulty, e: ChallengeDifficulty)
    ensures Rank(d) < Rank(e) <==> PointsForDifficulty(d) < PointsForDifficulty(e)
  {
  }

  /** Title, description, category, difficulty, duration and required steps of the ten pool entries. */
  const PoolRows: seq<(string, string, ChallengeCategory, ChallengeDifficulty, real, int)> := [
    ("Morning Energy Boost", "Start your day with 10 minutes of energetic music and stretching",
     Fitness, Easy, 600.0, 1),
    ("Mindful Listening", "Listen to a calming playlist for 15 minutes while focusing on your breath",
     Mindfulness, Easy, 900.0, 1),
    ("Creative Expression", "Create something inspired by your current mood and location",
     Creativity, Medium, 1800.0, 3),
    ("Social Harmony", "Share a meaningful song with a friend and discuss its impact",
     Social, Medium, 1200.0, 2),
    ("Learn Something New", "Explore a new music genre and learn about its cultural background",
     Learning, Hard, 2700.0, 4),
    ("Workout Rhythm", "Complete a 20-minute workout with your favorite high-energy playlist",
     Fitness, Medium, 1200.0, 2),
    ("Musical Discovery", "Discover and save 5 new songs that match your current mood",
     Music, Easy, 900.0, 5),
    ("Meditation Journey", "Complete a 25-minute meditation session with ambient background music",
     Mindfulness, Hard, 1500.0, 1),
    ("Location Soundtrack", "Create a playlist that captures the essence of your current location",
     Creativity, Medium, 1800.0, 6),
    ("Skill Practice", "Practice a musical instrument or singing for 30 minutes",
     Learning, Hard, 1800.0, 1)]

  /** The i-th challenge of the pool, numbered from `base`. */
  function PoolEntry(base: Uuid, i: nat): (c: Challenge)
    requires i < |PoolRows|
    ensures c.id == base + i && Fresh(c)
    ensures (c.title, c.description, c.category, c.difficulty, c.duration, c.requiredSteps) == PoolRows[i]
  {
    var row := PoolRows[i];
    NewChallenge(base + i, row.0, row.1, row.2, row.3, row.4, row.5)
  }

  /** The pool `createDailyChallenges` shuffles. */
  function Pool(base: Uuid): (r: seq<Challenge>)
    ensures |r| == 10
    ensures forall i :: 0 <= i < |r| ==> r[i] == PoolEntry(base, i) && r[i].id == base + i && Fresh(r[i])
  {
    seq(10, i requires 0 <= i < 10 => PoolEntry(base, i))
  }

  /** `createDailyChallenges`: the first three of the shuffled pool. */
  function DailyBatch(base: Uuid, order: seq<nat>): (r: seq<Challenge>)
    requires IsPermutation(order, 10)
    ensures |r| == 3
    ensures forall i :: 0 <= i < |r| ==> r[i] == Pool(base)[order[i]]
    ensures forall i :: 0 <= i < |r| ==> base <= r[i].id < base + 10 && Fresh(r[i])
    ensures DistinctIds(r)
  {
    Take(Permute(Pool(base), order), 3)
  }

  predicate DistinctIds(s: seq<Challenge>)
  {
    forall i, j :: 0 <= i < j < |s| ==> s[i].id != s[j].id
  }

  predicate AllCompleted(s: seq<Challenge>)
  {
    forall i :: 0 <= i < |s| ==> s[i].isCompleted
  }

  /** `firstIndex(where: { $0.id == id })`. */
  function IndexOfId(s: seq<Challenge>, id: Uuid): Option<nat>
  {
    FirstIndex((x: Challenge) => x.id == id, s)
  }

  /** Overwrite the first entry with c's id by c; without such an entry nothing changes. */
  function ReplaceFirst(s: seq<Challenge>, c: Challenge): (r: seq<Challenge>)
    ensures |r| == |s|
    ensures forall i :: 0 <= i < |s| ==> r[i].id == s[i].id
    ensures IndexOfId(s, c.id).None? ==> r == s
    ensures IndexOfId(s, c.id).Some? ==>
      var k := IndexOfId(s, c.id).value;
      r[k] == c && forall i :: 0 <= i < |s| && i != k ==> r[i] == s[i]
    ensures DistinctIds(s) ==> DistinctIds(r)
  {
    match IndexOfId(s, c.id)
    case Some(k) => s[k := c]
    case None => s
  }

  /** Entries are found at the same place in two lists with the same ids. */
  lemma IndexOfSameIds(s: seq<Challenge>, t: seq<Challenge>, id: Uuid)
    requires |s| == |t| && forall i :: 0 <= i < |s| ==> s[i].id == t[i].id
    ensures IndexOfId(s, id) == IndexOfId(t, id)
  {
    var a, b := IndexOfId(s, id), IndexOfId(t, id);
    if a.Some? {
      assert t[a.value].id == id;
    }
    if b.Some? {
      assert s[b.value].id == id;
    }
  }

  /** A second overwrite of the same entry wins. */
  lemma ReplaceFirstTwice(s: seq<Challenge>, a: Challenge, b: Challenge)
    requires a.id == b.id
    ensures ReplaceFirst(ReplaceFirst(s, a), b) == ReplaceFirst(s, b)
  {
    IndexOfSameIds(s, ReplaceFirst(s, a), a.id);
  }

  /** `updatedChallenge.currentProgress = min(progress, challenge.requiredSteps)`. */
  function WithProgress(c: Challenge, progress: int): (u: Challenge)
    ensures u.currentProgress <= c.requiredSteps && u.currentProgress <= progress
    ensures u.currentProgress == progress || u.currentProgress == c.requiredSteps
    ensures u == c.(currentProgress := u.currentProgress)
  {
    c.(currentProgress := Min(progress, c.requiredSteps))
  }

  /** The archived copy `completeChallenge` makes. */
  function Completed(c: Challenge, now: int): (d: Challenge)
    ensures d.isCompleted && d.completedDate == Some(now) && d.currentProgress == c.requiredSteps
    ensures d.id == c.id && d.difficulty == c.difficulty && d.requiredSteps == c.requiredSteps
    ensures d == c.(isCompleted := true, completedDate := Some(now), currentProgress := c.requiredSteps)
  {
    c.(isCompleted := true, completedDate := Some(now), currentProgress := c.requiredSteps)
  }

  /** Completing the last open challenge of the batch completes the batch. */
  lemma CompletingLastOpenChallenge(s: seq<Challenge>, c: Challenge, now: int)
    requires DistinctIds(s) && IndexOfId(s, c.id).Some?
    requires forall i :: 0 <= i < |s| && s[i].id != c.id ==> s[i].isCompleted
    ensures AllCompleted(ReplaceFirst(s, Completed(c, now)))
  {
    var r := ReplaceFirst(s, Completed(c, now));
    var k := IndexOfId(s, c.id).value;
    forall i | 0 <= i < |r| ensures r[i].isCompleted {
      if i != k {
        assert s[i].id != s[k].id;
      }
    }
  }

  /** Another open challenge in the batch keeps the batch open. */
  lemma OtherOpenChallenge(s: seq<Challenge>, c: Challenge, now: int, j: nat)
    requires j < |s| && s[j].id != c.id && !s[j].isCompleted
    ensures !AllCompleted(ReplaceFirst(s, Completed(c, now)))
  {
    assert ReplaceFirst(s, Completed(c, now))[j] == s[j];
  }

  /** A count out of a non-empty total, as a fraction. */
  lemma Fraction(a: nat, n: nat)
    requires 0 < n && a <= n
    ensures 0.0 <= a as real / n as real <= 1.0
    ensures a as real / n as real == 0.0 <==> a == 0
    ensures a as real / n as real == 1.0 <==> a == n
  {
    var q := a as real / n as real;
    assert q * n as real == a as real;
  }

  class ChallengesViewModel {
    var dailyChallenges: seq<Challenge>
    var completedChallenges: seq<Challenge>
    var currentChallenge: Option<Challenge>
    var totalPoints: int
    var currentStreak: int
    /** The day stored under "LastChallengeGeneration". */
    var lastGenerationDay: Option<int>
    /** The next identifier `UUID()` stands for. */
    var nextId: Uuid

    /** Batch ids are distinct and were all handed out already; counters are non-negative. */
    ghost predicate Valid()
      reads this
    {
      && DistinctIds(dailyChallenges)
      && (forall i :: 0 <= i < |dailyChallenges| ==> dailyChallenges[i].id < nextId)
      && totalPoints >= 0 && currentStreak >= 0
    }

    /**
     * `init`: `loadChallenges` restores whatever was saved (a list that
     * does not decode, or a missing counter, reads as empty or 0), then
     * `generateDailyChallenges` replaces the batch unless it was generated
     * today. `freshBase` stands for the identifiers `UUID()` hands out next.
     */
    constructor(today: int, order: seq<nat>, savedDaily: Option<seq<Challenge>>,
                savedCompleted: Option<seq<Challenge>>, savedPoints: nat, savedStreak: nat,
                savedDay: Option<int>, freshBase: Uuid)
      requires IsPermutation(order, 10)
      requires savedDaily.Some? ==>
        DistinctIds(savedDaily.value) && forall i :: 0 <= i < |savedDaily.value| ==> savedDaily.value[i].id < freshBase
      ensures Valid()
      ensures completedChallenges == (if savedCompleted.Some? then savedCompleted.value else [])
      ensures currentChallenge == None
      ensures totalPoints == savedPoints && currentStreak == savedStreak
      ensures lastGenerationDay == Some(today)
      ensures savedDay == Some(today) ==>
        dailyChallenges == (if savedDaily.Some? then savedDaily.value else []) && nextId == freshBase
      ensures savedDay != Some(today) ==> dailyChallenges == DailyBatch(freshBase, order) && nextId == freshBase + 10
    {
      dailyChallenges := if savedDaily.Some? then savedDaily.value else [];
      completedChallenges := if savedCompleted.Some? then savedCompleted.value else [];
      currentChallenge := None;
      totalPoints := savedPoints;
      currentStreak := savedStreak;
      lastGenerationDay := savedDay;
      nextId := freshBase;
      if savedDay != Some(today) {
        dailyChallenges := DailyBatch(freshBase, order);
        lastGenerationDay := Some(today);
        nextId := freshBase + 10;
      }
    }

    /** `generateDailyChallenges`: at most one new batch per calendar day. */
    method GenerateDailyChallenges(today: int, order: seq<nat>)
      requires Valid() && IsPermutation(order, 10)
      modifies this
      ensures Valid()
      ensures old(lastGenerationDay) == Some(today) ==>
        dailyChallenges == old(dailyChallenges) && nextId == old(nextId) && lastGenerationDay == old(lastGenerationDay)
      ensures old(lastGenerationDay) != Some(today) ==>
        && dailyChallenges == DailyBatch(old(nextId), order)
        && lastGenerationDay == Some(today) && nextId == old(nextId) + 10
      ensures old(lastGenerationDay) != Some(today) ==>
        forall i, j :: 0 <= i < |dailyChallenges| && 0 <= j < |old(dailyChallenges)| ==>
          dailyChallenges[i].id != old(dailyChallenges)[j].id
      ensures completedChallenges == old(completedChallenges) && currentChallenge == old(currentChallenge)
      ensures totalPoints == old(totalPoints) && currentStreak == old(currentStreak)
    {
      if lastGenerationDay != Some(today) {
        dailyChallenges := DailyBatch(nextId, order);
        nextId := nextId + 10;
        lastGenerationDay := Some(today);
      }
    }

    /** `startChallenge`: the challenge becomes current with its progress reset. */
    method StartChallenge(c: Challenge)
      requires Valid()
      modifies this
      ensures Valid()
      ensures currentChallenge == Some(c.(currentProgress := 0))
      ensures dailyChallenges == ReplaceFirst(old(dailyChallenges), c.(currentProgress := 0))
      ensures completedChallenges == old(completedChallenges)
      ensures totalPoints == old(totalPoints) && currentStreak == old(currentStreak)
      ensures lastGenerationDay == old(lastGenerationDay) && nextId == old(nextId)
    {
      var started := c.(currentProgress := 0);
      currentChallenge := Some(started);
      dailyChallenges := ReplaceFirst(dailyChallenges, started);
    }

    /**
     * `completeChallenge`: archive a completed copy, award the points,
     * clear the current challenge if it is this one, mark the batch entry,
     * and extend the streak when the whole batch is done. Nothing prevents
     * the same challenge from being completed, and rewarded, again.
     */
    method CompleteChallenge(c: Challenge, now: int)
      requires Valid()
      modifies this
      ensures Valid()
      ensures completedChallenges == old(completedChallenges) + [Completed(c, now)]
      ensures totalPoints == old(totalPoints) + PointsForDifficulty(c.difficulty)
      ensures currentChallenge == if old(currentChallenge).Some? && old(currentChallenge).value.id == c.id
                                  then None else old(currentChallenge)
      ensures dailyChallenges == ReplaceFirst(old(dailyChallenges), Completed(c, now))
      ensures currentStreak == old(currentStreak) + (if AllCompleted(dailyChallenges) then 1 else 0)
      ensures lastGenerationDay == old(lastGenerationDay) && nextId == old(nextId)
    {
      var done := Completed(c, now);
      completedChallenges := completedChallenges + [done];
      totalPoints := totalPoints + PointsForDifficulty(c.difficulty);
      if currentChallenge.Some? && currentChallenge.value.id == c.id {
        currentChallenge := None;
      }
      dailyChallenges := ReplaceFirst(dailyChallenges, done);
      if AllCompleted(dailyChallenges) {
        currentStreak := currentStreak + 1;
      }
    }

    /**
     * `updateChallengeProgress`: clamp the progress from above; on reaching
     * the required steps complete the challenge, then store the clamped
     * copy, whose completion flag is the caller's, over the batch entry.
     */
    method UpdateChallengeProgress(c: Challenge, progress: int, now: int)
      requires Valid()
      modifies this
      ensures Valid()
      ensures var u := WithProgress(c, progress);
        var reached := progress >= c.requiredSteps;
        && dailyChallenges == ReplaceFirst(old(dailyChallenges), u)
        && (reached ==>
              && completedChallenges == old(completedChallenges) + [Completed(u, now)]
              && totalPoints == old(totalPoints) + PointsForDifficulty(c.difficulty)
              && currentStreak == old(currentStreak)
                   + (if AllCompleted(ReplaceFirst(old(dailyChallenges), Completed(u, now))) then 1 else 0))
        && (!reached ==>
              && completedChallenges == old(completedChallenges)
              && totalPoints == old(totalPoints) && currentStreak == old(currentStreak))
        && currentChallenge ==
             (if old(currentChallenge).Some? && old(currentChallenge).value.id == c.id
              then (if reached then None else Some(u))
              else old(currentChallenge))
      ensures lastGenerationDay == old(lastGenerationDay) && nextId == old(nextId)
    {
      var u := WithProgress(c, progress);
      if u.currentProgress >= c.requiredSteps {
        CompleteChallenge(u, now);
        ReplaceFirstTwice(old(dailyChallenges), Completed(u, now), u);
      }
      dailyChallenges := ReplaceFirst(dailyChallenges, u);
      if currentChallenge.Some? && currentChallenge.value.id == c.id {
        currentChallenge := Some(u);
      }
    }

    /** `getTodaysProgress`: the completed fraction of the batch, 0 for an empty batch. */
    function TodaysProgress(): (p: real)
      reads this
      ensures 0.0 <= p <= 1.0
      ensures p == 0.0 <==> forall i :: 0 <= i < |dailyChallenges| ==> !dailyChallenges[i].isCompleted
      ensures p == 1.0 <==> dailyChallenges != [] && AllCompleted(dailyChallenges)
    {
      var done := Filter((c: Challenge) => c.isCompleted, dailyChallenges);
      FilterCount((c: Challenge) => c.isCompleted, dailyChallenges);
      if dailyChallenges == [] then 0.0
      else
        Fraction(|done|, |dailyChallenges|);
        |done| as real / |dailyChallenges| as real
    }

    /** `getCompletedChallengesThisWeek`: archived challenges completed in the last seven days, in archive order. */
    function CompletedThisWeek(now: int): (r: seq<Challenge>)
      reads this
      ensures forall i :: 0 <= i < |r| ==> r[i] in completedChallenges && CompletedSince(r[i], now - 7 * Day)
      ensures forall i :: 0 <= i < |completedChallenges| ==>
        CompletedSince(completedChallenges[i], now - 7 * Day) ==> completedChallenges[i] in r
      ensures SubsequenceOf(r, completedChallenges)
      ensures forall c :: multiset(r)[c] ==
                         if CompletedSince(c, now - 7 * Day) then multiset(completedChallenges)[c] else 0
    {
      var p := (c: Challenge) => CompletedSince(c, now - 7 * Day);
      FilterKeepsOrder(p, completedChallenges);
      forall c ensures multiset(Filter(p, completedChallenges))[c] == if p(c) then multiset(completedChallenges)[c] else 0 {
        FilterMultiset(p, completedChallenges, c);
      }
      Filter(p, completedChallenges)
    }
  }

  /** Completed at or after the given instant. */
  predicate CompletedSince(c: Challenge, since: int)
  {
    c.completedDate.Some? && c.completedDate.value >= since
  }

  /** Completing the same challenge twice archives it twice and awards its points twice. */
  method CompleteTwice(vm: ChallengesViewModel, c: Challenge, now: int)
    requires vm.Valid()
    modifies vm
    ensures vm.Valid()
    ensures vm.totalPoints == old(vm.totalPoints) + 2 * PointsForDifficulty(c.difficulty)
    ensures vm.completedChallenges == old(vm.completedChallenges) + [Completed(c, now), Completed(c, now)]
  {
    vm.CompleteChallenge(c, now);
    vm.CompleteChallenge(c, now);
  }
}

=== FILE: common.dfy ===
/**
 * Small building blocks shared by every part of the model: an optional
 * value, identifiers, coordinates, the ASCII view of Swift's string
 * operations, and order-preserving filters over sequences.
 */
module Common {

  datatype Option<+T> = None | Some(value: T)

  /** A UUID. Only equality matters, so a natural number stands for it. */
  type Uuid = nat

  /** CLLocationCoordinate2D: a latitude/longitude pair in degrees. */
  datatype Coordinate = Coordinate(latitude: real, longitude: real)

  // ---------------------------------------------------------------------
  // Numbers

  /** Swift's `Int(x)` on a floating value: truncation toward zero. */
  function Truncate(x: real): (r: int)
    ensures x >= 0.0 ==> 0 <= r && r as real <= x < r as real + 1.0
    ensures x < 0.0 ==> r <= 0 && r as real - 1.0 < x <= r as real
  {
    if x >= 0.0 then x.Floor else -((-x).Floor)
  }

  function Min(a: int, b: int): int { if a <= b then a else b }
  function Max(a: int, b: int): int { if a >= b then a else b }

  // ---------------------------------------------------------------------
  // Strings (ASCII view of String.lowercased and String.contains)

  function LowerChar(c: char): char
  {
    if 'A' <= c <= 'Z' then (c as int + 32) as char else c
  }

  /** `lowercased()`, restricted to ASCII letters. */
  function Lower(s: string): (r: string)
    ensures |r| == |s|
    ensures forall i :: 0 <= i < |s| ==> r[i] == LowerChar(s[i])
    ensures forall i :: 0 <= i < |r| ==> !('A' <= r[i] <= 'Z')
  {
    seq(|s|, i requires 0 <= i < |s| => LowerChar(s[i]))
  }

  predicate OccursAt(s: string, p: string, i: int)
  {
    0 <= i && i + |p| <= |s| && s[i..i + |p|] == p
  }

  /** `s.contains(p)`: p occurs in s as a contiguous substring. */
  predicate Contains(s: string, p: string)
  {
    exists i :: 0 <= i <= |s| && OccursAt(s, p, i)
  }

  /** `s.lowercased().contains(p.lowercased())`. */
  predicate ContainsIgnoringCase(s: string, p: string)
  {
    Contains(Lower(s), Lower(p))
  }

  lemma LowerTwice(s: string)
    ensures Lower(Lower(s)) == Lower(s)
  {
  }

  // ---------------------------------------------------------------------
  // Sequences

  /** Swift's `filter`: the elements satisfying p, in their original order. */
  function Filter<T>(p: T -> bool, s: seq<T>): (r: seq<T>)
    ensures |r| <= |s|
    ensures forall i :: 0 <= i < |r| ==> r[i] in s && p(r[i])
    ensures forall i :: 0 <= i < |s| && p(s[i]) ==> s[i] in r
    decreases |s|
  {
    if s == [] then []
    else (if p(s[0]) then [s[0]] else []) + Filter(p, s[1..])
  }

  /** Filtering distributes over concatenation: the filter keeps order. */
  lemma {:induction false} FilterAppend<T>(p: T -> bool, a: seq<T>, b: seq<T>)
    ensures Filter(p, a + b) == Filter(p, a) + Filter(p, b)
    decreases |a|
  {
    if a == [] {
      assert a + b == b;
    } else {
      assert (a + b)[1..] == a[1..] + b;
      FilterAppend(p, a[1..], b);
    }
  }

  /** The filter keeps everything exactly when every element passes, and nothing exactly when none does. */
  lemma {:induction false} FilterCount<T>(p: T -> bool, s: seq<T>)
    ensures |Filter(p, s)| == |s| <==> forall i :: 0 <= i < |s| ==> p(s[i])
    ensures |Filter(p, s)| == 0 <==> forall i :: 0 <= i < |s| ==> !p(s[i])
    decreases |s|
  {
    if s != [] {
      FilterCount(p, s[1..]);
      assert forall i :: 1 <= i < |s| ==> s[i] == s[1..][i - 1];
      if !p(s[0]) {
        assert |Filter(p, s)| <= |s[1..]|;
      }
    }
  }

  /** Filtering with a predicate every element meets changes nothing. */
  lemma {:induction false} FilterAll<T>(p: T -> bool, s: seq<T>)
    requires forall k :: 0 <= k < |s| ==> p(s[k])
    ensures Filter(p, s) == s
    decreases |s|
  {
    if s != [] {
      FilterAll(p, s[1..]);
    }
  }

  /** Swift's `prefix(n)`. */
  function Take<T>(s: seq<T>, n: nat): (r: seq<T>)
    ensures |r| == Min(|s|, n)
    ensures r <= s
  {
    if |s| <= n then s else s[..n]
  }

  /** Swift's `firstIndex(where:)`. */
  function FirstIndex<T>(p: T -> bool, s: seq<T>): (r: Option<nat>)
    ensures r.Some? ==> r.value < |s| && p(s[r.value])
    ensures r.Some? ==> forall j :: 0 <= j < r.value ==> !p(s[j])
    ensures r.None? <==> forall j :: 0 <= j < |s| ==> !p(s[j])
    decreases |s|
  {
    if s == [] then None
    else if p(s[0]) then Some(0)
    else match FirstIndex(p, s[1..])
      case None => None
      case Some(k) => Some(k + 1)
  }

  /** `shuffled()`: the random order is a permutation of the indices. */
  predicate IsPermutation(perm: seq<nat>, n: nat)
  {
    && |perm| == n
    && (forall i :: 0 <= i < n ==> perm[i] < n)
    && (forall i, j :: 0 <= i < j < n ==> perm[i] != perm[j])
  }

  function Permute<T>(s: seq<T>, perm: seq<nat>): (r: seq<T>)
    requires IsPermutation(perm, |s|)
    ensures |r| == |s|
    ensures forall i :: 0 <= i < |r| ==> r[i] == s[perm[i]]
  {
    seq(|s|, i requires 0 <= i < |s| => s[perm[i]])
  }

  /** idx picks r out of s at strictly increasing positions. */
  predicate PicksOut<T(==)>(idx: seq<nat>, r: seq<T>, s: seq<T>)
  {
    && |idx| == |r|
    && (forall i :: 0 <= i < |idx| ==> idx[i] < |s| && r[i] == s[idx[i]])
    && (forall i, j :: 0 <= i < j < |idx| ==> idx[i] < idx[j])
  }

  /** r is s with some elements dropped and the others kept in their order. */
  ghost predicate SubsequenceOf<T>(r: seq<T>, s: seq<T>)
  {
    exists idx :: PicksOut(idx, r, s)
  }

  /** Every position moved one place to the right. */
  function Shift(idx: seq<nat>): (r: seq<nat>)
    ensures |r| == |idx| && forall i :: 0 <= i < |idx| ==> r[i] == idx[i] + 1
  {
    seq(|idx|, i requires 0 <= i < |idx| => idx[i] + 1)
  }

  /** The positions of s that a filter keeps. */
  ghost function FilterPositions<T>(p: T -> bool, s: seq<T>): seq<nat>
    decreases |s|
  {
    if s == [] then []
    else if p(s[0]) then [0] + Shift(FilterPositions(p, s[1..]))
    else Shift(FilterPositions(p, s[1..]))
  }

  /** Positions in the tail of s are the same elements one place further right in s. */
  lemma ShiftPicksOut<T>(idx: seq<nat>, r: seq<T>, s: seq<T>)
    requires s != [] && PicksOut(idx, r, s[1..])
    ensures PicksOut(Shift(idx), r, s)
  {
    var shifted := Shift(idx);
    forall i | 0 <= i < |shifted| ensures shifted[i] < |s| && r[i] == s[shifted[i]] {
      assert s[1..][idx[i]] == s[idx[i] + 1];
    }
  }

  /** The head of s picked before positions that all lie past it. */
  lemma ConsPicksOut<T>(idx: seq<nat>, r: seq<T>, s: seq<T>)
    requires s != [] && PicksOut(idx, r, s)
    requires forall i :: 0 <= i < |idx| ==> idx[i] > 0
    ensures PicksOut([0] + idx, [s[0]] + r, s)
  {
    var idx', r' := [0] + idx, [s[0]] + r;
    forall i | 0 <= i < |idx'| ensures idx'[i] < |s| && r'[i] == s[idx'[i]] {
      if i > 0 { assert idx'[i] == idx[i - 1] && r'[i] == r[i - 1]; }
    }
  }

  lemma {:induction false} FilterPositionsPickOut<T>(p: T -> bool, s: seq<T>)
    ensures PicksOut(FilterPositions(p, s), Filter(p, s), s)
    decreases |s|
  {
    if s != [] {
      var rest, f := FilterPositions(p, s[1..]), Filter(p, s[1..]);
      FilterPositionsPickOut(p, s[1..]);
      ShiftPicksOut(rest, f, s);
      if p(s[0]) {
        assert Filter(p, s) == [s[0]] + f;
        ConsPicksOut(Shift(rest), f, s);
      } else {
        assert Filter(p, s) == f;
      }
    }
  }

  /** Every sequence is picked out of itself by its own positions. */
  lemma SubsequenceOfSelf<T>(s: seq<T>)
    ensures SubsequenceOf(s, s)
  {
    var idx: seq<nat> := seq(|s|, i requires 0 <= i < |s| => i);
    assert PicksOut(idx, s, s);
  }

  /** A filter keeps the surviving elements in their original order. */
  lemma FilterKeepsOrder<T>(p: T -> bool, s: seq<T>)
    ensures SubsequenceOf(Filter(p, s), s)
  {
    FilterPositionsPickOut(p, s);
  }

  /** A filter keeps every copy of a passing element and no copy of a failing one. */
  lemma {:induction false} FilterMultiset<T>(p: T -> bool, s: seq<T>, x: T)
    ensures multiset(Filter(p, s))[x] == if p(x) then multiset(s)[x] else 0
    decreases |s|
  {
    if s != [] {
      assert s == [s[0]] + s[1..];
      FilterMultiset(p, s[1..], x);
    }
  }

  predicate Distinct<T(==)>(s: seq<T>)
  {
    forall i, j :: 0 <= i < j < |s| ==> s[i] != s[j]
  }

  /** Two equal elements at different positions count twice. */
  lemma Multiplicity<T>(r: seq<T>, i: nat, j: nat)
    requires i < j < |r|
    ensures multiset(r)[r[i]] >= (if r[i] == r[j] then 2 else 1)
  {
    assert r == r[..i] + [r[i]] + r[i + 1..j] + [r[j]] + r[j + 1..];
  }

  /** In a sequence without repetitions every element occurs at most once. */
  lemma {:induction false} DistinctOnce<T>(s: seq<T>, x: T)
    requires Distinct(s)
    ensures multiset(s)[x] <= 1
    decreases |s|
  {
    if s != [] {
      assert s == [s[0]] + s[1..];
      assert Distinct(s[1..]) by {
        forall i, j | 0 <= i < j < |s[1..]| ensures s[1..][i] != s[1..][j] {
          assert s[1..][i] == s[i + 1] && s[1..][j] == s[j + 1];
        }
      }
      DistinctOnce(s[1..], x);
      if x == s[0] {
        assert x !in s[1..] by {
          forall k | 0 <= k < |s[1..]| ensures s[1..][k] != x {
            assert s[1..][k] == s[k + 1];
          }
        }
      }
    }
  }

  /** Rearranging a sequence without repetitions cannot create one. */
  lemma PermutedDistinct<T>(a: seq<T>, b: seq<T>)
    requires Distinct(a) && multiset(b) == multiset(a)
    ensures Distinct(b)
  {
    forall i, j | 0 <= i < j < |b| ensures b[i] != b[j] {
      Multiplicity(b, i, j);
      DistinctOnce(a, b[i]);
    }
  }

  /** Dropping elements cannot create a repetition. */
  lemma SubsequenceDistinct<T>(r: seq<T>, s: seq<T>)
    requires SubsequenceOf(r, s) && Distinct(s)
    ensures Distinct(r)
  {
    var idx :| PicksOut(idx, r, s);
    forall i, j | 0 <= i < j < |r| ensures r[i] != r[j] {
      assert idx[i] < idx[j];
    }
  }

  /** Filtering cannot create a repetition. */
  lemma FilterDistinct<T>(p: T -> bool, s: seq<T>)
    ensures Distinct(s) ==> Distinct(Filter(p, s))
  {
    FilterKeepsOrder(p, s);
    if Distinct(s) {
      SubsequenceDistinct(Filter(p, s), s);
    }
  }

  /** Sorted by key, largest first. */
  predicate SortedDesc<T>(s: seq<T>, key: T -> int)
  {
    forall i, j :: 0 <= i < j < |s| ==> key(s[i]) >= key(s[j])
  }

  /** Insert x in front of the first element whose key does not exceed its own. */
  function InsertDesc<T(==)>(x: T, s: seq<T>, key: T -> int): (r: seq<T>)
    requires SortedDesc(s, key)
    ensures SortedDesc(r, key)
    ensures multiset(r) == multiset(s) + multiset{x}
    ensures forall i :: 0 <= i < |r| ==> r[i] == x || r[i] in s
    decreases |s|
  {
    if s == [] || key(x) >= key(s[0]) then [x] + s
    else
      var rest := InsertDesc(x, s[1..], key);
      InsertBehindHead(x, s, rest, key);
      [s[0]] + rest
  }

  /** The head of a sorted list stays in front of a larger-keyed insertion into its tail. */
  lemma InsertBehindHead<T>(x: T, s: seq<T>, rest: seq<T>, key: T -> int)
    requires s != [] && SortedDesc(s, key) && key(x) < key(s[0])
    requires SortedDesc(rest, key) && multiset(rest) == multiset(s[1..]) + multiset{x}
    requires forall i :: 0 <= i < |rest| ==> rest[i] == x || rest[i] in s[1..]
    ensures SortedDesc([s[0]] + rest, key)
    ensures multiset([s[0]] + rest) == multiset(s) + multiset{x}
  {
    assert s == [s[0]] + s[1..];
    forall i | 0 <= i < |rest| ensures key(s[0]) >= key(rest[i]) {
      if rest[i] != x {
        var k :| 0 <= k < |s[1..]| && s[1..][k] == rest[i];
        assert s[k + 1] == rest[i];
      }
    }
    var r := [s[0]] + rest;
    forall i, j | 0 <= i < j < |r| ensures key(r[i]) >= key(r[j]) {
      if i > 0 { assert r[i] == rest[i - 1] && r[j] == rest[j - 1]; }
      else { assert r[j] == rest[j - 1]; }
    }
  }

  /** A stable sort by key, largest first: equal keys keep their order. */
  function SortDesc<T(==)>(s: seq<T>, key: T -> int): (r: seq<T>)
    ensures SortedDesc(r, key)
    ensures multiset(r) == multiset(s) && |r| == |s|
    decreases |s|
  {
    if s == [] then []
    else
      assert s == [s[0]] + s[1..];
      InsertDesc(s[0], SortDesc(s[1..], key), key)
  }

  /**
   * An element of a sorted sequence left out of its first n is outranked
   * by all n of them.
   */
  lemma TopComplete<T>(s: seq<T>, key: T -> int, n: nat, x: T)
    requires SortedDesc(s, key) && x in s
    ensures x !in Take(s, n) ==> |Take(s, n)| == n && forall i :: 0 <= i < n ==> key(Take(s, n)[i]) >= key(x)
  {
    var p :| 0 <= p < |s| && s[p] == x;
    var r := Take(s, n);
    if x !in r {
      forall i | 0 <= i < n ensures key(r[i]) >= key(x) {
        assert r[i] == s[i];
      }
    }
  }
}

=== FILE: hex_color.dfy ===
/**
 * The `Color(hex:)` initializer of the mood map screen: trim the string,
 * scan a hexadecimal number, and split it into alpha, red, green and blue
 * bytes according to the number of digits. Only the integer part is
 * modelled; the final division by 255 into a floating colour is not.
 */
module HexColor {
  import opened Common

  /** The four 0..255 components before they are divided by 255. */
  datatype Argb = Argb(a: int, r: int, g: int, b: int)

  /** Membership in CharacterSet.alphanumerics (ASCII part). */
  predicate IsAlphanumeric(c: char)
  {
    'a' <= c <= 'z' || 'A' <= c <= 'Z' || '0' <= c <= '9'
  }

  predicate IsHexDigit(c: char)
  {
    '0' <= c <= '9' || 'a' <= c <= 'f' || 'A' <= c <= 'F'
  }

  function DigitValue(c: char): (v: nat)
    requires IsHexDigit(c)
    ensures v < 16
  {
    if '0' <= c <= '9' then c as int - '0' as int
    else if 'a' <= c <= 'f' then c as int - 'a' as int + 10
    else c as int - 'A' as int + 10
  }

  /** The upper-case hexadecimal digit for a value below 16. */
  function DigitChar(v: nat): (c: char)
    requires v < 16
    ensures IsHexDigit(c) && DigitValue(c) == v
  {
    if v < 10 then ('0' as int + v) as char else ('A' as int + v - 10) as char
  }

  function Pow16(n: nat): (p: nat)
    ensures p >= 1
  {
    if n == 0 then 1 else 16 * Pow16(n - 1)
  }

  // ---------------------------------------------------------------------
  // trimmingCharacters(in: CharacterSet.alphanumerics.inverted)

  function TrimStart(s: string): string
  {
    if s != [] && !IsAlphanumeric(s[0]) then TrimStart(s[1..]) else s
  }

  function TrimEnd(s: string): string
  {
    if s != [] && !IsAlphanumeric(s[|s| - 1]) then TrimEnd(s[..|s| - 1]) else s
  }

  /** Strips every non-alphanumeric character from both ends. */
  function Trim(s: string): (t: string)
    ensures t == [] || (IsAlphanumeric(t[0]) && IsAlphanumeric(t[|t| - 1]))
    ensures |t| <= |s|
  {
    TrimStartShape(s);
    TrimEndShape(TrimStart(s));
    TrimEnd(TrimStart(s))
  }

  lemma {:induction false} TrimStartShape(s: string)
    ensures |TrimStart(s)| <= |s|
    ensures TrimStart(s) == [] || IsAlphanumeric(TrimStart(s)[0])
    ensures TrimStart(s) == s[|s| - |TrimStart(s)|..]
  {
    if s != [] && !IsAlphanumeric(s[0]) {
      TrimStartShape(s[1..]);
    }
  }

  lemma {:induction false} TrimEndShape(s: string)
    requires s == [] || IsAlphanumeric(s[0])
    ensures TrimEnd(s) == [] || (IsAlphanumeric(TrimEnd(s)[0]) && IsAlphanumeric(TrimEnd(s)[|TrimEnd(s)| - 1]))
    ensures TrimEnd(s) <= s
  {
    if s != [] && !IsAlphanumeric(s[|s| - 1]) {
      TrimEndShape(s[..|s| - 1]);
    }
  }

  lemma {:induction false} TrimStartPadding(pad: string, s: string)
    requires forall i :: 0 <= i < |pad| ==> !IsAlphanumeric(pad[i])
    requires s != [] && IsAlphanumeric(s[0])
    ensures TrimStart(pad + s) == s
  {
    if pad != [] {
      assert (pad + s)[1..] == pad[1..] + s;
      TrimStartPadding(pad[1..], s);
    }
  }

  lemma {:induction false} TrimEndPadding(s: string, pad: string)
    requires forall i :: 0 <= i < |pad| ==> !IsAlphanumeric(pad[i])
    requires s != [] && IsAlphanumeric(s[|s| - 1])
    ensures TrimEnd(s + pad) == s
  {
    if pad != [] {
      var shorter := pad[..|pad| - 1];
      assert (s + pad)[..|s + pad| - 1] == s + shorter;
      TrimEndPadding(s, shorter);
    } else {
      assert s + pad == s;
    }
  }

  /** Padding of non-alphanumeric characters on either side is ignored. */
  lemma TrimPadding(before: string, core: string, after: string)
    requires forall i :: 0 <= i < |before| ==> !IsAlphanumeric(before[i])
    requires forall i :: 0 <= i < |after| ==> !IsAlphanumeric(after[i])
    requires core != [] && IsAlphanumeric(core[0]) && IsAlphanumeric(core[|core| - 1])
    ensures Trim(before + core + after) == core
  {
    assert before + core + after == before + (core + after);
    TrimStartPadding(before, core + after);
    TrimEndPadding(core, after);
  }

  // ---------------------------------------------------------------------
  // Scanner.scanHexInt64

  /** Number of leading hexadecimal digits. */
  function HexRun(s: string): (n: nat)
    ensures n <= |s|
    ensures forall i :: 0 <= i < n ==> IsHexDigit(s[i])
    ensures n < |s| ==> !IsHexDigit(s[n])
  {
    if s != [] && IsHexDigit(s[0]) then 1 + HexRun(s[1..]) else 0
  }

  /** The number written by a string of hexadecimal digits. */
  function HexValue(d: string): (v: nat)
    requires forall i :: 0 <= i < |d| ==> IsHexDigit(d[i])
    ensures v < Pow16(|d|)
  {
    if d == [] then 0
    else 16 * HexValue(d[..|d| - 1]) + DigitValue(d[|d| - 1])
  }

  predicate HasHexPrefix(s: string)
  {
    |s| >= 2 && s[0] == '0' && (s[1] == 'x' || s[1] == 'X')
  }

  /**
   * The value scanned from the start of s: an optional "0x"/"0X" prefix,
   * then the longest run of hexadecimal digits; 0 when there is none.
   */
  function ScanHex(s: string): (v: nat)
    ensures v < Pow16(|s|)
  {
    var body := if HasHexPrefix(s) then s[2..] else s;
    var n := HexRun(body);
    PowMonotone(n, |s|);
    HexValue(body[..n])
  }

  lemma {:induction false} PowMonotone(m: nat, n: nat)
    requires m <= n
    ensures Pow16(m) <= Pow16(n)
    decreases n
  {
    if m < n {
      PowMonotone(m, n - 1);
    }
  }

  // ---------------------------------------------------------------------
  // Color(hex:)

  lemma Split3(v: nat)
    requires v < 4096
    ensures var r, g, b := v / 256, (v / 16) % 16, v % 16;
      r < 16 && g < 16 && b < 16 && r * 256 + g * 16 + b == v
  {
    var q := v / 16;
    assert v == q * 16 + v % 16;
    assert q == (q / 16) * 16 + q % 16;
    assert q / 16 == v / 256;
  }

  lemma Split6(v: nat)
    requires v < 16777216
    ensures var r, g, b := v / 65536, (v / 256) % 256, v % 256;
      r < 256 && g < 256 && b < 256 && r * 65536 + g * 256 + b == v
  {
    var q := v / 256;
    assert v == q * 256 + v % 256;
    assert q == (q / 256) * 256 + q % 256;
    assert q / 256 == v / 65536;
  }

  lemma Split8(v: nat)
    requires v < 4294967296
    ensures var a, r, g, b := v / 16777216, (v / 65536) % 256, (v / 256) % 256, v % 256;
      a < 256 && r < 256 && g < 256 && b < 256 && a * 16777216 + r * 65536 + g * 256 + b == v
  {
    var q := v / 256;
    var q2 := q / 256;
    assert v == q * 256 + v % 256;
    assert q == q2 * 256 + q % 256;
    assert q2 == (q2 / 256) * 256 + q2 % 256;
    assert q2 == v / 65536;
    assert q2 / 256 == v / 16777216;
  }

  predicate IsByte(x: int)
  {
    0 <= x <= 255
  }

  /** Three digits: each one doubled ("F80" reads as "FF8800"), opaque. */
  function Rgb12(v: nat): (c: Argb)
    requires v < 4096
    ensures c.a == 255 && c.r % 17 == 0 && c.g % 17 == 0 && c.b % 17 == 0
    ensures (c.r / 17) * 256 + (c.g / 17) * 16 + c.b / 17 == v
    ensures IsByte(c.r) && IsByte(c.g) && IsByte(c.b)
  {
    Split3(v);
    Argb(255, (v / 256) * 17, ((v / 16) % 16) * 17, (v % 16) * 17)
  }

  /** Six digits: red, green and blue bytes, opaque. */
  function Rgb24(v: nat): (c: Argb)
    requires v < 16777216
    ensures c.a == 255 && c.r * 65536 + c.g * 256 + c.b == v
    ensures IsByte(c.r) && IsByte(c.g) && IsByte(c.b)
  {
    Split6(v);
    Argb(255, v / 65536, (v / 256) % 256, v % 256)
  }

  /** Eight digits: alpha in the top byte, then red, green and blue. */
  function Argb32(v: nat): (c: Argb)
    requires v < 4294967296
    ensures c.a * 16777216 + c.r * 65536 + c.g * 256 + c.b == v
    ensures IsByte(c.a) && IsByte(c.r) && IsByte(c.g) && IsByte(c.b)
  {
    Split8(v);
    Argb(v / 16777216, (v / 65536) % 256, (v / 256) % 256, v % 256)
  }

  /**
   * Shifts and masks are written as division and remainder, which agree
   * with them on the non-negative values the scanner yields.
   */
  function ParseHex(hex: string): (c: Argb)
    ensures var t := Trim(hex); var v := ScanHex(t);
      && (|t| == 3 ==> c.a == 255 && c.r % 17 == 0 && c.g % 17 == 0 && c.b % 17 == 0
                       && (c.r / 17) * 256 + (c.g / 17) * 16 + c.b / 17 == v)
      && (|t| == 6 ==> c.a == 255 && c.r * 65536 + c.g * 256 + c.b == v)
      && (|t| == 8 ==> c.a * 16777216 + c.r * 65536 + c.g * 256 + c.b == v)
      && (|t| != 3 && |t| != 6 && |t| != 8 ==> c == Argb(1, 1, 1, 0))
    ensures IsByte(c.a) && IsByte(c.r) && IsByte(c.g) && IsByte(c.b)
  {
    var t := Trim(hex);
    var v := ScanHex(t);
    if |t| == 3 then
      assert Pow16(3) == 4096;
      Rgb12(v)
    else if |t| == 6 then
      assert Pow16(6) == 16777216;
      Rgb24(v)
    else if |t| == 8 then
      assert Pow16(8) == 4294967296;
      Argb32(v)
    else
      Argb(1, 1, 1, 0)
  }

  // ---------------------------------------------------------------------
  // Writing a colour as "#RRGGBB" and reading it back

  function ByteDigits(x: nat): (s: string)
    requires x < 256
    ensures |s| == 2 && IsHexDigit(s[0]) && IsHexDigit(s[1])
  {
    [DigitChar(x / 16), DigitChar(x % 16)]
  }

  /** "#RRGGBB" in upper-case digits, the form of the mood colour table. */
  function FormatHex6(r: nat, g: nat, b: nat): (s: string)
    requires r < 256 && g < 256 && b < 256
    ensures |s| == 7 && s[0] == '#'
  {
    "#" + ByteDigits(r) + ByteDigits(g) + ByteDigits(b)
  }

  /** "#AARRGGBB", the eight-digit form with alpha in the top byte. */
  function FormatHex8(a: nat, r: nat, g: nat, b: nat): (s: string)
    requires a < 256 && r < 256 && g < 256 && b < 256
    ensures |s| == 9 && s[0] == '#'
  {
    "#" + ByteDigits(a) + ByteDigits(r) + ByteDigits(g) + ByteDigits(b)
  }

  lemma {:induction false} HexValueAppend(d: string, e: string)
    requires forall i :: 0 <= i < |d| ==> IsHexDigit(d[i])
    requires forall i :: 0 <= i < |e| ==> IsHexDigit(e[i])
    ensures forall i :: 0 <= i < |d + e| ==> IsHexDigit((d + e)[i])
    ensures HexValue(d + e) == HexValue(d) * Pow16(|e|) + HexValue(e)
    decreases |e|
  {
    if e == [] {
      assert d + e == d;
    } else {
      var e' := e[..|e| - 1];
      var c := e[|e| - 1];
      assert (d + e)[..|d + e| - 1] == d + e';
      assert (d + e)[|d + e| - 1] == c;
      HexValueAppend(d, e');
      var x, y, p := HexValue(d), HexValue(e'), Pow16(|e'|);
      assert HexValue(d + e) == 16 * HexValue(d + e') + DigitValue(c);
      assert Pow16(|e|) == 16 * p;
      assert HexValue(e) == 16 * y + DigitValue(c);
      ScaleProduct(x, p);
      assert 16 * (x * p + y) + DigitValue(c) == 16 * (x * p) + (16 * y + DigitValue(c));
    }
  }

  lemma ScaleProduct(x: int, p: int)
    ensures 16 * (x * p) == x * (16 * p)
  {
  }

  lemma ByteValue(x: nat)
    requires x < 256
    ensures HexValue(ByteDigits(x)) == x
  {
    var s := ByteDigits(x);
    assert s[..1] == [s[0]];
    assert HexValue([s[0]]) == HexValue([]) * 16 + DigitValue(s[0]);
  }

  /** A string of hexadecimal digits is trimmed to itself and scanned whole. */
  lemma AllDigitsScan(d: string)
    requires d != [] && forall i :: 0 <= i < |d| ==> IsHexDigit(d[i])
    ensures Trim("#" + d) == d
    ensures ScanHex(d) == HexValue(d)
  {
    HashTrimmed(d);
    assert !HasHexPrefix(d);
    var n := HexRun(d);
    assert n == |d|;
    assert d[..n] == d;
  }

  lemma HashTrimmed(d: string)
    requires d != [] && IsAlphanumeric(d[0]) && IsAlphanumeric(d[|d| - 1])
    ensures Trim("#" + d) == d
  {
    TrimPadding("#", d, "");
    assert "#" + d + "" == "#" + d;
  }

  function Digits6(r: nat, g: nat, b: nat): (d: string)
    requires r < 256 && g < 256 && b < 256
    ensures |d| == 6 && forall i :: 0 <= i < 6 ==> IsHexDigit(d[i])
  {
    ByteDigits(r) + ByteDigits(g) + ByteDigits(b)
  }

  function Digits8(a: nat, r: nat, g: nat, b: nat): (d: string)
    requires a < 256 && r < 256 && g < 256 && b < 256
    ensures |d| == 8 && forall i :: 0 <= i < 8 ==> IsHexDigit(d[i])
  {
    ByteDigits(a) + ByteDigits(r) + ByteDigits(g) + ByteDigits(b)
  }

  lemma Pairs(x: nat, y: nat)
    requires x < 256 && y < 256
    ensures HexValue(ByteDigits(x) + ByteDigits(y)) == x * 256 + y
  {
    ByteValue(x);
    ByteValue(y);
    HexValueAppend(ByteDigits(x), ByteDigits(y));
    assert Pow16(2) == 256;
  }

  lemma Digits6Value(r: nat, g: nat, b: nat)
    requires r < 256 && g < 256 && b < 256
    ensures HexValue(Digits6(r, g, b)) == r * 65536 + g * 256 + b
  {
    var rg := ByteDigits(r) + ByteDigits(g);
    Pairs(r, g);
    ByteValue(b);
    HexValueAppend(rg, ByteDigits(b));
    assert Pow16(2) == 256;
  }

  lemma Digits8Value(a: nat, r: nat, g: nat, b: nat)
    requires a < 256 && r < 256 && g < 256 && b < 256
    ensures HexValue(Digits8(a, r, g, b)) == a * 16777216 + r * 65536 + g * 256 + b
  {
    var ar := ByteDigits(a) + ByteDigits(r);
    var gb := ByteDigits(g) + ByteDigits(b);
    assert Digits8(a, r, g, b) == ar + gb;
    Pairs(a, r);
    Pairs(g, b);
    HexValueAppend(ar, gb);
    assert Pow16(4) == 65536;
  }

  lemma ByteSplitUnique(x: int, y: int, x': int, y': int)
    requires 0 <= y < 256 && 0 <= y' < 256
    requires x * 256 + y == x' * 256 + y'
    ensures x == x' && y == y'
  {
    var k := x' - x;
    assert y - y' == 256 * k;
  }

  /** Reading back a formatted "#RRGGBB" colour gives the same bytes, opaque. */
  lemma Hex6RoundTrip(r: nat, g: nat, b: nat)
    requires r < 256 && g < 256 && b < 256
    ensures ParseHex(FormatHex6(r, g, b)) == Argb(255, r, g, b)
  {
    var d := Digits6(r, g, b);
    assert FormatHex6(r, g, b) == "#" + d;
    AllDigitsScan(d);
    Digits6Value(r, g, b);
    var c := ParseHex("#" + d);
    assert (c.r * 256 + c.g) * 256 + c.b == (r * 256 + g) * 256 + b;
    ByteSplitUnique(c.r * 256 + c.g, c.b, r * 256 + g, b);
    ByteSplitUnique(c.r, c.g, r, g);
  }

  /** Reading back a formatted "#AARRGGBB" colour gives the same four bytes. */
  lemma Hex8RoundTrip(a: nat, r: nat, g: nat, b: nat)
    requires a < 256 && r < 256 && g < 256 && b < 256
    ensures ParseHex(FormatHex8(a, r, g, b)) == Argb(a, r, g, b)
  {
    var d := Digits8(a, r, g, b);
    assert FormatHex8(a, r, g, b) == "#" + d;
    AllDigitsScan(d);
    Digits8Value(a, r, g, b);
    var c := ParseHex("#" + d);
    assert ((c.a * 256 + c.r) * 256 + c.g) * 256 + c.b == ((a * 256 + r) * 256 + g) * 256 + b;
    ByteSplitUnique((c.a * 256 + c.r) * 256 + c.g, c.b, (a * 256 + r) * 256 + g, b);
    ByteSplitUnique(c.a * 256 + c.r, c.g, a * 256 + r, g);
    ByteSplitUnique(c.a, c.r, a, r);
  }
}

=== FILE: mood_map.dfy ===
/**
 * MoodMapViewModel: the map screen's view of the mood log. It records a
 * mood only when a location is known, and derives the most frequent
 * mood, the diversity and consistency scores, and per-cell mood counts.
 */
module MoodMap {
  import opened Common
  import opened Moods
  import opened MoodAnalytics

  lemma EveryMoodListed()
    ensures forall m :: m in AllMoods
  {
    forall m ensures m in AllMoods {
      AllMoodsComplete(m);
    }
  }

  // ---------------------------------------------------------------------
  // Most frequent mood: `max(by: { $0.value < $1.value })`

  /** The first mood of ms with the largest count, if any mood of ms is counted. */
  function MostFrequentIn(ms: seq<Mood>, counts: map<Mood, nat>): (r: Option<Mood>)
    ensures r.None? <==> forall i :: 0 <= i < |ms| ==> ms[i] !in counts
    ensures r.Some? ==> r.value in counts && r.value in ms
    ensures r.Some? ==> forall i :: 0 <= i < |ms| && ms[i] in counts ==> counts[ms[i]] <= counts[r.value]
  {
    if ms == [] then None
    else
      var rest := MostFrequentIn(ms[1..], counts);
      if ms[0] !in counts then rest
      else if rest.None? || counts[rest.value] <= counts[ms[0]] then Some(ms[0])
      else rest
  }

  /** Dictionary order is unspecified; the model visits the moods in declaration order. */
  function MostFrequent(counts: map<Mood, nat>): (r: Option<Mood>)
    ensures r.None? <==> counts == map[]
    ensures r.Some? ==> r.value in counts && forall m :: m in counts ==> counts[m] <= counts[r.value]
  {
    MostFrequentCovers(counts);
    MostFrequentIn(AllMoods, counts)
  }

  lemma MostFrequentCovers(counts: map<Mood, nat>)
    ensures var r := MostFrequentIn(AllMoods, counts);
      && (r.None? <==> counts == map[])
      && (r.Some? ==> forall m :: m in counts ==> counts[m] <= counts[r.value])
  {
    var r := MostFrequentIn(AllMoods, counts);
    EveryMoodListed();
    forall m | m in counts ensures exists i :: 0 <= i < |AllMoods| && AllMoods[i] == m && AllMoods[i] in counts {
      assert m in AllMoods;
      var i :| 0 <= i < |AllMoods| && AllMoods[i] == m;
    }
    if counts != map[] {
      var m :| m in counts;
      assert r.Some?;
    }
  }

  // ---------------------------------------------------------------------
  // Diversity

  function DistinctMoods(s: seq<MoodRecord>): set<Mood>
  {
    set i | 0 <= i < |s| :: s[i].mood
  }

  /** `getMoodDiversity`: distinct moods logged, as a fraction of the twelve. */
  function Diversity(s: seq<MoodRecord>): (d: real)
    ensures 0.0 <= d <= 1.0
    ensures d == 0.0 <==> s == []
    ensures d == 1.0 <==> forall m :: m in DistinctMoods(s)
  {
    MoodSetBound(DistinctMoods(s));
    assert s != [] ==> s[0].mood in DistinctMoods(s);
    |DistinctMoods(s)| as real / 12.0
  }

  /** A log holding one mood only scores one twelfth. */
  lemma DiversityOfOneMood(s: seq<MoodRecord>, m: Mood)
    requires s != [] && forall i :: 0 <= i < |s| ==> s[i].mood == m
    ensures Diversity(s) == 1.0 / 12.0
  {
    assert s[0].mood == m;
    assert DistinctMoods(s) == {m};
  }

  // ---------------------------------------------------------------------
  // Consistency

  function SumSquares(s: seq<MoodRecord>, mean: real): (r: real)
    ensures r >= 0.0
  {
    if s == [] then 0.0
    else
      var d := s[|s| - 1].intensity - mean;
      SumSquares(s[..|s| - 1], mean) + d * d
  }

  /**
   * `getMoodConsistency`: one minus twice the population standard
   * deviation of the intensities, floored at zero; zero for fewer than
   * two records. The square root is a parameter.
   */
  function Consistency(s: seq<MoodRecord>, sqrt: real -> real): (c: real)
    ensures |s| < 2 ==> c == 0.0
    ensures c >= 0.0
    ensures (forall x :: 0.0 <= x ==> 0.0 <= sqrt(x)) ==> c <= 1.0
  {
    if |s| <= 1 then 0.0
    else
      var n := |s| as real;
      var mean := SumIntensity(s) / n;
      var variance := SumSquares(s, mean) / n;
      var spread := 1.0 - sqrt(variance) / 0.5;
      if spread > 0.0 then spread else 0.0
  }

  lemma {:induction false} SumOfEqual(s: seq<MoodRecord>, v: real)
    requires forall i :: 0 <= i < |s| ==> s[i].intensity == v
    ensures SumIntensity(s) == |s| as real * v
    ensures SumSquares(s, v) == 0.0
  {
    if s != [] {
      SumOfEqual(s[..|s| - 1], v);
    }
  }

  /** Identical intensities over two or more records are perfectly consistent. */
  lemma ConsistencyOfEqualIntensities(s: seq<MoodRecord>, sqrt: real -> real)
    requires |s| >= 2 && forall i :: 0 <= i < |s| ==> s[i].intensity == s[0].intensity
    requires sqrt(0.0) == 0.0
    ensures Consistency(s, sqrt) == 1.0
  {
    var v := s[0].intensity;
    SumOfEqual(s, v);
    var n := |s| as real;
    assert SumIntensity(s) / n == v;
  }

  // ---------------------------------------------------------------------
  // Location-mood map: records per cell, then per mood within the cell

  function CellCount(s: seq<MoodRecord>, c: Cell): (n: nat)
    ensures n <= |s|
  {
    if s == [] then 0
    else CellCount(s[..|s| - 1], c) + (if CellOf(s[|s| - 1].location) == c then 1 else 0)
  }

  lemma {:induction false} CountKeyWithinCell(s: seq<MoodRecord>, c: Cell, m: Mood)
    ensures CountKey(s, HotspotKey(c, m)) <= CellCount(s, c)
  {
    if s != [] {
      CountKeyWithinCell(s[..|s| - 1], c, m);
    }
  }

  /** Sum of the per-mood counts of one cell for the moods in ms. */
  function CellCountsOver(ms: seq<Mood>, s: seq<MoodRecord>, c: Cell): nat
  {
    if ms == [] then 0 else CountKey(s, HotspotKey(c, ms[0])) + CellCountsOver(ms[1..], s, c)
  }

  lemma {:induction false} CellCountsOverStep(ms: seq<Mood>, s: seq<MoodRecord>, c: Cell)
    requires s != []
    ensures var x := s[|s| - 1];
      CellCountsOver(ms, s, c) == CellCountsOver(ms, s[..|s| - 1], c)
        + (if CellOf(x.location) == c then Occurrences(ms, x.mood) else 0)
    decreases |ms|
  {
    if ms != [] {
      CellCountsOverStep(ms[1..], s, c);
    }
  }

  lemma {:induction false} CellCountsOverEmpty(ms: seq<Mood>, c: Cell)
    ensures CellCountsOver(ms, [], c) == 0
    decreases |ms|
  {
    if ms != [] {
      CellCountsOverEmpty(ms[1..], c);
    }
  }

  /** A cell's per-mood counts add up to the number of records in the cell. */
  lemma {:induction false} CellPartition(s: seq<MoodRecord>, c: Cell)
    ensures CellCountsOver(AllMoods, s, c) == CellCount(s, c)
  {
    if s == [] {
      CellCountsOverEmpty(AllMoods, c);
    } else {
      CellPartition(s[..|s| - 1], c);
      CellCountsOverStep(AllMoods, s, c);
      EachMoodOnce(s[|s| - 1].mood);
    }
  }

  lemma {:induction false} SumOverBucket(ms: seq<Mood>, bucket: map<Mood, nat>, s: seq<MoodRecord>, c: Cell)
    requires forall m :: m in bucket <==> CountKey(s, HotspotKey(c, m)) > 0
    requires forall m :: m in bucket ==> bucket[m] == CountKey(s, HotspotKey(c, m))
    ensures SumOver(ms, bucket) == CellCountsOver(ms, s, c)
    decreases |ms|
  {
    if ms != [] {
      SumOverBucket(ms[1..], bucket, s, c);
    }
  }

  /** `cells` counts the records of s per cell, then per mood within the cell. */
  ghost predicate LocationMapOf(s: seq<MoodRecord>, cells: map<Cell, map<Mood, nat>>)
  {
    && (forall c :: c in cells <==> CellCount(s, c) > 0)
    && (forall c, m :: c in cells ==> (m in cells[c] <==> CountKey(s, HotspotKey(c, m)) > 0))
    && (forall c, m :: c in cells && m in cells[c] ==> cells[c][m] == CountKey(s, HotspotKey(c, m)))
  }

  /** The map after counting one more record. */
  function CountInto(cells: map<Cell, map<Mood, nat>>, rec: MoodRecord): map<Cell, map<Mood, nat>>
  {
    var key := CellOf(rec.location);
    var bucket := if key in cells then cells[key] else map[];
    cells[key := bucket[rec.mood := (if rec.mood in bucket then bucket[rec.mood] else 0) + 1]]
  }

  lemma LocationMapStep(t: seq<MoodRecord>, x: MoodRecord, cells: map<Cell, map<Mood, nat>>)
    requires LocationMapOf(t, cells)
    ensures LocationMapOf(t + [x], CountInto(cells, x))
  {
    var s, r := t + [x], CountInto(cells, x);
    var key := CellOf(x.location);
    assert s[..|t|] == t;
    forall c ensures c in r <==> CellCount(s, c) > 0 {
    }
    forall c, m | c in r
      ensures m in r[c] <==> CountKey(s, HotspotKey(c, m)) > 0
      ensures m in r[c] ==> r[c][m] == CountKey(s, HotspotKey(c, m))
    {
      CountKeySnoc(t, x, HotspotKey(c, m));
      if c == key && key !in cells {
        CountKeyWithinCell(t, key, m);
      }
    }
  }

  /**
   * A cell-then-mood count map of the records: each cell's buckets add up
   * to the records in the cell, and each hotspot group has its bucket.
   */
  lemma LocationMapTotals(s: seq<MoodRecord>, cells: map<Cell, map<Mood, nat>>)
    requires LocationMapOf(s, cells)
    ensures forall c :: c in cells ==> SumOver(AllMoods, cells[c]) == CellCount(s, c)
    ensures forall j :: 0 <= j < |Groups(s)| ==>
      var h := Groups(s)[j];
      CellOf(h.location) in cells && h.mood in cells[CellOf(h.location)]
      && cells[CellOf(h.location)][h.mood] == h.frequency
  {
    forall c | c in cells ensures SumOver(AllMoods, cells[c]) == CellCount(s, c) {
      SumOverBucket(AllMoods, cells[c], s, c);
      CellPartition(s, c);
    }
    GroupsCorrect(s);
    forall j | 0 <= j < |Groups(s)|
      ensures var h := Groups(s)[j];
        CellOf(h.location) in cells && h.mood in cells[CellOf(h.location)]
        && cells[CellOf(h.location)][h.mood] == h.frequency
    {
      var h := Groups(s)[j];
      CountKeyWithinCell(s, CellOf(h.location), h.mood);
    }
  }

  // ---------------------------------------------------------------------
  // The view model

  class MoodMapViewModel {
    const service: MoodService
    var moodHotspots: seq<Hotspot>
    var isRecordingMood: bool
    var showingMoodEntry: bool

    constructor(service: MoodService)
      ensures this.service == service
      ensures moodHotspots == [] && !isRecordingMood && !showingMoodEntry
    {
      this.service := service;
      moodHotspots := [];
      isRecordingMood := false;
      showingMoodEntry := false;
    }

    /**
     * `recordMood`: without a current location nothing happens; otherwise
     * the mood is logged, the hotspots are refreshed and, once the delayed
     * callback has run, both flags are down.
     */
    method RecordMood(id: Uuid, mood: Mood, intensity: real, location: Option<Coordinate>,
                      now: int, notes: string, activities: seq<string>)
      requires service.Valid()
      modifies this, service
      ensures service.Valid()
      ensures location.None? ==> unchanged(this) && unchanged(service)
      ensures location.Some? ==>
        var rec := NewMoodRecord(id, mood, intensity, location.value, now, notes, activities);
        && service.moodRecords == AppendCapped(old(service.moodRecords), rec)
        && service.moodHistory == old(service.moodHistory) + [rec]
        && service.currentMood == Some(mood)
        && moodHotspots == TopHotspots(service.moodRecords)
        && !isRecordingMood && !showingMoodEntry
    {
      if location.None? {
        return;
      }
      isRecordingMood := true;
      service.RecordMood(id, mood, intensity, location.value, now, notes, activities);
      moodHotspots := service.GetMoodHotspots();
      isRecordingMood := false;
      showingMoodEntry := false;
    }

    /** `getMostFrequentMood`: a mood with the largest count in the last seven days. */
    method GetMostFrequentMood(now: int) returns (r: Option<Mood>)
      ensures var recent := Recent(service.moodRecords, now - Week);
        && (r.None? <==> recent == [])
        && (r.Some? ==> CountOf(recent, r.value) > 0)
        && (r.Some? ==> forall m :: CountOf(recent, m) <= CountOf(recent, r.value))
    {
      var counts := service.GetMoodTrends(now, Week);
      r := MostFrequent(counts);
      var recent := Recent(service.moodRecords, now - Week);
      if recent != [] {
        CountOfPositive(recent, recent[0].mood);
        assert recent[0].mood in counts;
      }
      if r.Some? {
        forall m ensures CountOf(recent, m) <= CountOf(recent, r.value) {
          if m in counts {
            assert counts[m] <= counts[r.value];
          }
        }
      }
    }

    /**
     * `getLocationMoodMap`: records counted per grid cell, then per mood
     * within the cell. A bucket holds exactly the records of the hotspot
     * group with the same cell and mood.
     */
    method GetLocationMoodMap() returns (cells: map<Cell, map<Mood, nat>>)
      ensures var s := service.moodRecords;
        && (forall c :: c in cells <==> CellCount(s, c) > 0)
        && (forall c, m :: c in cells ==> (m in cells[c] <==> CountKey(s, HotspotKey(c, m)) > 0))
        && (forall c, m :: c in cells && m in cells[c] ==> cells[c][m] == CountKey(s, HotspotKey(c, m)))
        && (forall c :: c in cells ==> SumOver(AllMoods, cells[c]) == CellCount(s, c))
      ensures forall j :: 0 <= j < |Groups(service.moodRecords)| ==>
        var h := Groups(service.moodRecords)[j];
        CellOf(h.location) in cells && h.mood in cells[CellOf(h.location)]
        && cells[CellOf(h.location)][h.mood] == h.frequency
    {
      var s := service.moodRecords;
      cells := map[];
      for i := 0 to |s|
        invariant LocationMapOf(s[..i], cells)
      {
        assert s[..i + 1] == s[..i] + [s[i]];
        LocationMapStep(s[..i], s[i], cells);
        var rec := s[i];
        var key := CellOf(rec.location);
        if key !in cells {
          cells := cells[key := map[]];
        }
        var bucket := cells[key];
        cells := cells[key := bucket[rec.mood := (if rec.mood in bucket then bucket[rec.mood] else 0) + 1]];
      }
      assert s[..|s|] == s;
      LocationMapTotals(s, cells);
    }
  }
}

=== FILE: mood_service.dfy ===
/**
 * MoodService: the bounded mood log and the analytics computed over it
 * (trend counts in a time window, average intensity, and hotspots: records
 * grouped by grid cell and mood, ranked by how often they occur).
 */
module MoodAnalytics {
  import opened Common
  import opened Moods

  /** The log keeps at most this many records. */
  const Capacity: nat := 100

  /** The default analytics window: seven days, in seconds. */
  const Week: int := 7 * 24 * 60 * 60

  /** The log after appending `rec` and dropping the oldest surplus. */
  function AppendCapped(log: seq<MoodRecord>, rec: MoodRecord): (r: seq<MoodRecord>)
    ensures |r| == Min(|log| + 1, Capacity)
    ensures r[|r| - 1] == rec
    ensures r == (log + [rec])[|log| + 1 - |r|..]
    ensures |log| < Capacity ==> r == log + [rec]
  {
    var grown := log + [rec];
    if |grown| > Capacity then grown[|grown| - Capacity..] else grown
  }

  // ---------------------------------------------------------------------
  // Counting

  /** Records logged at or after `cutoff`: the window includes its boundary. */
  function Recent(records: seq<MoodRecord>, cutoff: int): seq<MoodRecord>
  {
    Filter((r: MoodRecord) => r.timestamp >= cutoff, records)
  }

  /** Number of records with mood m. */
  function CountOf(s: seq<MoodRecord>, m: Mood): (n: nat)
    ensures n <= |s|
  {
    if s == [] then 0
    else CountOf(s[..|s| - 1], m) + (if s[|s| - 1].mood == m then 1 else 0)
  }

  /** counts holds, for each mood present in s, how many records of s have it, and no other mood. */
  ghost predicate PerMoodCounts(s: seq<MoodRecord>, counts: map<Mood, nat>)
  {
    && (forall m :: m in counts <==> CountOf(s, m) > 0)
    && (forall m :: m in counts ==> counts[m] == CountOf(s, m))
  }

  /** Counting one more record into a map of per-mood counts. */
  lemma TallyMoodStep(t: seq<MoodRecord>, x: MoodRecord, counts: map<Mood, nat>)
    requires PerMoodCounts(t, counts)
    ensures PerMoodCounts(t + [x], counts[x.mood := (if x.mood in counts then counts[x.mood] else 0) + 1])
  {
    assert (t + [x])[..|t|] == t;
  }

  /** A map holding the per-mood counts of s adds up to the length of s. */
  lemma CountsAddUp(counts: map<Mood, nat>, s: seq<MoodRecord>)
    requires PerMoodCounts(s, counts)
    ensures SumOver(AllMoods, counts) == |s|
  {
    SumOverCounts(AllMoods, counts, s);
    CountsPartition(s);
  }

  lemma {:induction false} CountOfPositive(s: seq<MoodRecord>, m: Mood)
    ensures CountOf(s, m) > 0 <==> exists i :: 0 <= i < |s| && s[i].mood == m
  {
    if s != [] {
      var t := s[..|s| - 1];
      CountOfPositive(t, m);
      if CountOf(t, m) > 0 {
        var i :| 0 <= i < |t| && t[i].mood == m;
        assert s[i].mood == m;
      }
      if exists i :: 0 <= i < |s| && s[i].mood == m {
        var i :| 0 <= i < |s| && s[i].mood == m;
        if i < |t| { assert t[i].mood == m; }
      }
    }
  }

  /** Sum of the entries of `counts` for the moods in ms (missing ones count 0). */
  function SumOver(ms: seq<Mood>, counts: map<Mood, nat>): nat
  {
    if ms == [] then 0
    else (if ms[0] in counts then counts[ms[0]] else 0) + SumOver(ms[1..], counts)
  }

  /** Sum of the per-mood record counts for the moods in ms. */
  function CountsOver(ms: seq<Mood>, s: seq<MoodRecord>): nat
  {
    if ms == [] then 0 else CountOf(s, ms[0]) + CountsOver(ms[1..], s)
  }

  /** How often m occurs in ms. */
  function Occurrences(ms: seq<Mood>, m: Mood): nat
  {
    if ms == [] then 0 else (if ms[0] == m then 1 else 0) + Occurrences(ms[1..], m)
  }

  lemma {:induction false} CountsOverStep(ms: seq<Mood>, s: seq<MoodRecord>)
    requires s != []
    ensures CountsOver(ms, s) == CountsOver(ms, s[..|s| - 1]) + Occurrences(ms, s[|s| - 1].mood)
    decreases |ms|
  {
    if ms != [] {
      CountsOverStep(ms[1..], s);
    }
  }

  /** A mood listed once among distinct moods occurs exactly once. */
  lemma {:induction false} OccursOnce(ms: seq<Mood>, m: Mood)
    requires forall i, j :: 0 <= i < j < |ms| ==> ms[i] != ms[j]
    ensures Occurrences(ms, m) == (if m in ms then 1 else 0)
    decreases |ms|
  {
    if ms != [] {
      OccursOnce(ms[1..], m);
      assert m in ms <==> m == ms[0] || m in ms[1..];
      if m == ms[0] {
        assert m !in ms[1..] by {
          forall i | 0 <= i < |ms[1..]| ensures ms[1..][i] != m { assert ms[0] != ms[i + 1]; }
        }
      }
    }
  }

  lemma EachMoodOnce(m: Mood)
    ensures Occurrences(AllMoods, m) == 1
  {
    AllMoodsComplete(m);
    OccursOnce(AllMoods, m);
  }

  /** The per-mood counts of a sequence of records add up to its length. */
  lemma {:induction false} CountsPartition(s: seq<MoodRecord>)
    ensures CountsOver(AllMoods, s) == |s|
  {
    if s == [] {
      ZeroCounts(AllMoods);
    } else {
      CountsPartition(s[..|s| - 1]);
      CountsOverStep(AllMoods, s);
      EachMoodOnce(s[|s| - 1].mood);
    }
  }

  lemma {:induction false} ZeroCounts(ms: seq<Mood>)
    ensures CountsOver(ms, []) == 0
    decreases |ms|
  {
    if ms != [] {
      ZeroCounts(ms[1..]);
    }
  }

  lemma {:induction false} SumOverCounts(ms: seq<Mood>, counts: map<Mood, nat>, s: seq<MoodRecord>)
    requires forall m :: m in counts <==> CountOf(s, m) > 0
    requires forall m :: m in counts ==> counts[m] == CountOf(s, m)
    ensures SumOver(ms, counts) == CountsOver(ms, s)
    decreases |ms|
  {
    if ms != [] {
      SumOverCounts(ms[1..], counts, s);
    }
  }

  // ---------------------------------------------------------------------
  // Average intensity

  function SumIntensity(s: seq<MoodRecord>): real
  {
    if s == [] then 0.0 else SumIntensity(s[..|s| - 1]) + s[|s| - 1].intensity
  }

  predicate IntensitiesClamped(s: seq<MoodRecord>)
  {
    forall i :: 0 <= i < |s| ==> 0.0 <= s[i].intensity <= 1.0
  }

  lemma {:induction false} SumIntensityBounds(s: seq<MoodRecord>)
    requires IntensitiesClamped(s)
    ensures 0.0 <= SumIntensity(s) <= |s| as real
  {
    if s != [] {
      SumIntensityBounds(s[..|s| - 1]);
    }
  }

  /** Mean of a non-empty list whose entries lie in [0,1] lies in [0,1]. */
  lemma MeanInUnit(total: real, n: nat)
    requires n > 0 && 0.0 <= total <= n as real
    ensures 0.0 <= total / n as real <= 1.0
  {
  }

  // ---------------------------------------------------------------------
  // Hotspots

  datatype HotspotKey = HotspotKey(cell: Cell, mood: Mood)

  /** `(location, mood, frequency)`: the location is that of the group's first record. */
  datatype Hotspot = Hotspot(location: Coordinate, mood: Mood, frequency: nat)

  function RecordKey(r: MoodRecord): HotspotKey
  {
    HotspotKey(CellOf(r.location), r.mood)
  }

  function SpotKey(h: Hotspot): HotspotKey
  {
    HotspotKey(CellOf(h.location), h.mood)
  }

  /** Number of records with the given cell and mood. */
  function CountKey(s: seq<MoodRecord>, k: HotspotKey): (n: nat)
    ensures n <= |s|
  {
    if s == [] then 0
    else CountKey(s[..|s| - 1], k) + (if RecordKey(s[|s| - 1]) == k then 1 else 0)
  }

  /** Location of the first record with key k, if any. */
  function FirstLocation(s: seq<MoodRecord>, k: HotspotKey): Option<Coordinate>
  {
    match FirstIndex((r: MoodRecord) => RecordKey(r) == k, s)
    case Some(i) => Some(s[i].location)
    case None => None
  }

  /** Counting one record into the groups: bump its group or open a new one. */
  function Tally(groups: seq<Hotspot>, r: MoodRecord): seq<Hotspot>
  {
    match FirstIndex((h: Hotspot) => SpotKey(h) == RecordKey(r), groups)
    case Some(k) => Bump(groups, k)
    case None => groups + [Hotspot(r.location, r.mood, 1)]
  }

  /** The groups in the order their keys were first seen. */
  function Groups(s: seq<MoodRecord>): seq<Hotspot>
  {
    if s == [] then [] else Tally(Groups(s[..|s| - 1]), s[|s| - 1])
  }

  function SumFrequency(g: seq<Hotspot>): nat
  {
    if g == [] then 0 else SumFrequency(g[..|g| - 1]) + g[|g| - 1].frequency
  }

  ghost predicate KeyPresent(g: seq<Hotspot>, k: HotspotKey)
  {
    exists j :: 0 <= j < |g| && SpotKey(g[j]) == k
  }

  predicate DistinctKeys(g: seq<Hotspot>)
  {
    forall i, j :: 0 <= i < j < |g| ==> SpotKey(g[i]) != SpotKey(g[j])
  }

  /** What the grouping promises about the records it was built from. */
  ghost predicate GroupsOf(s: seq<MoodRecord>, g: seq<Hotspot>)
  {
    && DistinctKeys(g)
    && (forall j :: 0 <= j < |g| ==> g[j].frequency == CountKey(s, SpotKey(g[j])))
    && (forall j :: 0 <= j < |g| ==> FirstLocation(s, SpotKey(g[j])) == Some(g[j].location))
    && (forall k :: KeyPresent(g, k) <==> CountKey(s, k) > 0)
    && SumFrequency(g) == |s|
  }

  lemma {:induction false} SumFrequencyUpdate(g: seq<Hotspot>, k: nat, h: Hotspot)
    requires k < |g|
    ensures SumFrequency(g[k := h]) + g[k].frequency == SumFrequency(g) + h.frequency
    decreases |g|
  {
    var last := |g| - 1;
    if k < last {
      assert g[k := h][..last] == g[..last][k := h];
      SumFrequencyUpdate(g[..last], k, h);
    } else {
      assert g[k := h][..last] == g[..last];
    }
  }

  lemma CountKeySnoc(t: seq<MoodRecord>, x: MoodRecord, k: HotspotKey)
    ensures CountKey(t + [x], k) == CountKey(t, k) + (if RecordKey(x) == k then 1 else 0)
  {
    assert (t + [x])[..|t|] == t;
  }

  lemma {:induction false} CountKeyZero(t: seq<MoodRecord>, k: HotspotKey)
    requires CountKey(t, k) == 0
    ensures forall i :: 0 <= i < |t| ==> RecordKey(t[i]) != k
  {
    if t != [] {
      var u := t[..|t| - 1];
      CountKeyZero(u, k);
      forall i | 0 <= i < |u| ensures RecordKey(t[i]) != k { assert t[i] == u[i]; }
    }
  }

  lemma FirstLocationSnoc(t: seq<MoodRecord>, x: MoodRecord, k: HotspotKey)
    ensures FirstLocation(t + [x], k) ==
        if FirstLocation(t, k).Some? then FirstLocation(t, k)
        else if RecordKey(x) == k then Some(x.location)
        else None
  {
    var s := t + [x];
    var p := (r: MoodRecord) => RecordKey(r) == k;
    match FirstIndex(p, t)
    case Some(i) => {
      assert s[i] == t[i];
      forall j | 0 <= j < i ensures !p(s[j]) { assert s[j] == t[j]; }
      assert FirstIndex(p, s) == Some(i);
    }
    case None => {
      forall j | 0 <= j < |t| ensures !p(s[j]) { assert s[j] == t[j]; }
      if p(x) {
        assert p(s[|t|]);
        var r := FirstIndex(p, s);
        assert r.Some? && r.value == |t|;
      } else {
        assert FirstIndex(p, s) == None;
      }
    }
  }

  lemma SumFrequencySnoc(g: seq<Hotspot>, h: Hotspot)
    ensures SumFrequency(g + [h]) == SumFrequency(g) + h.frequency
  {
    assert (g + [h])[..|g|] == g;
  }

  /** The groups after one more record of the k-th group's key. */
  function Bump(g: seq<Hotspot>, k: nat): (r: seq<Hotspot>)
    requires k < |g|
    ensures |r| == |g| && r[k].frequency == g[k].frequency + 1
    ensures forall j :: 0 <= j < |g| ==> SpotKey(r[j]) == SpotKey(g[j]) && r[j].location == g[j].location
    ensures forall j :: 0 <= j < |g| && j != k ==> r[j] == g[j]
  {
    g[k := g[k].(frequency := g[k].frequency + 1)]
  }

  lemma BumpFrequencies(t: seq<MoodRecord>, x: MoodRecord, g0: seq<Hotspot>, k: nat)
    requires DistinctKeys(g0)
    requires forall j :: 0 <= j < |g0| ==> g0[j].frequency == CountKey(t, SpotKey(g0[j]))
    requires k < |g0| && SpotKey(g0[k]) == RecordKey(x)
    ensures var g := Bump(g0, k);
      forall j :: 0 <= j < |g| ==> g[j].frequency == CountKey(t + [x], SpotKey(g[j]))
  {
    var g := Bump(g0, k);
    forall j | 0 <= j < |g| ensures g[j].frequency == CountKey(t + [x], SpotKey(g[j])) {
      CountKeySnoc(t, x, SpotKey(g[j]));
      if j != k {
        assert SpotKey(g0[j]) != SpotKey(g0[k]);
      }
    }
  }

  lemma BumpLocations(t: seq<MoodRecord>, x: MoodRecord, g0: seq<Hotspot>, k: nat)
    requires forall j :: 0 <= j < |g0| ==> FirstLocation(t, SpotKey(g0[j])) == Some(g0[j].location)
    requires k < |g0|
    ensures var g := Bump(g0, k);
      forall j :: 0 <= j < |g| ==> FirstLocation(t + [x], SpotKey(g[j])) == Some(g[j].location)
  {
    var g := Bump(g0, k);
    forall j | 0 <= j < |g| ensures FirstLocation(t + [x], SpotKey(g[j])) == Some(g[j].location) {
      FirstLocationSnoc(t, x, SpotKey(g[j]));
    }
  }

  lemma BumpPresence(t: seq<MoodRecord>, x: MoodRecord, g0: seq<Hotspot>, k: nat)
    requires forall kk :: KeyPresent(g0, kk) <==> CountKey(t, kk) > 0
    requires k < |g0| && SpotKey(g0[k]) == RecordKey(x)
    ensures forall kk :: KeyPresent(Bump(g0, k), kk) <==> CountKey(t + [x], kk) > 0
  {
    var g := Bump(g0, k);
    forall kk ensures KeyPresent(g, kk) <==> CountKey(t + [x], kk) > 0 {
      CountKeySnoc(t, x, kk);
      if KeyPresent(g, kk) {
        var j :| 0 <= j < |g| && SpotKey(g[j]) == kk;
        assert SpotKey(g0[j]) == kk;
      }
      if KeyPresent(g0, kk) {
        var j :| 0 <= j < |g0| && SpotKey(g0[j]) == kk;
        assert SpotKey(g[j]) == kk;
      }
      if kk == RecordKey(x) {
        assert SpotKey(g0[k]) == kk;
      }
    }
  }

  /** Counting a record whose group already exists bumps that group only. */
  lemma TallyExisting(t: seq<MoodRecord>, x: MoodRecord, g0: seq<Hotspot>, k: nat)
    requires GroupsOf(t, g0)
    requires k < |g0| && SpotKey(g0[k]) == RecordKey(x)
    ensures GroupsOf(t + [x], Bump(g0, k))
  {
    var g := Bump(g0, k);
    BumpFrequencies(t, x, g0, k);
    BumpLocations(t, x, g0, k);
    BumpPresence(t, x, g0, k);
    SumFrequencyUpdate(g0, k, g[k]);
    assert g == g0[k := g[k]];
  }

  /** Counting a record with an unseen key opens a group of one at its location. */
  lemma TallyNew(t: seq<MoodRecord>, x: MoodRecord, g0: seq<Hotspot>)
    requires GroupsOf(t, g0)
    requires !KeyPresent(g0, RecordKey(x))
    ensures GroupsOf(t + [x], g0 + [Hotspot(x.location, x.mood, 1)])
  {
    var s := t + [x];
    var key := RecordKey(x);
    var h := Hotspot(x.location, x.mood, 1);
    var g := g0 + [h];
    assert SpotKey(h) == key;
    forall kk ensures CountKey(s, kk) == CountKey(t, kk) + (if key == kk then 1 else 0) {
      CountKeySnoc(t, x, kk);
    }
    assert CountKey(t, key) == 0;
    CountKeyZero(t, key);
    assert FirstLocation(t, key) == None;
    forall i, j | 0 <= i < j < |g| ensures SpotKey(g[i]) != SpotKey(g[j]) {
      if j == |g0| {
        assert SpotKey(g0[i]) != key;
      }
    }
    forall j | 0 <= j < |g| ensures g[j].frequency == CountKey(s, SpotKey(g[j])) {
      if j < |g0| {
        assert SpotKey(g0[j]) != key;
      }
    }
    forall j | 0 <= j < |g| ensures FirstLocation(s, SpotKey(g[j])) == Some(g[j].location) {
      FirstLocationSnoc(t, x, SpotKey(g[j]));
    }
    forall kk ensures KeyPresent(g, kk) <==> CountKey(s, kk) > 0 {
      if KeyPresent(g, kk) {
        var j :| 0 <= j < |g| && SpotKey(g[j]) == kk;
        if j < |g0| { assert SpotKey(g0[j]) == kk; }
      }
      if KeyPresent(g0, kk) {
        var j :| 0 <= j < |g0| && SpotKey(g0[j]) == kk;
        assert SpotKey(g[j]) == kk;
      }
      if kk == key {
        assert SpotKey(g[|g0|]) == kk;
      }
    }
    SumFrequencySnoc(g0, h);
  }

  /**
   * The grouping has one entry per (cell, mood) key that occurs, each
   * holding the number of records with that key and the location of the
   * first of them, and the frequencies add up to the number of records.
   */
  lemma {:induction false} GroupsCorrect(s: seq<MoodRecord>)
    ensures GroupsOf(s, Groups(s))
  {
    if s != [] {
      var t, x := s[..|s| - 1], s[|s| - 1];
      assert s == t + [x];
      GroupsCorrect(t);
      var g0 := Groups(t);
      match FirstIndex((h: Hotspot) => SpotKey(h) == RecordKey(x), g0)
      case Some(k) => {
        TallyExisting(t, x, g0, k);
      }
      case None => {
        TallyNew(t, x, g0);
      }
    }
  }

  // ---------------------------------------------------------------------
  // Ranking: `sorted { $0.count > $1.count }`, stable on ties

  predicate NonIncreasing(g: seq<Hotspot>)
  {
    forall i, j :: 0 <= i < j < |g| ==> g[i].frequency >= g[j].frequency
  }

  function InsertByFrequency(h: Hotspot, g: seq<Hotspot>): (r: seq<Hotspot>)
    requires NonIncreasing(g)
    ensures NonIncreasing(r)
    ensures forall i :: 0 <= i < |r| ==> r[i] == h || r[i] in g
    ensures multiset(r) == multiset(g) + multiset{h}
  {
    if g == [] || h.frequency >= g[0].frequency then
      ConsNonIncreasing(h, g);
      [h] + g
    else
      var rest := InsertByFrequency(h, g[1..]);
      assert g == [g[0]] + g[1..];
      assert forall i :: 0 <= i < |rest| ==> rest[i].frequency <= g[0].frequency by {
        forall i | 0 <= i < |rest| ensures rest[i].frequency <= g[0].frequency {
          if rest[i] != h {
            var m :| 0 <= m < |g[1..]| && g[1..][m] == rest[i];
            assert g[m + 1] == rest[i];
          }
        }
      }
      ConsNonIncreasing(g[0], rest);
      [g[0]] + rest
  }

  lemma {:induction false} InsertSum(h: Hotspot, g: seq<Hotspot>)
    requires NonIncreasing(g)
    ensures SumFrequency(InsertByFrequency(h, g)) == SumFrequency(g) + h.frequency
    decreases |g|
  {
    if g == [] || h.frequency >= g[0].frequency {
      SumFrequencyCons(h, g);
    } else {
      InsertSum(h, g[1..]);
      assert g == [g[0]] + g[1..];
      SumFrequencyCons(g[0], g[1..]);
      SumFrequencyCons(g[0], InsertByFrequency(h, g[1..]));
    }
  }

  lemma ConsNonIncreasing(h: Hotspot, g: seq<Hotspot>)
    requires NonIncreasing(g)
    requires forall i :: 0 <= i < |g| ==> g[i].frequency <= h.frequency
    ensures NonIncreasing([h] + g)
  {
    var r := [h] + g;
    forall i, j | 0 <= i < j < |r| ensures r[i].frequency >= r[j].frequency {
      if i == 0 {
        assert r[j] == g[j - 1];
      } else {
        assert r[i] == g[i - 1] && r[j] == g[j - 1];
      }
    }
  }

  lemma {:induction false} SumFrequencyCons(h: Hotspot, g: seq<Hotspot>)
    ensures SumFrequency([h] + g) == h.frequency + SumFrequency(g)
    decreases |g|
  {
    if g != [] {
      var last := |g| - 1;
      assert ([h] + g)[..|g|] == [h] + g[..last];
      SumFrequencyCons(h, g[..last]);
    } else {
      assert [h] + g == [h];
    }
  }

  /** Insertion sort by decreasing frequency; equal frequencies keep their order. */
  function SortByFrequency(g: seq<Hotspot>): (r: seq<Hotspot>)
    ensures NonIncreasing(r)
    ensures multiset(r) == multiset(g)
    ensures SumFrequency(r) == SumFrequency(g)
  {
    if g == [] then []
    else
      SumFrequencyCons(g[0], g[1..]);
      assert g == [g[0]] + g[1..];
      InsertSum(g[0], SortByFrequency(g[1..]));
      InsertByFrequency(g[0], SortByFrequency(g[1..]))
  }

  lemma {:induction false} SumFrequencyPrefix(g: seq<Hotspot>, n: nat)
    requires n <= |g|
    ensures SumFrequency(g[..n]) <= SumFrequency(g)
    decreases |g|
  {
    if n < |g| {
      assert g[..|g| - 1][..n] == g[..n];
      SumFrequencyPrefix(g[..|g| - 1], n);
    } else {
      assert g[..n] == g;
    }
  }

  lemma {:induction false} DistinctKeysSingle(g: seq<Hotspot>, h: Hotspot)
    requires DistinctKeys(g)
    ensures multiset(g)[h] <= 1
    decreases |g|
  {
    if g != [] {
      DistinctKeysSingle(g[1..], h);
      assert g == [g[0]] + g[1..];
      if h == g[0] {
        assert h !in g[1..] by {
          forall i | 0 <= i < |g[1..]| ensures g[1..][i] != h { assert SpotKey(g[0]) != SpotKey(g[i + 1]); }
        }
      }
    }
  }

  /** Reordering entries keeps their keys distinct. */
  lemma DistinctKeysPermuted(g: seq<Hotspot>, r: seq<Hotspot>)
    requires DistinctKeys(g) && multiset(r) == multiset(g)
    ensures DistinctKeys(r)
  {
    forall i, j | 0 <= i < j < |r| ensures SpotKey(r[i]) != SpotKey(r[j]) {
      Multiplicity(r, i, j);
      DistinctKeysSingle(g, r[i]);
      assert r[i] in multiset(g) && r[j] in multiset(g);
      var a :| 0 <= a < |g| && g[a] == r[i];
      var b :| 0 <= b < |g| && g[b] == r[j];
      assert a != b;
    }
  }

  /** `getMoodHotspots`: the twenty most frequent (cell, mood) groups. */
  function TopHotspots(s: seq<MoodRecord>): seq<Hotspot>
  {
    Take(SortByFrequency(Groups(s)), 20)
  }

  /** Each listed hotspot is one of the groups. */
  lemma TopHotspotsFromGroups(s: seq<MoodRecord>)
    ensures forall j :: 0 <= j < |TopHotspots(s)| ==> TopHotspots(s)[j] in Groups(s)
  {
    var sorted := SortByFrequency(Groups(s));
    forall j | 0 <= j < |TopHotspots(s)| ensures TopHotspots(s)[j] in Groups(s) {
      assert TopHotspots(s)[j] == sorted[j];
      assert sorted[j] in multiset(Groups(s));
    }
  }

  /** Each hotspot holds its group's size and the location of the group's first record. */
  lemma TopHotspotsCounts(s: seq<MoodRecord>)
    ensures var top := TopHotspots(s);
      && (forall j :: 0 <= j < |top| ==> top[j].frequency == CountKey(s, SpotKey(top[j])) > 0)
      && (forall j :: 0 <= j < |top| ==> FirstLocation(s, SpotKey(top[j])) == Some(top[j].location))
  {
    var g := Groups(s);
    GroupsCorrect(s);
    var top := TopHotspots(s);
    TopHotspotsFromGroups(s);
    forall j | 0 <= j < |top|
      ensures top[j].frequency == CountKey(s, SpotKey(top[j])) > 0
      ensures FirstLocation(s, SpotKey(top[j])) == Some(top[j].location)
    {
      var i :| 0 <= i < |g| && g[i] == top[j];
      assert KeyPresent(g, SpotKey(g[i]));
    }
  }

  /** The list is a ranking of distinct groups whose sizes add up to at most the log. */
  lemma TopHotspotsAreRanked(s: seq<MoodRecord>)
    ensures var top := TopHotspots(s);
      && |top| <= 20
      && NonIncreasing(top)
      && SumFrequency(top) <= |s|
      && DistinctKeys(top)
  {
    var g := Groups(s);
    assert GroupsOf(s, g) by {
      GroupsCorrect(s);
    }
    var sorted := SortByFrequency(g);
    var top := TopHotspots(s);
    assert top == Take(sorted, 20);
    SumFrequencyPrefix(sorted, |top|);
    DistinctKeysPermuted(g, sorted);
  }

  /** A group left out of the top twenty of a ranking is outranked by all twenty entries. */
  lemma RankedOrOutranked(g: seq<Hotspot>, h: Hotspot)
    requires h in g
    ensures var top := Take(SortByFrequency(g), 20);
      KeyPresent(top, SpotKey(h)) || (|top| == 20 && forall j :: 0 <= j < 20 ==> top[j].frequency >= h.frequency)
  {
    var sorted := SortByFrequency(g);
    var top := Take(sorted, 20);
    assert h in multiset(sorted) by { assert h in multiset(g); }
    var p :| 0 <= p < |sorted| && sorted[p] == h;
    if p < 20 {
      assert top[p] == h;
    } else {
      forall j | 0 <= j < 20 ensures top[j].frequency >= h.frequency {
        assert top[j] == sorted[j];
      }
    }
  }

  /** A group left out of the top twenty is outranked by all twenty entries. */
  lemma TopHotspotsComplete(s: seq<MoodRecord>, k: HotspotKey)
    requires CountKey(s, k) > 0
    ensures var top := TopHotspots(s);
      KeyPresent(top, k) || (|top| == 20 && forall j :: 0 <= j < 20 ==> top[j].frequency >= CountKey(s, k))
  {
    var g := Groups(s);
    GroupsCorrect(s);
    assert KeyPresent(g, k);
    var a :| 0 <= a < |g| && SpotKey(g[a]) == k;
    assert g[a].frequency == CountKey(s, k);
    RankedOrOutranked(g, g[a]);
  }

  /** Two happy records about ten metres apart make one hotspot of frequency two. */
  lemma NearbyHappyRecordsShareHotspot(first: MoodRecord, second: MoodRecord)
    requires first.mood == Happy && first.location == Coordinate(37.0, -122.0)
    requires second.mood == Happy && second.location == Coordinate(37.0001, -122.0001)
    ensures TopHotspots([first, second]) == [Hotspot(Coordinate(37.0, -122.0), Happy, 2)]
  {
    NearbyPointsShareCell();
    assert [first, second][..1] == [first];
    assert [first][..0] == [];
    assert Groups([]) == [];
    assert Tally([], first) == [Hotspot(first.location, Happy, 1)];
    var g1 := Groups([first]);
    assert g1 == [Hotspot(first.location, Happy, 1)];
    assert RecordKey(second) == SpotKey(g1[0]);
    assert FirstIndex((h: Hotspot) => SpotKey(h) == RecordKey(second), g1) == Some(0);
    assert Groups([first, second]) == Tally(g1, second) == [Hotspot(first.location, Happy, 2)];
    assert SortByFrequency(Groups([first, second])) == [Hotspot(first.location, Happy, 2)];
  }

  // ---------------------------------------------------------------------
  // The service

  class MoodService {
    var moodRecords: seq<MoodRecord>
    var currentMood: Option<Mood>
    var moodHistory: seq<MoodRecord>

    /** The log is bounded and every stored intensity has been clamped. */
    ghost predicate Valid()
      reads this
    {
      |moodRecords| <= Capacity && IntensitiesClamped(moodRecords) && IntensitiesClamped(moodHistory)
    }

    constructor()
      ensures Valid()
      ensures moodRecords == [] && currentMood == None && moodHistory == []
    {
      moodRecords := [];
      currentMood := None;
      moodHistory := [];
    }

    /** `recordMood`: append to the log and the history, then drop the oldest surplus. */
    method RecordMood(id: Uuid, mood: Mood, intensity: real, location: Coordinate,
                      now: int, notes: string, activities: seq<string>)
      requires Valid()
      modifies this
      ensures Valid()
      ensures var rec := NewMoodRecord(id, mood, intensity, location, now, notes, activities);
        && moodRecords == AppendCapped(old(moodRecords), rec)
        && moodHistory == old(moodHistory) + [rec]
        && currentMood == Some(mood)
    {
      var rec := NewMoodRecord(id, mood, intensity, location, now, notes, activities);
      moodRecords := moodRecords + [rec];
      moodHistory := moodHistory + [rec];
      currentMood := Some(mood);
      if |moodRecords| > Capacity {
        moodRecords := moodRecords[|moodRecords| - Capacity..];
      }
    }

    /** `getMoodTrends(for:)`: records per mood in the last `period` seconds. */
    method GetMoodTrends(now: int, period: int) returns (counts: map<Mood, nat>)
      ensures var recent := Recent(moodRecords, now - period);
        PerMoodCounts(recent, counts) && SumOver(AllMoods, counts) == |recent|
    {
      var recent := Recent(moodRecords, now - period);
      counts := map[];
      for i := 0 to |recent|
        invariant PerMoodCounts(recent[..i], counts)
      {
        TallyMoodStep(recent[..i], recent[i], counts);
        assert recent[..i + 1] == recent[..i] + [recent[i]];
        var m := recent[i].mood;
        counts := counts[m := (if m in counts then counts[m] else 0) + 1];
      }
      assert recent[..|recent|] == recent;
      CountsAddUp(counts, recent);
    }

    /** `getAverageMoodIntensity`: mean intensity of the mood in the window, 0 when none. */
    function AverageMoodIntensity(mood: Mood, now: int, period: int): (avg: real)
      reads this
      ensures (forall i :: 0 <= i < |moodRecords| ==>
                 moodRecords[i].mood != mood || moodRecords[i].timestamp < now - period) ==> avg == 0.0
      ensures IntensitiesClamped(moodRecords) ==> 0.0 <= avg <= 1.0
    {
      var matching := Filter((r: MoodRecord) => r.mood == mood && r.timestamp >= now - period, moodRecords);
      if matching == [] then 0.0
      else
        assert IntensitiesClamped(moodRecords) ==> IntensitiesClamped(matching);
        if IntensitiesClamped(matching) then
          SumIntensityBounds(matching);
          MeanInUnit(SumIntensity(matching), |matching|);
          SumIntensity(matching) / |matching| as real
        else
          SumIntensity(matching) / |matching| as real
    }

    /** `getMoodHotspots`: group by (cell, mood) in one pass, then rank and keep twenty. */
    method GetMoodHotspots() returns (spots: seq<Hotspot>)
      ensures spots == TopHotspots(moodRecords)
      ensures |spots| <= 20 && NonIncreasing(spots) && SumFrequency(spots) <= |moodRecords|
      ensures forall j :: 0 <= j < |spots| ==> spots[j].frequency == CountKey(moodRecords, SpotKey(spots[j])) > 0
    {
      var groups: seq<Hotspot> := [];
      for i := 0 to |moodRecords|
        invariant groups == Groups(moodRecords[..i])
      {
        assert moodRecords[..i + 1][..i] == moodRecords[..i];
        var rec := moodRecords[i];
        var key := RecordKey(rec);
        match FirstIndex((h: Hotspot) => SpotKey(h) == key, groups)
        case Some(k) => {
          groups := groups[k := Hotspot(groups[k].location, groups[k].mood, groups[k].frequency + 1)];
        }
        case None => {
          groups := groups + [Hotspot(rec.location, rec.mood, 1)];
        }
      }
      assert moodRecords[..|moodRecords|] == moodRecords;
      spots := Take(SortByFrequency(groups), 20);
      TopHotspotsAreRanked(moodRecords);
      TopHotspotsCounts(moodRecords);
    }
  }
}

=== FILE: moods.dfy ===
/**
 * The mood record: the closed `Mood` enumeration with its emoji, colour,
 * suggested-activity and music-genre tables, the record created when a
 * mood is logged, and the grid cell used to group records by place.
 */
module Moods {
  import opened Common
  import HexColor

  datatype Mood =
    | Happy | Excited | Calm | Focused | Energetic | Relaxed
    | Melancholic | Stressed | Creative | Social | Contemplative | Adventurous

  /** `Mood.allCases`, in declaration order. */
  const AllMoods: seq<Mood> :=
    [Happy, Excited, Calm, Focused, Energetic, Relaxed,
     Melancholic, Stressed, Creative, Social, Contemplative, Adventurous]

  /** The enumeration has exactly the twelve cases listed in `AllMoods`, each once. */
  lemma AllMoodsComplete(m: Mood)
    ensures |AllMoods| == 12
    ensures m in AllMoods
    ensures forall i, j :: 0 <= i < j < |AllMoods| ==> AllMoods[i] != AllMoods[j]
  {
    match m
    case Happy => assert AllMoods[0] == m;
    case Excited => assert AllMoods[1] == m;
    case Calm => assert AllMoods[2] == m;
    case Focused => assert AllMoods[3] == m;
    case Energetic => assert AllMoods[4] == m;
    case Relaxed => assert AllMoods[5] == m;
    case Melancholic => assert AllMoods[6] == m;
    case Stressed => assert AllMoods[7] == m;
    case Creative => assert AllMoods[8] == m;
    case Social => assert AllMoods[9] == m;
    case Contemplative => assert AllMoods[10] == m;
    case Adventurous => assert AllMoods[11] == m;
  }

  /** Every set of moods has at most twelve members. */
  lemma {:induction false} MoodSetBound(s: set<Mood>)
    ensures |s| <= 12
    ensures |s| == 12 <==> forall m :: m in s
  {
    var all := set m | m in AllMoods;
    forall m ensures m in all {
      AllMoodsComplete(m);
    }
    assert |AllMoods| == 12;
    DistinctCard(AllMoods);
    assert s <= all;
    assert all == s + (all - s);
    assert |all| == |s| + |all - s|;
    if |s| == 12 {
      assert all - s == {};
      assert s == all;
    }
    if forall m :: m in s {
      assert s == all;
    }
  }

  lemma {:induction false} DistinctCard(ms: seq<Mood>)
    requires forall i, j :: 0 <= i < j < |ms| ==> ms[i] != ms[j]
    ensures |set m | m in ms| == |ms|
    decreases |ms|
  {
    if ms != [] {
      var rest := ms[1..];
      DistinctCard(rest);
      assert (set m | m in ms) == {ms[0]} + (set m | m in rest);
      assert ms[0] !in (set m | m in rest);
    }
  }

  /** The raw value: the capitalised case name. */
  function Name(m: Mood): string
  {
    match m
    case Happy => "Happy"
    case Excited => "Excited"
    case Calm => "Calm"
    case Focused => "Focused"
    case Energetic => "Energetic"
    case Relaxed => "Relaxed"
    case Melancholic => "Melancholic"
    case Stressed => "Stressed"
    case Creative => "Creative"
    case Social => "Social"
    case Contemplative => "Contemplative"
    case Adventurous => "Adventurous"
  }

  function Emoji(m: Mood): string
  {
    match m
    case Happy => "\U{1F60A}"
    case Excited => "\U{1F929}"
    case Calm => "\U{1F60C}"
    case Focused => "\U{1F3AF}"
    case Energetic => "\U{26A1}"
    case Relaxed => "\U{1F634}"
    case Melancholic => "\U{1F614}"
    case Stressed => "\U{1F630}"
    case Creative => "\U{1F3A8}"
    case Social => "\U{1F465}"
    case Contemplative => "\U{1F914}"
    case Adventurous => "\U{1F31F}"
  }

  function ColorHex(m: Mood): string
  {
    match m
    case Happy => "#FFD700"
    case Excited => "#FF6B6B"
    case Calm => "#74C0FC"
    case Focused => "#8884FF"
    case Energetic => "#FF8C42"
    case Relaxed => "#95E1D3"
    case Melancholic => "#A8DADC"
    case Stressed => "#F72585"
    case Creative => "#B794F6"
    case Social => "#48CAE4"
    case Contemplative => "#457B9D"
    case Adventurous => "#F77F00"
  }

  /** Each emoji is a single character and no two moods share one. */
  lemma EmojiTable(m: Mood, n: Mood)
    ensures |Emoji(m)| == 1
    ensures m != n ==> Emoji(m) != Emoji(n)
  {
  }

  predicate IsHex6Color(s: string)
  {
    |s| == 7 && s[0] == '#' && forall i :: 1 <= i < 7 ==> HexColor.IsHexDigit(s[i])
  }

  /** Every colour is "#" followed by six hexadecimal digits. */
  lemma ColorIsHex6(m: Mood)
    ensures IsHex6Color(ColorHex(m))
  {
    match m
    case Happy => {}
    case Excited => {}
    case Calm => {}
    case Focused => {}
    case Energetic => {}
    case Relaxed => {}
    case Melancholic => {}
    case Stressed => {}
    case Creative => {}
    case Social => {}
    case Contemplative => {}
    case Adventurous => {}
  }

  /** No two moods share a colour. */
  lemma ColorsDistinct(m: Mood, n: Mood)
    ensures m != n ==> ColorHex(m) != ColorHex(n)
  {
  }

  /**
   * `Color(hex:)` reads a "#" and six hexadecimal digits, such as every
   * mood colour, as an opaque colour whose red, green and blue bytes are
   * the digits written after the '#'.
   */
  lemma Hex6Parses(s: string)
    requires IsHex6Color(s)
    ensures var c := HexColor.ParseHex(s);
      && c.a == 255
      && c.r * 65536 + c.g * 256 + c.b == HexColor.HexValue(s[1..])
  {
    var d := s[1..];
    assert s == "#" + d;
    HexColor.AllDigitsScan(d);
  }

  // ---------------------------------------------------------------------
  // The record

  datatype MoodRecord = MoodRecord(
    id: Uuid,
    mood: Mood,
    intensity: real,
    location: Coordinate,
    timestamp: int,
    notes: string,
    activities: seq<string>,
    weather: Option<string>,
    musicGenre: Option<string>)

  /** `max(0.0, min(1.0, x))`. */
  function ClampUnit(x: real): (r: real)
    ensures 0.0 <= r <= 1.0
    ensures 0.0 <= x <= 1.0 ==> r == x
    ensures x < 0.0 ==> r == 0.0
    ensures x > 1.0 ==> r == 1.0
  {
    if 1.0 <= x then 1.0 else if x <= 0.0 then 0.0 else x
  }

  /** `MoodRecord.init`; the id and the clock are supplied by the caller. */
  function NewMoodRecord(id: Uuid, mood: Mood, intensity: real, location: Coordinate,
                         now: int, notes: string, activities: seq<string>): (r: MoodRecord)
    ensures r.id == id && r.mood == mood && r.location == location && r.timestamp == now
    ensures r.notes == notes && r.activities == activities
    ensures r.intensity == ClampUnit(intensity)
    ensures r.weather == None && r.musicGenre == None
  {
    MoodRecord(id, mood, ClampUnit(intensity), location, now, notes, activities, None, None)
  }

  // ---------------------------------------------------------------------
  // Geo cells

  /** A grid cell: latitude and longitude times 1000, truncated toward zero. */
  datatype Cell = Cell(lat: int, lon: int)

  function CellOf(c: Coordinate): (k: Cell)
    ensures -1.0 < c.latitude * 1000.0 - k.lat as real < 1.0
    ensures -1.0 < c.longitude * 1000.0 - k.lon as real < 1.0
  {
    Cell(Truncate(c.latitude * 1000.0), Truncate(c.longitude * 1000.0))
  }

  /** Two points about ten metres apart near San Francisco share a cell. */
  lemma NearbyPointsShareCell()
    ensures CellOf(Coordinate(37.0, -122.0)) == CellOf(Coordinate(37.0001, -122.0001)) == Cell(37000, -122000)
  {
  }

  // ---------------------------------------------------------------------
  // Static recommendation tables (MoodService)

  /** `suggestActivitiesForMood`; the location argument is not consulted. */
  function SuggestActivities(m: Mood, location: Coordinate): (r: seq<string>)
    ensures |r| == 4
  {
    match m
    case Happy | Excited =>
      ["Share with friends", "Dance to music", "Take photos", "Explore the area"]
    case Calm | Relaxed =>
      ["Meditation", "Read a book", "Listen to ambient music", "Gentle stretching"]
    case Focused =>
      ["Study session", "Creative work", "Goal planning", "Skill practice"]
    case Energetic =>
      ["Workout", "Running", "Sports", "Active exploration"]
    case Stressed =>
      ["Deep breathing", "Calming music", "Walk in nature", "Call a friend"]
    case Creative =>
      ["Art creation", "Writing", "Music composition", "Photography"]
    case Social =>
      ["Meet friends", "Join group activities", "Community events", "Collaborative projects"]
    case Adventurous =>
      ["Explore new places", "Try new activities", "Adventure sports", "Discovery walks"]
    case Contemplative =>
      ["Journaling", "Philosophy reading", "Nature observation", "Quiet reflection"]
    case Melancholic =>
      ["Gentle music", "Comfort activities", "Support group", "Self-care routine"]
  }

  /** `getRecommendedMusicGenre`. */
  function RecommendedGenre(m: Mood): (r: string)
    ensures r != []
  {
    match m
    case Happy | Excited => "Pop, Upbeat"
    case Calm | Relaxed => "Ambient, Classical"
    case Focused => "Lo-fi, Instrumental"
    case Energetic => "Electronic, Rock"
    case Stressed => "Meditation, Nature sounds"
    case Creative => "Jazz, Experimental"
    case Social => "Dance, Party"
    case Adventurous => "World, Folk"
    case Contemplative => "Classical, Post-rock"
    case Melancholic => "Blues, Indie"
  }

  /**
   * The activity list ignores the place; happy and excited share both
   * their activities and their genre, as do calm and relaxed.
   */
  lemma SharedRecommendations(m: Mood, here: Coordinate, there: Coordinate)
    ensures SuggestActivities(m, here) == SuggestActivities(m, there)
    ensures SuggestActivities(Happy, here) == SuggestActivities(Excited, here)
    ensures SuggestActivities(Calm, here) == SuggestActivities(Relaxed, here)
    ensures RecommendedGenre(Happy) == RecommendedGenre(Excited)
    ensures RecommendedGenre(Calm) == RecommendedGenre(Relaxed)
  {
  }
}

=== FILE: music.dfy ===
/**
 * MusicService: the play/pause/stop flags, the eight sample tracks, and
 * the track selections behind mood-based and geo-tuned playlists and
 * challenge recommendations. Delayed completions run synchronously, so
 * each generator is a function returning what it would hand to its
 * completion handler.
 */
module Music {
  import opened Common
  import opened Moods
  import opened Playlists
  import opened ChallengeModel

  /** The demo catalogue, in declaration order. */
  function SampleTracks(): (r: seq<Track>)
    ensures |r| == 8
    ensures forall i :: 0 <= i < |r| ==> r[i].id == i && !r[i].isLocal
  {
    [ NewTrack(0, "Morning Energy", "LifeTunes", 210.0, "Electronic", "Energetic"),
      NewTrack(1, "City Vibes", "Urban Sounds", 180.0, "Hip Hop", "Happy"),
      NewTrack(2, "Peaceful Moments", "Calm Collective", 240.0, "Ambient", "Calm"),
      NewTrack(3, "Workout Beast", "Fitness Beats", 195.0, "Electronic", "Energetic"),
      NewTrack(4, "Study Focus", "Concentration", 300.0, "Lo-fi", "Focused"),
      NewTrack(5, "Evening Chill", "Relaxation", 270.0, "Jazz", "Relaxed"),
      NewTrack(6, "Adventure Time", "Explorer", 220.0, "Rock", "Adventurous"),
      NewTrack(7, "Creative Flow", "Inspiration", 260.0, "Instrumental", "Creative") ]
  }

  /** Names drawn at random for a geo-tuned playlist. */
  const LocationNames: seq<string> := ["Downtown", "Park", "Beach", "Cafe", "Gym", "Home", "Office", "City"]

  /** A track's mood tag names the mood, ignoring case. */
  predicate MatchesMood(t: Track, m: Mood)
  {
    Lower(t.mood) == Lower(Name(m))
  }

  /** The tracks of a mood-based playlist: the matching tracks, or the first four when none match. */
  function MoodTracks(samples: seq<Track>, m: Mood): (r: seq<Track>)
    ensures (exists i :: 0 <= i < |samples| && MatchesMood(samples[i], m)) ==>
      && (forall i :: 0 <= i < |r| ==> r[i] in samples && MatchesMood(r[i], m))
      && (forall i :: 0 <= i < |samples| && MatchesMood(samples[i], m) ==> samples[i] in r)
      && SubsequenceOf(r, samples)
    ensures (forall i :: 0 <= i < |samples| ==> !MatchesMood(samples[i], m)) ==> r == Take(samples, 4)
  {
    var matching := Filter((t: Track) => MatchesMood(t, m), samples);
    FilterKeepsOrder((t: Track) => MatchesMood(t, m), samples);
    if matching == [] then Take(samples, 4)
    else
      assert matching[0] in samples;
      matching
  }

  /** `getRecommendedTracks`: which tracks suit a challenge of the given category. */
  predicate SuitsCategory(t: Track, c: ChallengeCategory)
  {
    match c
    case Fitness => t.mood == "Energetic" || t.genre == "Electronic"
    case Mindfulness => t.mood == "Calm" || t.mood == "Relaxed"
    case Creativity => t.mood == "Creative" || t.genre == "Instrumental"
    case Learning => t.mood == "Focused" || t.genre == "Lo-fi"
    case Social | Music => true
  }

  /** Social and music challenges accept every track. */
  lemma OpenCategories(t: Track)
    ensures SuitsCategory(t, ChallengeCategory.Social) && SuitsCategory(t, ChallengeCategory.Music)
  {
  }

  class MusicService {
    var currentPlaylist: Option<Playlist>
    var isPlaying: bool
    var currentTrack: Option<Track>
    const sampleTracks: seq<Track>

    /** Playback is only ever on with a current track. */
    ghost predicate Valid()
      reads this
    {
      isPlaying ==> currentTrack.Some?
    }

    constructor()
      ensures Valid()
      ensures currentPlaylist == None && !isPlaying && currentTrack == None
      ensures sampleTracks == SampleTracks()
    {
      currentPlaylist := None;
      isPlaying := false;
      currentTrack := None;
      sampleTracks := SampleTracks();
    }

    method PlayTrack(t: Track)
      modifies this
      ensures Valid()
      ensures currentTrack == Some(t) && isPlaying
      ensures currentPlaylist == old(currentPlaylist)
    {
      currentTrack := Some(t);
      isPlaying := true;
    }

    method PausePlayback()
      modifies this
      ensures Valid()
      ensures !isPlaying
      ensures currentTrack == old(currentTrack) && currentPlaylist == old(currentPlaylist)
    {
      isPlaying := false;
    }

    method StopPlayback()
      modifies this
      ensures Valid()
      ensures !isPlaying && currentTrack == None
      ensures currentPlaylist == old(currentPlaylist)
    {
      isPlaying := false;
      currentTrack := None;
    }

    /** `generateMoodBasedPlaylist`: the playlist handed to the completion handler. */
    function MoodBasedPlaylist(id: Uuid, now: int, m: Mood): (p: Playlist)
      ensures p.id == id && p.createdDate == now
      ensures p.name == Name(m) + " Playlist" && p.mood == Name(m) && p.genre == "Mixed"
      ensures p.location == None && !p.isGeoTuned
      ensures p.tracks == MoodTracks(sampleTracks, m)
    {
      NewPlaylist(id, now, Name(m) + " Playlist", MoodTracks(sampleTracks, m), mood := Name(m), genre := "Mixed")
    }

    /** `getRecommendedTracks`: the first three suitable tracks, in catalogue order. */
    function RecommendedTracks(c: ChallengeCategory): (r: seq<Track>)
      ensures |r| <= 3
      ensures forall i :: 0 <= i < |r| ==> r[i] in sampleTracks && SuitsCategory(r[i], c)
      ensures r <= Filter((t: Track) => SuitsCategory(t, c), sampleTracks)
      ensures |r| == Min(3, |Filter((t: Track) => SuitsCategory(t, c), sampleTracks)|)
    {
      Take(Filter((t: Track) => SuitsCategory(t, c), sampleTracks), 3)
    }

    /** The tracks a geo-tuned playlist draws from: all, or those whose mood contains the given one. */
    function LocationCandidates(mood: string): (r: seq<Track>)
      ensures mood == [] ==> r == sampleTracks
      ensures forall i :: 0 <= i < |r| ==> r[i] in sampleTracks
      ensures mood != [] ==> forall i :: 0 <= i < |r| ==> ContainsIgnoringCase(r[i].mood, mood)
      ensures mood != [] ==>
        forall i :: 0 <= i < |sampleTracks| && ContainsIgnoringCase(sampleTracks[i].mood, mood) ==> sampleTracks[i] in r
    {
      if mood == [] then sampleTracks
      else Filter((t: Track) => ContainsIgnoringCase(t.mood, mood), sampleTracks)
    }

    /** `getTracksForLocation`: the candidates shuffled by `order`, at most six of them. */
    function TracksForLocation(mood: string, order: seq<nat>): (r: seq<Track>)
      requires IsPermutation(order, |LocationCandidates(mood)|)
      ensures |r| == Min(6, |LocationCandidates(mood)|)
      ensures forall i :: 0 <= i < |r| ==> r[i] in LocationCandidates(mood)
      ensures forall i :: 0 <= i < |r| ==> r[i] == LocationCandidates(mood)[order[i]]
    {
      Take(Permute(LocationCandidates(mood), order), 6)
    }

    /** `generateGeoTunedPlaylist`: the playlist handed to the completion handler. */
    function GeoTunedPlaylist(id: Uuid, now: int, location: Coordinate, mood: string,
                              order: seq<nat>, nameIndex: nat): (p: Playlist)
      requires IsPermutation(order, |LocationCandidates(mood)|)
      requires nameIndex < |LocationNames|
      ensures p.id == id && p.createdDate == now
      ensures p.name == LocationNames[nameIndex] + " Mix"
      ensures p.isGeoTuned && p.genre == "Mixed" && p.location == Some(location) && p.mood == mood
      ensures |p.tracks| <= 6
      ensures mood != [] ==> forall i :: 0 <= i < |p.tracks| ==> ContainsIgnoringCase(p.tracks[i].mood, mood)
    {
      NewPlaylist(id, now, LocationNames[nameIndex] + " Mix", TracksForLocation(mood, order),
                  Some(location), mood, "Mixed", true)
    }
  }

  /** No sample track is tagged melancholic, so that playlist falls back to the first four. */
  lemma MelancholicFallback()
    ensures MoodTracks(SampleTracks(), Melancholic) == Take(SampleTracks(), 4)
  {
    var s := SampleTracks();
    var target := Lower(Name(Melancholic));
    assert target[0] == 'm' && |target| == 11;
    forall i | 0 <= i < |s| ensures !MatchesMood(s[i], Melancholic) {
      var tag := Lower(s[i].mood);
      assert |tag| != 11 || tag[0] != 'm';
    }
  }
}

=== FILE: news.dfy ===
/**
 * NewsService: the six sample articles, the search and interest filters,
 * the personalized feed (interests, music articles, duplicates removed,
 * shuffled, at most ten), and the bookmark toggle over the stored id list.
 *
 * The stored id list ("LifeTunesBookmarkedIds") is a field; the shuffle
 * is a permutation parameter; the delayed completion runs at once.
 */
module News {
  import opened Common
  import opened Users
  import opened NewsModel

  /** The number of sample articles. */
  const SampleCount: nat := 6

  /** Title, summary, content, category, author and source of the i-th sample article. */
  function SampleRow(i: nat): (string, string, string, NewsCategory, string, string)
    requires i < SampleCount
  {
    if i == 0 then
      ("The Science of Music and Productivity",
       "Research shows how different genres can boost focus and creativity.",
       "Studies have revealed that instrumental music, particularly classical and ambient genres, can significantly enhance cognitive performance and focus. The key is finding the right tempo and complexity that matches your task.",
       Music, "Dr. Sarah Mitchell", "https://example.com/music-productivity")
    else if i == 1 then
      ("5 Daily Habits That Transform Your Lifestyle",
       "Simple changes that can lead to dramatic improvements in well-being.",
       "Small, consistent habits can create powerful transformations. From morning meditation to evening gratitude practices, these five habits can reshape your daily experience and long-term happiness.",
       Lifestyle, "Michael Chen", "https://example.com/daily-habits")
    else if i == 2 then
      ("Mindful Walking: A New Approach to Urban Exploration",
       "How to turn your daily walk into a mindfulness practice.",
       "Mindful walking combines physical exercise with mental wellness. By paying attention to your surroundings, breathing, and body sensations, you can transform routine walks into powerful mindfulness sessions.",
       Mindfulness, "Emma Rodriguez", "https://example.com/mindful-walking")
    else if i == 3 then
      ("The Rise of Location-Based Wellness Apps",
       "Technology meets geography in the latest health trend.",
       "Location-aware wellness applications are revolutionizing how we approach health and fitness. By leveraging GPS and local data, these apps provide personalized recommendations based on your environment.",
       Technology, "Alex Thompson", "https://example.com/location-wellness")
    else if i == 4 then
      ("Music Therapy in Modern Healthcare",
       "How hospitals are using music to improve patient outcomes.",
       "Music therapy has shown remarkable results in reducing anxiety, managing pain, and accelerating recovery. Many healthcare facilities are now integrating music programs into their treatment protocols.",
       Health, "Dr. Jennifer Park", "https://example.com/music-therapy")
    else
      ("Building Sustainable Fitness Habits",
       "Expert tips for creating workout routines that last.",
       "The key to sustainable fitness isn't intensity—it's consistency. Fitness experts share strategies for building exercise habits that fit seamlessly into your lifestyle and provide long-term benefits.",
       Fitness, "Coach Maria Santos", "https://example.com/sustainable-fitness")
  }

  /** The i-th sample article, numbered from `base`. */
  function SampleEntry(base: Uuid, now: int, i: nat): (a: NewsArticle)
    requires i < SampleCount
    ensures a.id == base + i && !a.isBookmarked && a.tags == [] && a.publishedDate == now
    ensures (a.title, a.summary, a.content, a.category, a.author, a.sourceURL) == SampleRow(i)
  {
    var row := SampleRow(i);
    NewArticle(base + i, now, row.0, row.1, row.2, row.3, row.4, row.5)
  }

  /** The sample articles, created together when the service is. */
  function SampleArticles(base: Uuid, now: int): (r: seq<NewsArticle>)
    ensures |r| == SampleCount
    ensures forall i :: 0 <= i < |r| ==> r[i] == SampleEntry(base, now, i) && r[i].id == base + i
    ensures DistinctArticleIds(r)
  {
    seq(SampleCount, i requires 0 <= i < SampleCount => SampleEntry(base, now, i))
  }

  // ---------------------------------------------------------------------
  // Filters

  /** The `searchArticles` test: title, summary, content or a tag contains the query, ignoring case. */
  predicate MentionsQuery(a: NewsArticle, query: string)
  {
    || ContainsIgnoringCase(a.title, query)
    || ContainsIgnoringCase(a.summary, query)
    || ContainsIgnoringCase(a.content, query)
    || exists k :: 0 <= k < |a.tags| && ContainsIgnoringCase(a.tags[k], query)
  }

  /** The personalized-feed test: category name, title or a tag contains the interest, ignoring case. */
  predicate MatchesInterest(a: NewsArticle, interest: string)
  {
    || ContainsIgnoringCase(CategoryName(a.category), interest)
    || ContainsIgnoringCase(a.title, interest)
    || exists k :: 0 <= k < |a.tags| && ContainsIgnoringCase(a.tags[k], interest)
  }

  predicate MatchesSomeInterest(a: NewsArticle, interests: seq<string>)
  {
    exists k :: 0 <= k < |interests| && MatchesInterest(a, interests[k])
  }

  predicate IsMusicArticle(a: NewsArticle)
  {
    a.category == Music
  }

  /** `firstIndex(where: { $0.id == id })`. */
  function IndexOfArticle(s: seq<NewsArticle>, id: Uuid): Option<nat>
  {
    FirstIndex((a: NewsArticle) => a.id == id, s)
  }

  // ---------------------------------------------------------------------
  // Personalized feed

  /**
   * The articles before duplicates are removed: the samples matching some
   * interest (all of them without interests), then, for a listener with
   * music preferences, every music sample once more.
   */
  function Candidates(samples: seq<NewsArticle>, user: User): (r: seq<NewsArticle>)
    ensures forall i :: 0 <= i < |r| ==> r[i] in samples
    ensures forall i :: 0 <= i < |r| ==>
      || user.newsInterests == []
      || MatchesSomeInterest(r[i], user.newsInterests)
      || (user.musicPreferences != [] && IsMusicArticle(r[i]))
    ensures forall i :: 0 <= i < |samples| && (user.newsInterests == [] || MatchesSomeInterest(samples[i], user.newsInterests))
              ==> samples[i] in r
    ensures user.musicPreferences != [] ==>
      forall i :: 0 <= i < |samples| && IsMusicArticle(samples[i]) ==> samples[i] in r
  {
    var byInterest :=
      if user.newsInterests == [] then samples
      else Filter((a: NewsArticle) => MatchesSomeInterest(a, user.newsInterests), samples);
    if user.musicPreferences == [] then byInterest
    else byInterest + Filter(IsMusicArticle, samples)
  }

  /**
   * r lists the first article of s for each id of s, once each: its ids
   * are distinct, every id of s appears, and each entry is the first
   * article of s with its id.
   */
  ghost predicate FirstOccurrences(s: seq<NewsArticle>, r: seq<NewsArticle>)
  {
    && DistinctArticleIds(r)
    && (forall i :: 0 <= i < |s| ==> HasArticleId(r, s[i].id))
    && (forall i :: 0 <= i < |r| ==> FirstWithId(s, r[i]))
  }

  /** a is in s, and no earlier article of s has its id. */
  ghost predicate FirstWithId(s: seq<NewsArticle>, a: NewsArticle)
  {
    exists j :: 0 <= j < |s| && s[j] == a && forall k :: 0 <= k < j ==> s[k].id != a.id
  }

  /** Appending keeps an article the first with its id. */
  lemma FirstWithIdSnoc(t: seq<NewsArticle>, x: NewsArticle, a: NewsArticle)
    requires FirstWithId(t, a)
    ensures FirstWithId(t + [x], a)
  {
    var s := t + [x];
    var j :| 0 <= j < |t| && t[j] == a && forall k :: 0 <= k < j ==> t[k].id != a.id;
    assert s[j] == a;
    assert forall k :: 0 <= k < j ==> s[k] == t[k];
  }

  /** `Set(ids).compactMap { id in s.first { $0.id == id } }`, in order of first appearance. */
  function UniqueById(s: seq<NewsArticle>): (r: seq<NewsArticle>)
    ensures FirstOccurrences(s, r)
    decreases |s|
  {
    if s == [] then []
    else
      var t, x := s[..|s| - 1], s[|s| - 1];
      var init := UniqueById(t);
      assert s == t + [x];
      if HasArticleId(init, x.id) then
        UniqueSkip(t, x, init);
        init
      else
        UniqueAdd(t, x, init);
        init + [x]
  }

  /** An article whose id was seen already adds nothing. */
  lemma UniqueSkip(t: seq<NewsArticle>, x: NewsArticle, init: seq<NewsArticle>)
    requires FirstOccurrences(t, init) && HasArticleId(init, x.id)
    ensures FirstOccurrences(t + [x], init)
  {
    var s := t + [x];
    forall i | 0 <= i < |s| ensures HasArticleId(init, s[i].id) {
      if i < |t| { assert s[i] == t[i]; }
    }
    forall i | 0 <= i < |init| ensures FirstWithId(s, init[i]) {
      FirstWithIdSnoc(t, x, init[i]);
    }
  }

  /** An article with a new id is appended. */
  lemma UniqueAdd(t: seq<NewsArticle>, x: NewsArticle, init: seq<NewsArticle>)
    requires FirstOccurrences(t, init) && !HasArticleId(init, x.id)
    ensures FirstOccurrences(t + [x], init + [x])
  {
    var s, r := t + [x], init + [x];
    forall i, j | 0 <= i < j < |r| ensures r[i].id != r[j].id {
      if j == |init| {
        assert r[i] == init[i];
      } else {
        assert r[i] == init[i] && r[j] == init[j];
      }
    }
    forall i | 0 <= i < |s| ensures HasArticleId(r, s[i].id) {
      if i < |t| {
        assert s[i] == t[i];
        var k :| 0 <= k < |init| && init[k].id == t[i].id;
        assert r[k] == init[k];
      } else {
        assert r[|init|] == x;
      }
    }
    forall i | 0 <= i < |r| ensures FirstWithId(s, r[i]) {
      if i < |init| {
        assert r[i] == init[i];
        FirstWithIdSnoc(t, x, init[i]);
      } else {
        forall k | 0 <= k < |t| ensures s[k].id != x.id {
          assert s[k] == t[k];
          assert HasArticleId(init, t[k].id);
        }
        assert s[|t|] == x;
      }
    }
  }

  /** Each article's flag set to whether its id is in the stored list. */
  function WithBookmarkFlags(s: seq<NewsArticle>, ids: seq<Uuid>): (r: seq<NewsArticle>)
    ensures |r| == |s|
    ensures forall i :: 0 <= i < |r| ==> r[i] == s[i].(isBookmarked := s[i].id in ids)
  {
    seq(|s|, i requires 0 <= i < |s| => s[i].(isBookmarked := s[i].id in ids))
  }

  /** The personalized feed for one shuffle order of the de-duplicated candidates. */
  function Feed(samples: seq<NewsArticle>, user: User, ids: seq<Uuid>, order: seq<nat>): (r: seq<NewsArticle>)
    requires IsPermutation(order, |UniqueById(Candidates(samples, user))|)
  {
    WithBookmarkFlags(Take(Permute(UniqueById(Candidates(samples, user)), order), 10), ids)
  }

  /** The feed holds at most ten articles with distinct ids, each flagged exactly when its id is stored. */
  lemma FeedDistinct(samples: seq<NewsArticle>, user: User, ids: seq<Uuid>, order: seq<nat>)
    requires IsPermutation(order, |UniqueById(Candidates(samples, user))|)
    ensures var r := Feed(samples, user, ids, order);
      && |r| <= 10
      && DistinctArticleIds(r)
      && (forall i :: 0 <= i < |r| ==> r[i].isBookmarked == (r[i].id in ids))
  {
    var u := UniqueById(Candidates(samples, user));
    var r := Feed(samples, user, ids, order);
    forall i, j | 0 <= i < j < |r| ensures r[i].id != r[j].id {
      assert r[i].id == u[order[i]].id && r[j].id == u[order[j]].id;
    }
  }

  /**
   * Every feed article is a sample, changed at most in its flag, and it
   * matches an interest or was added as a music article.
   */
  lemma FeedEntry(samples: seq<NewsArticle>, user: User, ids: seq<Uuid>, order: seq<nat>, i: nat)
    requires IsPermutation(order, |UniqueById(Candidates(samples, user))|)
    requires i < |Feed(samples, user, ids, order)|
    ensures var a := Feed(samples, user, ids, order)[i];
      && (exists j :: 0 <= j < |samples| && a == samples[j].(isBookmarked := a.isBookmarked))
      && (|| user.newsInterests == []
          || MatchesSomeInterest(a, user.newsInterests)
          || (user.musicPreferences != [] && IsMusicArticle(a)))
  {
    var c := Candidates(samples, user);
    var u := UniqueById(c);
    var a := Feed(samples, user, ids, order)[i];
    var b := u[order[i]];
    assert a == b.(isBookmarked := b.id in ids);
    var k :| 0 <= k < |c| && c[k] == b;
    var j :| 0 <= j < |samples| && samples[j] == c[k];
    assert a == samples[j].(isBookmarked := a.isBookmarked);
  }

  // ---------------------------------------------------------------------
  // Bookmarks

  /** The stored list after a toggle: every copy of a stored id removed, a new id appended. */
  function ToggleId(ids: seq<Uuid>, id: Uuid): (r: seq<Uuid>)
    ensures id in r <==> id !in ids
    ensures forall x :: x != id ==> (x in r <==> x in ids)
    ensures Distinct(ids) ==> Distinct(r)
  {
    if id in ids then
      var p := (x: Uuid) => x != id;
      FilterDistinct(p, ids);
      Filter(p, ids)
    else ids + [id]
  }

  /** Toggling an id that was not stored, and toggling it again, restores the list exactly. */
  lemma ToggleTwiceAbsent(ids: seq<Uuid>, id: Uuid)
    requires id !in ids
    ensures ToggleId(ToggleId(ids, id), id) == ids
  {
    var p := (x: Uuid) => x != id;
    FilterAppend(p, ids, [id]);
    FilterAll(p, ids);
    assert Filter(p, [id]) == [];
  }

  /** Two toggles restore which ids are stored. */
  lemma ToggleTwice(ids: seq<Uuid>, id: Uuid)
    ensures forall x :: x in ToggleId(ToggleId(ids, id), id) <==> x in ids
  {
  }

  /** The first article with the id gets the flag; nothing else changes. */
  function SetBookmarkFlag(s: seq<NewsArticle>, id: Uuid, flag: bool): (r: seq<NewsArticle>)
    ensures |r| == |s|
    ensures IndexOfArticle(s, id).None? ==> r == s
    ensures IndexOfArticle(s, id).Some? ==>
      var k := IndexOfArticle(s, id).value;
      r[k] == s[k].(isBookmarked := flag) && forall i :: 0 <= i < |s| && i != k ==> r[i] == s[i]
  {
    match IndexOfArticle(s, id)
    case Some(k) => s[k := s[k].(isBookmarked := flag)]
    case None => s
  }

  class NewsService {
    var articles: seq<NewsArticle>
    var isLoading: bool
    /** The id list stored under "LifeTunesBookmarkedIds". */
    var bookmarkedIds: seq<Uuid>
    const sampleArticles: seq<NewsArticle>

    /** A new service: the samples are created, nothing is loaded yet; the stored list is whatever was saved. */
    constructor(base: Uuid, now: int, storedIds: seq<Uuid>)
      ensures sampleArticles == SampleArticles(base, now)
      ensures articles == [] && !isLoading && bookmarkedIds == storedIds
    {
      sampleArticles := SampleArticles(base, now);
      articles := [];
      isLoading := false;
      bookmarkedIds := storedIds;
    }

    /**
     * `fetchPersonalizedNews`: the location argument is not used by the
     * source, so it is not a parameter here.
     */
    method FetchPersonalizedNews(user: User, order: seq<nat>)
      requires IsPermutation(order, |UniqueById(Candidates(sampleArticles, user))|)
      modifies this
      ensures articles == Feed(sampleArticles, user, bookmarkedIds, order)
      ensures !isLoading && bookmarkedIds == old(bookmarkedIds)
    {
      isLoading := true;
      var filtered := Candidates(sampleArticles, user);
      var unique := UniqueById(filtered);
      var finalArticles := Take(Permute(unique, order), 10);
      articles := WithBookmarkFlags(finalArticles, bookmarkedIds);
      isLoading := false;
    }

    /** `searchArticles`: the samples mentioning the query, in sample order. */
    function SearchArticles(query: string): (r: seq<NewsArticle>)
      ensures forall i :: 0 <= i < |r| ==> r[i] in sampleArticles && MentionsQuery(r[i], query)
      ensures forall i :: 0 <= i < |sampleArticles| && MentionsQuery(sampleArticles[i], query) ==>
        sampleArticles[i] in r
      ensures SubsequenceOf(r, sampleArticles)
    {
      var p := (a: NewsArticle) => MentionsQuery(a, query);
      FilterKeepsOrder(p, sampleArticles);
      Filter(p, sampleArticles)
    }

    /**
     * `bookmarkArticle`: toggle the id in the stored list, then set the
     * flag of the first loaded article with that id to the new membership.
     */
    method BookmarkArticle(a: NewsArticle)
      modifies this
      ensures bookmarkedIds == ToggleId(old(bookmarkedIds), a.id)
      ensures articles == SetBookmarkFlag(old(articles), a.id, a.id in bookmarkedIds)
      ensures IndexOfArticle(articles, a.id) == IndexOfArticle(old(articles), a.id)
      ensures isLoading == old(isLoading)
    {
      var isCurrentlyBookmarked := a.id in bookmarkedIds;
      bookmarkedIds := ToggleId(bookmarkedIds, a.id);
      var index := IndexOfArticle(articles, a.id);
      if index.Some? {
        var k := index.value;
        articles := articles[k := articles[k].(isBookmarked := !isCurrentlyBookmarked)];
      }
      IndexKept(old(articles), articles, a.id);
    }

    /** `getBookmarkedArticles`: the loaded articles flagged as bookmarked, in order. */
    function GetBookmarkedArticles(): (r: seq<NewsArticle>)
      reads this
      ensures forall i :: 0 <= i < |r| ==> r[i] in articles && r[i].isBookmarked
      ensures forall i :: 0 <= i < |articles| && articles[i].isBookmarked ==> articles[i] in r
      ensures SubsequenceOf(r, articles)
    {
      var p := (a: NewsArticle) => a.isBookmarked;
      FilterKeepsOrder(p, articles);
      Filter(p, articles)
    }

    /** `getArticlesByCategory`: the loaded articles of one category, in order. */
    function GetArticlesByCategory(c: NewsCategory): (r: seq<NewsArticle>)
      reads this
      ensures forall i :: 0 <= i < |r| ==> r[i] in articles && r[i].category == c
      ensures forall i :: 0 <= i < |articles| && articles[i].category == c ==> articles[i] in r
      ensures SubsequenceOf(r, articles)
    {
      var p := (a: NewsArticle) => a.category == c;
      FilterKeepsOrder(p, articles);
      Filter(p, articles)
    }
  }

  /** Changing a flag moves no id, so the same article is found first. */
  lemma IndexKept(s: seq<NewsArticle>, r: seq<NewsArticle>, id: Uuid)
    requires |s| == |r| && forall i :: 0 <= i < |s| ==> r[i].id == s[i].id
    ensures IndexOfArticle(r, id) == IndexOfArticle(s, id)
  {
    var a, b := IndexOfArticle(s, id), IndexOfArticle(r, id);
    if a.Some? {
      assert r[a.value].id == id;
    }
    if b.Some? {
      assert s[b.value].id == id;
    }
  }

  /** After a toggle, the first loaded article with the id is flagged exactly when the id is stored. */
  lemma BookmarkFlagMirrorsStore(s: seq<NewsArticle>, ids: seq<Uuid>, id: Uuid)
    requires IndexOfArticle(s, id).Some?
    ensures var r := SetBookmarkFlag(s, id, id in ToggleId(ids, id));
      r[IndexOfArticle(s, id).value].isBookmarked == (id in ToggleId(ids, id))
      && r[IndexOfArticle(s, id).value].isBookmarked == (id !in ids)
  {
  }
}

=== FILE: news_feed.dfy ===
/**
 * NewsFeedViewModel: the category filter, the search guard, the bookmark
 * list kept beside the service's stored ids, recommendations, trending
 * topics and the read-article list.
 *
 * The Combine bindings deliver at once: after each service call the
 * service's articles and loading flag are copied. The read-article list
 * ("LifeTunesReadArticles") is a field.
 */
module NewsFeed {
  import opened Common
  import opened Words
  import opened Users
  import opened NewsModel
  import opened News
  import opened Trending

  /** The `getRecommendedArticles` test for one interest: title, summary or a tag contains it, ignoring case. */
  predicate RecommendedBy(a: NewsArticle, interest: string)
  {
    || ContainsIgnoringCase(a.title, interest)
    || ContainsIgnoringCase(a.summary, interest)
    || exists t :: 0 <= t < |a.tags| && ContainsIgnoringCase(a.tags[t], interest)
  }

  predicate RecommendedFor(a: NewsArticle, interests: seq<string>)
  {
    exists k :: 0 <= k < |interests| && RecommendedBy(a, interests[k])
  }

  /** The read list after `markArticleAsRead`: the id appended unless already there. */
  function MarkRead(ids: seq<Uuid>, id: Uuid): (r: seq<Uuid>)
    ensures id in r
    ensures forall x :: x != id ==> (x in r <==> x in ids)
    ensures id in ids ==> r == ids
    ensures id !in ids ==> r == ids + [id]
    ensures Distinct(ids) ==> Distinct(r)
  {
    if id in ids then ids else ids + [id]
  }

  /** Marking twice is marking once. */
  lemma MarkReadIdempotent(ids: seq<Uuid>, id: Uuid)
    ensures MarkRead(MarkRead(ids, id), id) == MarkRead(ids, id)
  {
  }

  /** The bookmark list with a: unchanged when an article with its id is listed already. */
  function AddBookmark(s: seq<NewsArticle>, a: NewsArticle): (r: seq<NewsArticle>)
    ensures HasArticleId(r, a.id)
    ensures HasArticleId(s, a.id) ==> r == s
    ensures !HasArticleId(s, a.id) ==> r == s + [a]
    ensures forall id :: id != a.id ==> (HasArticleId(r, id) <==> HasArticleId(s, id))
    ensures DistinctArticleIds(s) ==> DistinctArticleIds(r)
  {
    if HasArticleId(s, a.id) then s
    else
      assert (s + [a])[|s|] == a;
      assert forall i :: 0 <= i < |s| ==> (s + [a])[i] == s[i];
      s + [a]
  }

  /** The bookmark list without any article with the id; the rest in order. */
  function RemoveBookmark(s: seq<NewsArticle>, id: Uuid): (r: seq<NewsArticle>)
    ensures !HasArticleId(r, id)
    ensures forall x :: x != id ==> (HasArticleId(r, x) <==> HasArticleId(s, x))
    ensures SubsequenceOf(r, s)
    ensures DistinctArticleIds(s) ==> DistinctArticleIds(r)
  {
    var p := (a: NewsArticle) => a.id != id;
    RemoveBookmarkFacts(p, s, id);
    Filter(p, s)
  }

  lemma RemoveBookmarkFacts(p: NewsArticle -> bool, s: seq<NewsArticle>, id: Uuid)
    requires forall a :: p(a) <==> a.id != id
    ensures var r := Filter(p, s);
      && (forall x :: x != id ==> (HasArticleId(r, x) <==> HasArticleId(s, x)))
      && SubsequenceOf(r, s)
      && (DistinctArticleIds(s) ==> DistinctArticleIds(r))
  {
    FilterKeepsOrder(p, s);
    var r := Filter(p, s);
    forall x | x != id && HasArticleId(s, x) ensures HasArticleId(r, x) {
      var i :| 0 <= i < |s| && s[i].id == x;
      var j :| 0 <= j < |r| && r[j] == s[i];
    }
    if DistinctArticleIds(s) {
      var idx :| PicksOut(idx, r, s);
      forall i, j | 0 <= i < j < |r| ensures r[i].id != r[j].id {
        assert r[i] == s[idx[i]] && r[j] == s[idx[j]] && idx[i] < idx[j];
      }
    }
  }

  class NewsFeedViewModel {
    var articles: seq<NewsArticle>
    var bookmarkedArticles: seq<NewsArticle>
    var isLoading: bool
    var selectedCategory: Option<NewsCategory>
    var searchResults: seq<NewsArticle>
    /** The id list stored under "LifeTunesReadArticles". */
    var readIds: seq<Uuid>
    const newsService: NewsService

    /** The saved bookmark list is loaded when it decodes; the service's state is copied. */
    constructor(newsService: NewsService, savedBookmarks: Option<seq<NewsArticle>>, storedReadIds: seq<Uuid>)
      ensures this.newsService == newsService
      ensures articles == newsService.articles && isLoading == newsService.isLoading
      ensures bookmarkedArticles == (if savedBookmarks.Some? then savedBookmarks.value else [])
      ensures selectedCategory == None && searchResults == [] && readIds == storedReadIds
    {
      this.newsService := newsService;
      articles := newsService.articles;
      isLoading := newsService.isLoading;
      bookmarkedArticles := [];
      selectedCategory := None;
      searchResults := [];
      readIds := storedReadIds;
      if savedBookmarks.Some? {
        bookmarkedArticles := savedBookmarks.value;
      }
    }

    /** `fetchPersonalizedNews`, with the service's new articles delivered to the screen. */
    method FetchPersonalizedNews(user: User, order: seq<nat>)
      requires IsPermutation(order, |UniqueById(Candidates(newsService.sampleArticles, user))|)
      modifies this, newsService
      ensures newsService.articles == Feed(newsService.sampleArticles, user, newsService.bookmarkedIds, order)
      ensures newsService.bookmarkedIds == old(newsService.bookmarkedIds) && !newsService.isLoading
      ensures articles == newsService.articles && !isLoading
      ensures bookmarkedArticles == old(bookmarkedArticles) && readIds == old(readIds)
      ensures selectedCategory == old(selectedCategory) && searchResults == old(searchResults)
    {
      newsService.FetchPersonalizedNews(user, order);
      articles := newsService.articles;
      isLoading := newsService.isLoading;
    }

    /** `filterByCategory`: one category of the service's articles, or all of them. */
    method FilterByCategory(category: Option<NewsCategory>)
      modifies this
      ensures selectedCategory == category
      ensures category.None? ==> articles == newsService.articles
      ensures category.Some? ==> articles == newsService.GetArticlesByCategory(category.value)
      ensures forall i :: 0 <= i < |articles| ==>
        articles[i] in newsService.articles && (category.Some? ==> articles[i].category == category.value)
      ensures SubsequenceOf(articles, newsService.articles)
      ensures bookmarkedArticles == old(bookmarkedArticles) && readIds == old(readIds)
      ensures searchResults == old(searchResults) && isLoading == old(isLoading)
    {
      selectedCategory := category;
      if category.Some? {
        articles := newsService.GetArticlesByCategory(category.value);
      } else {
        articles := newsService.articles;
        SubsequenceOfSelf(articles);
      }
    }

    /** `performSearch`: a blank query clears the results; any other query searches the samples. */
    method PerformSearch(query: string)
      modifies this
      ensures IsBlank(query) ==> searchResults == []
      ensures !IsBlank(query) ==> searchResults == newsService.SearchArticles(query)
      ensures forall i :: 0 <= i < |searchResults| ==> MentionsQuery(searchResults[i], query)
      ensures articles == old(articles) && bookmarkedArticles == old(bookmarkedArticles)
      ensures readIds == old(readIds) && selectedCategory == old(selectedCategory) && isLoading == old(isLoading)
    {
      if IsBlank(query) {
        searchResults := [];
        return;
      }
      searchResults := newsService.SearchArticles(query);
    }

    /**
     * `bookmarkArticle`: toggle the id at the service, then list the
     * article when the flag it was passed with is set, or unlist it. When
     * the service re-flags one of its articles, the binding delivers the
     * service's list to the screen, replacing any category filter.
     */
    method BookmarkArticle(a: NewsArticle)
      modifies this, newsService
      ensures newsService.bookmarkedIds == ToggleId(old(newsService.bookmarkedIds), a.id)
      ensures newsService.articles == SetBookmarkFlag(old(newsService.articles), a.id, a.id in newsService.bookmarkedIds)
      ensures newsService.isLoading == old(newsService.isLoading)
      ensures bookmarkedArticles ==
        (if a.isBookmarked then AddBookmark(old(bookmarkedArticles), a) else RemoveBookmark(old(bookmarkedArticles), a.id))
      ensures HasArticleId(bookmarkedArticles, a.id) <==> a.isBookmarked
      ensures forall id :: id != a.id ==> (HasArticleId(bookmarkedArticles, id) <==> HasArticleId(old(bookmarkedArticles), id))
      ensures DistinctArticleIds(old(bookmarkedArticles)) ==> DistinctArticleIds(bookmarkedArticles)
      ensures IndexOfArticle(old(newsService.articles), a.id).Some? ==> articles == newsService.articles
      ensures IndexOfArticle(old(newsService.articles), a.id).None? ==> articles == old(articles)
      ensures readIds == old(readIds) && searchResults == old(searchResults)
      ensures selectedCategory == old(selectedCategory) && isLoading == old(isLoading)
    {
      var listed := IndexOfArticle(newsService.articles, a.id).Some?;
      newsService.BookmarkArticle(a);
      if listed {
        articles := newsService.articles;
      }
      if a.isBookmarked {
        bookmarkedArticles := AddBookmark(bookmarkedArticles, a);
      } else {
        bookmarkedArticles := RemoveBookmark(bookmarkedArticles, a.id);
      }
    }

    /** `getBookmarkedArticles`: asks the service. */
    function GetBookmarkedArticles(): (r: seq<NewsArticle>)
      reads newsService
      ensures forall i :: 0 <= i < |r| ==> r[i] in newsService.articles && r[i].isBookmarked
      ensures forall i :: 0 <= i < |newsService.articles| && newsService.articles[i].isBookmarked ==>
        newsService.articles[i] in r
      ensures SubsequenceOf(r, newsService.articles)
    {
      newsService.GetBookmarkedArticles()
    }

    /** `getArticlesByCategory`: over the articles on screen, in order. */
    function GetArticlesByCategory(c: NewsCategory): (r: seq<NewsArticle>)
      reads this
      ensures forall i :: 0 <= i < |r| ==> r[i] in articles && r[i].category == c
      ensures forall i :: 0 <= i < |articles| && articles[i].category == c ==> articles[i] in r
      ensures SubsequenceOf(r, articles)
    {
      var p := (a: NewsArticle) => a.category == c;
      FilterKeepsOrder(p, articles);
      Filter(p, articles)
    }

    function GetTrendingTopics(): (r: seq<string>)
      reads this
      ensures |r| <= 10 && Distinct(r)
      ensures forall i :: 0 <= i < |r| ==> Occurrences(Tokens(articles), r[i]) >= 2
    {
      TrendingTopics(articles)
    }

    /** `getRecommendedArticles`: the articles on screen that match some interest, in order. */
    function GetRecommendedArticles(interests: seq<string>): (r: seq<NewsArticle>)
      reads this
      ensures forall i :: 0 <= i < |r| ==> r[i] in articles && RecommendedFor(r[i], interests)
      ensures forall i :: 0 <= i < |articles| && RecommendedFor(articles[i], interests) ==> articles[i] in r
      ensures interests == [] ==> r == []
      ensures SubsequenceOf(r, articles)
    {
      var p := (a: NewsArticle) => RecommendedFor(a, interests);
      FilterKeepsOrder(p, articles);
      FilterCount(p, articles);
      Filter(p, articles)
    }

    method MarkArticleAsRead(a: NewsArticle)
      modifies this
      ensures readIds == MarkRead(old(readIds), a.id)
      ensures IsArticleRead(a)
      ensures articles == old(articles) && bookmarkedArticles == old(bookmarkedArticles)
      ensures searchResults == old(searchResults) && selectedCategory == old(selectedCategory)
      ensures isLoading == old(isLoading)
    {
      if a.id !in readIds {
        readIds := readIds + [a.id];
      }
    }

    predicate IsArticleRead(a: NewsArticle)
      reads this
    {
      a.id in readIds
    }
  }
}

=== FILE: news_model.dfy ===
/**
 * The `NewsArticle` record, its category enumeration and the reading-time
 * estimate computed when an article is created.
 */
module NewsModel {
  import opened Common

  datatype NewsCategory = Lifestyle | Music | Health | Technology | Entertainment | Travel | Fitness | Mindfulness

  const AllNewsCategories: seq<NewsCategory> :=
    [Lifestyle, Music, Health, Technology, Entertainment, Travel, Fitness, Mindfulness]

  /** `NewsCategory.allCases` lists eight distinct cases and every category is among them. */
  lemma NewsCategoriesComplete(c: NewsCategory)
    ensures |AllNewsCategories| == 8 && c in AllNewsCategories
    ensures forall i, j :: 0 <= i < j < |AllNewsCategories| ==> AllNewsCategories[i] != AllNewsCategories[j]
  {
    match c
    case Lifestyle => assert AllNewsCategories[0] == c;
    case Music => assert AllNewsCategories[1] == c;
    case Health => assert AllNewsCategories[2] == c;
    case Technology => assert AllNewsCategories[3] == c;
    case Entertainment => assert AllNewsCategories[4] == c;
    case Travel => assert AllNewsCategories[5] == c;
    case Fitness => assert AllNewsCategories[6] == c;
    case Mindfulness => assert AllNewsCategories[7] == c;
  }

  /** The raw value of a category. */
  function CategoryName(c: NewsCategory): (s: string)
    ensures |s| >= 4
  {
    match c
    case Lifestyle => "Lifestyle"
    case Music => "Music"
    case Health => "Health"
    case Technology => "Technology"
    case Entertainment => "Entertainment"
    case Travel => "Travel"
    case Fitness => "Fitness"
    case Mindfulness => "Mindfulness"
  }

  datatype NewsArticle = NewsArticle(
    id: Uuid,
    title: string,
    summary: string,
    content: string,
    category: NewsCategory,
    author: string,
    publishedDate: int,
    imageURL: Option<string>,
    sourceURL: string,
    isBookmarked: bool,
    readingTime: int,
    tags: seq<string>)

  /** Characters read per minute by the estimate. */
  const CharsPerMinute: nat := 250

  /** `max(1, content.count / 250)`: whole minutes, rounded down, never below one. */
  function ReadingTime(content: string): (m: int)
    ensures m >= 1
    ensures |content| >= CharsPerMinute ==> m * CharsPerMinute <= |content| < (m + 1) * CharsPerMinute
    ensures |content| < 2 * CharsPerMinute ==> m == 1
  {
    Max(1, |content| / CharsPerMinute)
  }

  /** Longer content never reads faster. */
  lemma ReadingTimeMonotone(a: string, b: string)
    requires |a| <= |b|
    ensures ReadingTime(a) <= ReadingTime(b)
  {
    assert |a| / CharsPerMinute <= |b| / CharsPerMinute;
  }

  /** `NewsArticle.init`: not bookmarked, no image, no tags, published now. */
  function NewArticle(id: Uuid, now: int, title: string, summary: string, content: string,
                      category: NewsCategory, author: string, sourceURL: string): (a: NewsArticle)
    ensures a.id == id && a.publishedDate == now
    ensures a.title == title && a.summary == summary && a.content == content
    ensures a.category == category && a.author == author && a.sourceURL == sourceURL
    ensures !a.isBookmarked && a.imageURL == None && a.tags == []
    ensures a.readingTime == ReadingTime(content)
  {
    NewsArticle(id, title, summary, content, category, author, now, None, sourceURL, false, ReadingTime(content), [])
  }

  predicate HasArticleId(s: seq<NewsArticle>, id: Uuid)
  {
    exists i :: 0 <= i < |s| && s[i].id == id
  }

  predicate DistinctArticleIds(s: seq<NewsArticle>)
  {
    forall i, j :: 0 <= i < j < |s| ==> s[i].id != s[j].id
  }
}

=== FILE: playlist_screen.dfy ===
/**
 * PlaylistViewModel: the saved playlist collection (unique by id), the
 * current playlist, and the generation flags around the music service.
 */
module PlaylistScreen {
  import opened Common
  import opened Moods
  import opened Playlists
  import opened Music

  predicate HasId(s: seq<Playlist>, id: Uuid)
  {
    exists i :: 0 <= i < |s| && s[i].id == id
  }

  predicate DistinctIds(s: seq<Playlist>)
  {
    forall i, j :: 0 <= i < j < |s| ==> s[i].id != s[j].id
  }

  /** `addPlaylist`: append unless a playlist with the same id is already saved. */
  function AddIfAbsent(s: seq<Playlist>, p: Playlist): (r: seq<Playlist>)
    ensures HasId(r, p.id)
    ensures HasId(s, p.id) ==> r == s
    ensures !HasId(s, p.id) ==> r == s + [p]
    ensures DistinctIds(s) ==> DistinctIds(r)
  {
    if HasId(s, p.id) then s
    else
      assert (s + [p])[|s|].id == p.id;
      s + [p]
  }

  /** `removeAll { $0.id == id }`: the others stay in order. */
  function WithoutId(s: seq<Playlist>, id: Uuid): (r: seq<Playlist>)
    ensures !HasId(r, id)
    ensures forall i :: 0 <= i < |r| ==> r[i] in s
    ensures forall i :: 0 <= i < |s| && s[i].id != id ==> s[i] in r
    ensures DistinctIds(s) ==> DistinctIds(r)
    ensures SubsequenceOf(r, s)
  {
    var r := Filter((q: Playlist) => q.id != id, s);
    FilterKeepsDistinctIds((q: Playlist) => q.id != id, s);
    FilterKeepsOrder((q: Playlist) => q.id != id, s);
    r
  }

  /** Filtering keeps ids distinct: it only drops entries. */
  lemma FilterKeepsDistinctIds(keep: Playlist -> bool, s: seq<Playlist>)
    ensures DistinctIds(s) ==> DistinctIds(Filter(keep, s))
  {
    if DistinctIds(s) {
      FilterKeepsOrder(keep, s);
      var r := Filter(keep, s);
      var idx :| PicksOut(idx, r, s);
      forall i, j | 0 <= i < j < |r| ensures r[i].id != r[j].id {
        assert r[i] == s[idx[i]] && r[j] == s[idx[j]] && idx[i] < idx[j];
      }
    }
  }

  /** Swift's `==` on lowercased strings. */
  predicate SameMoodName(p: Playlist, mood: string)
  {
    Lower(p.mood) == Lower(mood)
  }

  class PlaylistViewModel {
    var playlists: seq<Playlist>
    var currentPlaylist: Option<Playlist>
    var isGeneratingPlaylist: bool
    var errorMessage: Option<string>
    const music: MusicService

    /** No two saved playlists share an id. */
    ghost predicate Valid()
      reads this
    {
      DistinctIds(playlists)
    }

    /**
     * `init`: the binding delivers the music service's current playlist,
     * and `loadSavedPlaylists` restores the saved list when it decodes.
     */
    constructor(music: MusicService, saved: Option<seq<Playlist>>)
      requires saved.Some? ==> DistinctIds(saved.value)
      ensures Valid()
      ensures this.music == music
      ensures playlists == (if saved.Some? then saved.value else [])
      ensures currentPlaylist == music.currentPlaylist && !isGeneratingPlaylist && errorMessage == None
    {
      this.music := music;
      playlists := if saved.Some? then saved.value else [];
      currentPlaylist := music.currentPlaylist;
      isGeneratingPlaylist := false;
      errorMessage := None;
    }

    method AddPlaylist(p: Playlist)
      requires Valid()
      modifies this
      ensures Valid()
      ensures playlists == AddIfAbsent(old(playlists), p)
      ensures |old(playlists)| <= |playlists| <= |old(playlists)| + 1
      ensures currentPlaylist == old(currentPlaylist) && isGeneratingPlaylist == old(isGeneratingPlaylist)
      ensures errorMessage == old(errorMessage)
    {
      if !HasId(playlists, p.id) {
        playlists := playlists + [p];
      }
    }

    method DeletePlaylist(p: Playlist)
      requires Valid()
      modifies this
      ensures Valid()
      ensures playlists == WithoutId(old(playlists), p.id)
      ensures currentPlaylist == if old(currentPlaylist).Some? && old(currentPlaylist).value.id == p.id
                                 then None else old(currentPlaylist)
      ensures isGeneratingPlaylist == old(isGeneratingPlaylist) && errorMessage == old(errorMessage)
    {
      playlists := WithoutId(playlists, p.id);
      if currentPlaylist.Some? && currentPlaylist.value.id == p.id {
        currentPlaylist := None;
      }
    }

    /** `getPlaylistsForMood`: the saved playlists whose mood equals the argument, ignoring case, in order. */
    function PlaylistsForMood(mood: string): (r: seq<Playlist>)
      reads this
      ensures forall i :: 0 <= i < |r| ==> r[i] in playlists && SameMoodName(r[i], mood)
      ensures forall i :: 0 <= i < |playlists| && SameMoodName(playlists[i], mood) ==> playlists[i] in r
      ensures SubsequenceOf(r, playlists)
    {
      FilterKeepsOrder((p: Playlist) => SameMoodName(p, mood), playlists);
      Filter((p: Playlist) => SameMoodName(p, mood), playlists)
    }

    /**
     * `generateGeoTunedPlaylist`: without a location only the error message
     * changes; otherwise the generated playlist becomes current and is saved.
     */
    method GenerateGeoTunedPlaylist(location: Option<Coordinate>, mood: string,
                                    id: Uuid, now: int, order: seq<nat>, nameIndex: nat)
      requires Valid()
      requires IsPermutation(order, |music.LocationCandidates(mood)|) && nameIndex < |LocationNames|
      modifies this
      ensures Valid()
      ensures location.None? ==>
        && errorMessage == Some("Location not available. Please enable location services.")
        && playlists == old(playlists) && currentPlaylist == old(currentPlaylist)
        && isGeneratingPlaylist == old(isGeneratingPlaylist)
      ensures location.Some? ==>
        var p := music.GeoTunedPlaylist(id, now, location.value, mood, order, nameIndex);
        && currentPlaylist == Some(p) && playlists == AddIfAbsent(old(playlists), p)
        && !isGeneratingPlaylist && errorMessage == None
    {
      if location.None? {
        errorMessage := Some("Location not available. Please enable location services.");
        return;
      }
      isGeneratingPlaylist := true;
      errorMessage := None;
      var p := music.GeoTunedPlaylist(id, now, location.value, mood, order, nameIndex);
      isGeneratingPlaylist := false;
      currentPlaylist := Some(p);
      AddPlaylist(p);
    }

    /** `generateMoodBasedPlaylist`: the generated playlist becomes current and is saved. */
    method GenerateMoodBasedPlaylist(m: Mood, id: Uuid, now: int)
      requires Valid()
      modifies this
      ensures Valid()
      ensures var p := music.MoodBasedPlaylist(id, now, m);
        && currentPlaylist == Some(p) && playlists == AddIfAbsent(old(playlists), p)
        && !isGeneratingPlaylist && errorMessage == None
    {
      isGeneratingPlaylist := true;
      errorMessage := None;
      var p := music.MoodBasedPlaylist(id, now, m);
      isGeneratingPlaylist := false;
      currentPlaylist := Some(p);
      AddPlaylist(p);
    }

    method PlayTrack(t: Track)
      modifies music
      ensures music.Valid()
      ensures music.currentTrack == Some(t) && music.isPlaying
      ensures music.currentPlaylist == old(music.currentPlaylist)
    {
      music.PlayTrack(t);
    }

    method PausePlayback()
      modifies music
      ensures music.Valid()
      ensures !music.isPlaying && music.currentTrack == old(music.currentTrack)
      ensures music.currentPlaylist == old(music.currentPlaylist)
    {
      music.PausePlayback();
    }

    method StopPlayback()
      modifies music
      ensures music.Valid()
      ensures !music.isPlaying && music.currentTrack == None
      ensures music.currentPlaylist == old(music.currentPlaylist)
    {
      music.StopPlayback();
    }
  }
}

=== FILE: playlists.dfy ===
/**
 * The `Track` and `Playlist` records. Swift's initialisers draw a fresh
 * UUID and read the clock; here the caller supplies both.
 */
module Playlists {
  import opened Common

  datatype Track = Track(
    id: Uuid,
    title: string,
    artist: string,
    duration: real,
    genre: string,
    mood: string,
    isLocal: bool)

  datatype Playlist = Playlist(
    id: Uuid,
    name: string,
    tracks: seq<Track>,
    location: Option<Coordinate>,
    mood: string,
    genre: string,
    createdDate: int,
    isGeoTuned: bool)

  /** `Track.init`: genre and mood default to "", `isLocal` to false. */
  function NewTrack(id: Uuid, title: string, artist: string, duration: real,
                    genre: string := "", mood: string := "", isLocal: bool := false): (t: Track)
    ensures t.id == id && t.title == title && t.artist == artist && t.duration == duration
    ensures t.genre == genre && t.mood == mood && t.isLocal == isLocal
  {
    Track(id, title, artist, duration, genre, mood, isLocal)
  }

  /** `Playlist.init`: no tracks, no location, empty mood and genre, not geo-tuned by default. */
  function NewPlaylist(id: Uuid, now: int, name: string, tracks: seq<Track> := [],
                       location: Option<Coordinate> := None, mood: string := "",
                       genre: string := "", isGeoTuned: bool := false): (p: Playlist)
    ensures p.id == id && p.createdDate == now
    ensures p.name == name && p.tracks == tracks && p.location == location
    ensures p.mood == mood && p.genre == genre && p.isGeoTuned == isGeoTuned
  {
    Playlist(id, name, tracks, location, mood, genre, now, isGeoTuned)
  }

  /** The defaults of the two initialisers. */
  lemma InitDefaults(id: Uuid, now: int, name: string, title: string, artist: string, duration: real)
    ensures var p := NewPlaylist(id, now, name);
      p.tracks == [] && p.location == None && p.mood == "" && p.genre == "" && !p.isGeoTuned
    ensures var t := NewTrack(id, title, artist, duration);
      t.genre == "" && t.mood == "" && !t.isLocal
  {
  }
}

=== FILE: trending.dfy ===
/**
 * `getTrendingTopics`: the words of the loaded headlines (title and
 * summary), kept when longer than four characters, lowercased and
 * stripped of surrounding punctuation, counted, kept when seen at least
 * twice, ranked by count and cut to ten.
 */
module Trending {
  import opened Common
  import opened Words
  import opened NewsModel

  /** The headline text of an article, split at whitespace. */
  function HeadlineWords(a: NewsArticle): seq<string>
  {
    Split(a.title + " " + a.summary)
  }

  /** `flatMap` of the headline words over the articles, in order. */
  function AllWords(articles: seq<NewsArticle>): (r: seq<string>)
    ensures forall i :: 0 <= i < |articles| ==> forall w :: w in HeadlineWords(articles[i]) ==> w in r
    ensures forall w :: w in r ==> exists i :: 0 <= i < |articles| && w in HeadlineWords(articles[i])
    decreases |articles|
  {
    if articles == [] then []
    else HeadlineWords(articles[0]) + AllWords(articles[1..])
  }

  /** Only words longer than four characters count, measured before any trimming. */
  predicate IsLong(w: string)
  {
    |w| > 4
  }

  function Normalize(w: string): string
  {
    TrimPunctuation(Lower(w))
  }

  function NormalizeAll(ws: seq<string>): (r: seq<string>)
    ensures |r| == |ws| && forall i :: 0 <= i < |ws| ==> r[i] == Normalize(ws[i])
  {
    seq(|ws|, i requires 0 <= i < |ws| => Normalize(ws[i]))
  }

  /** The words that are counted. */
  function Tokens(articles: seq<NewsArticle>): seq<string>
  {
    NormalizeAll(Filter(IsLong, AllWords(articles)))
  }

  /** How often w occurs in ws: the size of its group. */
  function Occurrences(ws: seq<string>, w: string): (n: nat)
    ensures n <= |ws|
    ensures n > 0 <==> w in ws
    decreases |ws|
  {
    if ws == [] then 0
    else (if ws[0] == w then 1 else 0) + Occurrences(ws[1..], w)
  }

  /** The distinct words of ws, in order of first appearance. */
  function Dedup(ws: seq<string>): (r: seq<string>)
    ensures Distinct(r)
    ensures forall w :: w in r <==> w in ws
    decreases |ws|
  {
    if ws == [] then []
    else
      var init := Dedup(ws[..|ws| - 1]);
      var last := ws[|ws| - 1];
      assert ws == ws[..|ws| - 1] + [last];
      if last in init then init else init + [last]
  }

  /** The words seen at least twice, each once, in order of first appearance. */
  function Frequent(ws: seq<string>): (r: seq<string>)
    ensures Distinct(r)
    ensures forall w :: w in r <==> Occurrences(ws, w) > 1
  {
    var p := (w: string) => Occurrences(ws, w) > 1;
    FilterDistinct(p, Dedup(ws));
    assert forall w :: p(w) ==> w in Dedup(ws);
    Filter(p, Dedup(ws))
  }

  /** The frequent words ranked by count, most frequent first; equal counts keep their first-seen order. */
  function Ranked(ws: seq<string>): (r: seq<string>)
    ensures SortedDesc(r, (w: string) => Occurrences(ws, w))
    ensures Distinct(r)
    ensures forall w :: w in r <==> Occurrences(ws, w) > 1
  {
    var r := SortDesc(Frequent(ws), (w: string) => Occurrences(ws, w));
    PermutedDistinct(Frequent(ws), r);
    assert forall w :: w in r <==> w in multiset(Frequent(ws));
    r
  }

  /** `getTrendingTopics` over the loaded articles. */
  function TrendingTopics(articles: seq<NewsArticle>): (r: seq<string>)
    ensures |r| <= 10
    ensures Distinct(r)
    ensures forall i :: 0 <= i < |r| ==> Occurrences(Tokens(articles), r[i]) >= 2
  {
    Take(Ranked(Tokens(articles)), 10)
  }

  /** The topics come in order of non-increasing count. */
  lemma TrendingRanked(articles: seq<NewsArticle>)
    ensures var ws, r := Tokens(articles), TrendingTopics(articles);
      forall i, j :: 0 <= i < j < |r| ==> Occurrences(ws, r[i]) >= Occurrences(ws, r[j])
  {
    var ws := Tokens(articles);
    var s := Ranked(ws);
    var r := TrendingTopics(articles);
    forall i, j | 0 <= i < j < |r| ensures Occurrences(ws, r[i]) >= Occurrences(ws, r[j]) {
      assert r[i] == s[i] && r[j] == s[j];
    }
  }

  /**
   * A word seen at least twice is missing from the topics only when all
   * ten places are taken by words seen at least as often.
   */
  lemma TrendingComplete(articles: seq<NewsArticle>, w: string)
    requires Occurrences(Tokens(articles), w) >= 2
    ensures var ws, r := Tokens(articles), TrendingTopics(articles);
      w !in r ==> |r| == 10 && forall i :: 0 <= i < |r| ==> Occurrences(ws, r[i]) >= Occurrences(ws, w)
  {
    var ws := Tokens(articles);
    TopComplete(Ranked(ws), (w: string) => Occurrences(ws, w), 10, w);
  }

  /** Every topic is the normalized form of a headline word that was longer than four characters. */
  lemma TrendingOrigin(articles: seq<NewsArticle>, i: nat)
    requires i < |TrendingTopics(articles)|
    ensures exists raw :: raw in AllWords(articles) && IsLong(raw) && Normalize(raw) == TrendingTopics(articles)[i]
  {
    var t := TrendingTopics(articles)[i];
    var long := Filter(IsLong, AllWords(articles));
    assert t in Tokens(articles);
    var k :| 0 <= k < |long| && Normalize(long[k]) == t;
    assert long[k] in AllWords(articles) && IsLong(long[k]);
  }
}

=== FILE: users.dfy ===
/**
 * The `User` profile record, the keyed coding of a coordinate, and the
 * profile view model whose methods update the stored user.
 */
module Users {
  import opened Common

  datatype User = User(
    id: Uuid,
    name: string,
    musicPreferences: seq<string>,
    lifestyleGoals: seq<string>,
    newsInterests: seq<string>,
    location: Option<Coordinate>,
    dailyGoal: int,
    currentStreak: int,
    joinedDate: int)

  /** `User.init`: the given profile, no location, a goal of three a day, no streak yet. */
  function NewUser(id: Uuid, now: int, name: string := "", musicPreferences: seq<string> := [],
                   lifestyleGoals: seq<string> := [], newsInterests: seq<string> := []): (u: User)
    ensures u.id == id && u.joinedDate == now
    ensures u.name == name && u.musicPreferences == musicPreferences
    ensures u.lifestyleGoals == lifestyleGoals && u.newsInterests == newsInterests
    ensures u.location == None && u.dailyGoal == 3 && u.currentStreak == 0
  {
    User(id, name, musicPreferences, lifestyleGoals, newsInterests, None, 3, 0, now)
  }

  /** Every field of a user created without arguments is empty or at its default. */
  lemma DefaultUser(id: Uuid, now: int)
    ensures NewUser(id, now) == User(id, "", [], [], [], None, 3, 0, now)
  {
  }

  /** The coding keys of a coordinate. */
  const LatitudeKey: string := "latitude"
  const LongitudeKey: string := "longitude"

  /** A keyed container holding floating values. */
  type Container = map<string, real>

  /** `encode(to:)`: each component under its own key. */
  function EncodeCoordinate(c: Coordinate): (m: Container)
    ensures m.Keys == {LatitudeKey, LongitudeKey}
    ensures m[LatitudeKey] == c.latitude && m[LongitudeKey] == c.longitude
  {
    map[LatitudeKey := c.latitude, LongitudeKey := c.longitude]
  }

  /** `init(from:)`: decoding throws, here gives None, when a key is missing. */
  function DecodeCoordinate(m: Container): (r: Option<Coordinate>)
    ensures r.Some? <==> LatitudeKey in m && LongitudeKey in m
    ensures r.Some? ==> EncodeCoordinate(r.value) == map k | k in m && k in {LatitudeKey, LongitudeKey} :: m[k]
  {
    if LatitudeKey in m && LongitudeKey in m then Some(Coordinate(m[LatitudeKey], m[LongitudeKey]))
    else None
  }

  /** Decoding what was encoded gives back the same coordinate. */
  lemma CoordinateRoundTrip(c: Coordinate)
    ensures DecodeCoordinate(EncodeCoordinate(c)) == Some(c)
  {
  }

  class UserProfileViewModel {
    var user: User
    var isOnboardingCompleted: bool
    var hasLocationPermission: bool
    var hasNotificationPermission: bool

    /**
     * A fresh default user, replaced by the saved one when there is one;
     * the onboarding flag is the saved flag, false when none was saved.
     * The location bindings deliver through the main queue, so at the end
     * of `init` the permission flag is still false and the user's location
     * is the loaded one; `ReceivePermission` and `ReceiveLocation` model the
     * later deliveries.
     */
    constructor(id: Uuid, now: int, savedUser: Option<User>, savedOnboarding: bool)
      ensures user == (if savedUser.Some? then savedUser.value else NewUser(id, now))
      ensures isOnboardingCompleted == savedOnboarding
      ensures !hasLocationPermission && !hasNotificationPermission
    {
      user := NewUser(id, now);
      isOnboardingCompleted := false;
      hasLocationPermission := false;
      hasNotificationPermission := false;
      if savedUser.Some? {
        user := savedUser.value;
      }
      isOnboardingCompleted := savedOnboarding;
    }

    /** `updateUser`: name and the three preference lists; nothing else. */
    method UpdateUser(name: string, musicPreferences: seq<string>, lifestyleGoals: seq<string>,
                      newsInterests: seq<string>)
      modifies this
      ensures user == old(user).(name := name, musicPreferences := musicPreferences,
                                 lifestyleGoals := lifestyleGoals, newsInterests := newsInterests)
      ensures user.id == old(user.id) && user.dailyGoal == old(user.dailyGoal)
      ensures user.currentStreak == old(user.currentStreak) && user.location == old(user.location)
      ensures user.joinedDate == old(user.joinedDate)
      ensures isOnboardingCompleted == old(isOnboardingCompleted)
      ensures hasLocationPermission == old(hasLocationPermission)
      ensures hasNotificationPermission == old(hasNotificationPermission)
    {
      user := user.(name := name);
      user := user.(musicPreferences := musicPreferences);
      user := user.(lifestyleGoals := lifestyleGoals);
      user := user.(newsInterests := newsInterests);
    }

    /** `completeOnboarding`: only the flag changes. */
    method CompleteOnboarding()
      modifies this
      ensures isOnboardingCompleted
      ensures user == old(user)
      ensures hasLocationPermission == old(hasLocationPermission)
      ensures hasNotificationPermission == old(hasNotificationPermission)
    {
      isOnboardingCompleted := true;
    }

    /** `updateDailyGoal`: any integer is accepted. */
    method UpdateDailyGoal(goal: int)
      modifies this
      ensures user == old(user).(dailyGoal := goal)
      ensures isOnboardingCompleted == old(isOnboardingCompleted)
      ensures hasLocationPermission == old(hasLocationPermission)
      ensures hasNotificationPermission == old(hasNotificationPermission)
    {
      user := user.(dailyGoal := goal);
    }

    method IncrementStreak()
      modifies this
      ensures user == old(user).(currentStreak := old(user.currentStreak) + 1)
      ensures isOnboardingCompleted == old(isOnboardingCompleted)
      ensures hasLocationPermission == old(hasLocationPermission)
      ensures hasNotificationPermission == old(hasNotificationPermission)
    {
      user := user.(currentStreak := user.currentStreak + 1);
    }

    method ResetStreak()
      modifies this
      ensures user == old(user).(currentStreak := 0)
      ensures isOnboardingCompleted == old(isOnboardingCompleted)
      ensures hasLocationPermission == old(hasLocationPermission)
      ensures hasNotificationPermission == old(hasNotificationPermission)
    {
      user := user.(currentStreak := 0);
    }

    /** The permission binding: the location service's enabled flag becomes the screen's. */
    method ReceivePermission(enabled: bool)
      modifies this
      ensures hasLocationPermission == enabled
      ensures user == old(user) && isOnboardingCompleted == old(isOnboardingCompleted)
      ensures hasNotificationPermission == old(hasNotificationPermission)
    {
      hasLocationPermission := enabled;
    }

    /** The location binding: every fix the location service publishes becomes the user's location. */
    method ReceiveLocation(c: Coordinate)
      modifies this
      ensures user == old(user).(location := Some(c))
      ensures isOnboardingCompleted == old(isOnboardingCompleted)
      ensures hasLocationPermission == old(hasLocationPermission)
      ensures hasNotificationPermission == old(hasNotificationPermission)
    {
      user := user.(location := Some(c));
    }
  }
}

=== FILE: words.dfy ===
/**
 * The Foundation character sets and string operations behind the news
 * search guard and the trending-word count: `whitespacesAndNewlines`,
 * `punctuationCharacters`, `components(separatedBy:)` and
 * `trimmingCharacters(in:)`.
 */
module Words {
  import opened Common

  /** `CharacterSet.whitespacesAndNewlines`: Unicode separators and line breaks. */
  predicate IsWhitespace(c: char)
  {
    var n := c as int;
    || (0x09 <= n <= 0x0D) || n == 0x20 || n == 0x85 || n == 0xA0 || n == 0x1680
    || (0x2000 <= n <= 0x200A) || n == 0x2028 || n == 0x2029 || n == 0x202F || n == 0x205F || n == 0x3000
  }

  predicate IsWordChar(c: char)
  {
    !IsWhitespace(c)
  }

  /** `CharacterSet.punctuationCharacters` on ASCII: the general category P characters. */
  predicate IsPunctuation(c: char)
  {
    || c == '!' || c == '"' || c == '#' || c == '%' || c == '&' || c == '\'' || c == '(' || c == ')'
    || c == '*' || c == ',' || c == '-' || c == '.' || c == '/' || c == ':' || c == ';' || c == '?'
    || c == '@' || c == '[' || c == '\\' || c == ']' || c == '_' || c == '{' || c == '}'
  }

  /** `trimmingCharacters(in: .whitespacesAndNewlines).isEmpty`. */
  predicate IsBlank(s: string)
  {
    forall k :: 0 <= k < |s| ==> IsWhitespace(s[k])
  }

  /** The pieces glued back together, without separators. */
  function Concat(ws: seq<string>): string
    decreases |ws|
  {
    if ws == [] then [] else ws[0] + Concat(ws[1..])
  }

  /**
   * `components(separatedBy: .whitespacesAndNewlines)`: every separator
   * closes a piece, so consecutive separators produce empty pieces.
   */
  function Split(s: string): (r: seq<string>)
    ensures |r| == |Filter(IsWhitespace, s)| + 1
    ensures forall i :: 0 <= i < |r| ==> forall k :: 0 <= k < |r[i]| ==> IsWordChar(r[i][k])
    ensures Concat(r) == Filter(IsWordChar, s)
    decreases |s|
  {
    if s == [] then [[]]
    else
      var rest := Split(s[1..]);
      if IsWhitespace(s[0]) then [[]] + rest
      else
        assert Concat(rest) == rest[0] + Concat(rest[1..]);
        assert ([[s[0]] + rest[0]] + rest[1..])[1..] == rest[1..];
        [[s[0]] + rest[0]] + rest[1..]
  }

  /** A text without separators is a single piece. */
  lemma {:induction false} SplitWord(w: string)
    requires forall k :: 0 <= k < |w| ==> IsWordChar(w[k])
    ensures Split(w) == [w]
    decreases |w|
  {
    if w != [] {
      SplitWord(w[1..]);
      assert [w[0]] + w[1..] == w;
    }
  }

  /** The length of the leading punctuation run. */
  function Leading(s: string): (n: nat)
    ensures n <= |s|
    ensures forall k :: 0 <= k < n ==> IsPunctuation(s[k])
    ensures n == |s| || !IsPunctuation(s[n])
    decreases |s|
  {
    if s != [] && IsPunctuation(s[0]) then 1 + Leading(s[1..]) else 0
  }

  /** Where the trailing punctuation run starts. */
  function TrailingStart(s: string): (n: nat)
    ensures n <= |s|
    ensures forall k :: n <= k < |s| ==> IsPunctuation(s[k])
    ensures n == 0 || !IsPunctuation(s[n - 1])
    decreases |s|
  {
    if s != [] && IsPunctuation(s[|s| - 1]) then TrailingStart(s[..|s| - 1]) else |s|
  }

  /** `trimmingCharacters(in: .punctuationCharacters)`. */
  function TrimPunctuation(s: string): (t: string)
    ensures |t| <= |s|
    ensures t == [] || (!IsPunctuation(t[0]) && !IsPunctuation(t[|t| - 1]))
    ensures exists i, j :: 0 <= i <= j <= |s| && t == s[i..j]
              && (forall k :: 0 <= k < i ==> IsPunctuation(s[k]))
              && (forall k :: j <= k < |s| ==> IsPunctuation(s[k]))
  {
    var i := Leading(s);
    var j := i + TrailingStart(s[i..]);
    assert forall k :: j <= k < |s| ==> s[k] == s[i..][k - i];
    assert s[i..][..j - i] == s[i..j];
    s[i..j]
  }

  /** Trimming leaves alone a text that neither starts nor ends with punctuation. */
  lemma TrimUntouched(s: string)
    requires s == [] || (!IsPunctuation(s[0]) && !IsPunctuation(s[|s| - 1]))
    ensures TrimPunctuation(s) == s
  {
    assert Leading(s) == 0;
    assert TrailingStart(s) == |s|;
    assert s[0..] == s;
  }

  /** Trimming twice trims no more than once. */
  lemma TrimIdempotent(s: string)
    ensures TrimPunctuation(TrimPunctuation(s)) == TrimPunctuation(s)
  {
    TrimUntouched(TrimPunctuation(s));
  }
}
